=== FILE: README.md ===
# Falconer core, modelled in Dafny

Falconer is a Bitcoin wallet agent. Before money leaves the wallet, a policy engine checks every spend request against spending limits. Daily spending, the transaction history and the violation log are kept in JSON files. When the balance runs low, the agent drafts a funding proposal. A human approves or rejects it through an n8n webhook that carries an HMAC signature. Payments are built as PSBTs (Partially Signed Bitcoin Transactions) from the wallet's unspent outputs (UTXOs).

This project models that core and proves properties about it:

- `PolicySchema`, `FundingSchema`: the data models and their field constraints. Each constructor returns the value or the list of constraint errors.
- `Dates`: `datetime.date`, `strftime("%Y-%m-%d")` and `strptime("%Y-%m-%d")`, and `date - timedelta(days)`. A date outside the calendar gives `None`, where Python raises `OverflowError`. The expiry cutoff of `FundingManager` does the same for instants.
- `JsonFiles`: `_load_json` and `_save_json` over an abstract file state. A write can succeed or fail. A load fails on a file that is not text in the locale's encoding.
- `Persistence`: the ledger (`PersistenceManager`), as a class.
  - The daily-spend records are a map keyed by date string.
  - The transaction history keeps its last 1000 entries; the violation log keeps its last 500.
- `PolicyEngine`: the `PolicyEngine` class.
  - The four rules, checked in order and logged as they are found.
  - Recording a spend, with or without a ledger attached.
  - The daily summary.
- `FundingManager`: the `FundingProposalManager` class.
  - The proposal lifecycle: pending, then approved, rejected or expired; approved, then executed.
  - Listing, the expiry sweep and the statistics.
  - The expected return, risk and horizon estimates.
- `N8nAdapter`: the webhook signature decision, Python's `int(str)`, and the strategy bullets of the message sent for human review.
- `Validation`: the address, amount and fee-rate validators.
- `Config`: the defaults, the single-transaction validator, the destination-list parser and the service URLs.
- `Psbt`: coin selection, the size and fee estimates, and the change/dust rule.

The clock, the random proposal id, UTF-8 encoding and HMAC-SHA256 are not modelled. They are parameters of the operations that need them. Timestamps are integer microseconds since 0001-01-01 00:00:00, the earliest `datetime`. Python floats are Dafny `real`s.

## Model

| member | source | states |
|---|---|---|
| Prelude.KeepLast | src/falconer/persistence.py:136-138 | keeps at most `n` entries, and they are the newest ones, in order |
| Prelude.KeepLastAppendOneByOne | src/falconer/persistence.py:134-138 | appending one entry at a time and truncating each time gives the same log as truncating once |
| Prelude.SliceFrom | src/falconer/persistence.py:162 | Python's `x[-k:]`: a suffix of the input, of length `len - start` for a start within range, `-start` for a negative start within range, the whole input for a more negative one and empty past the end |
| Prelude.TruncToInt | src/falconer/wallet/psbt.py:263 | Python's `int(float)`: truncation toward zero, within one of the argument, on either sign |
| Prelude.DecimalRoundTrip | src/falconer/funding/n8n_adapter.py:137 | the decimal text of a natural number reads back as that number |
| Prelude.SplitJoin | src/falconer/config.py:74 | splitting a comma-joined list gives the list back when no piece contains a comma |
| Dates.DaysInMonth | src/falconer/policy/schema.py:77 | a month has 28 to 31 days |
| Dates.BeforeTransitive | src/falconer/persistence.py:302 | date order is transitive |
| Dates.BeforeTotal | src/falconer/persistence.py:302 | date order is total and strict |
| Dates.Pred | src/falconer/persistence.py:93 | the day before is strictly earlier, and it is missing only for 0001-01-01 |
| Dates.Succ | src/falconer/persistence.py:93 | the day after is strictly later, and it is missing only for 9999-12-31 |
| Dates.DaysAgo | src/falconer/persistence.py:93 | `today - timedelta(days=0)` is today |
| Dates.AddDaysBackMonotone | src/falconer/persistence.py:92-94 | going back further never reaches a later date, and defined steps stay defined |
| Dates.DaysAgoStrict | src/falconer/persistence.py:92-94 | going back strictly further reaches a strictly earlier date |
| Dates.FormatDate | src/falconer/policy/engine.py:115 | `strftime("%Y-%m-%d")` gives ten characters with dashes at positions 4 and 7 |
| Dates.ParseDate | src/falconer/policy/schema.py:77 | `strptime("%Y-%m-%d")` accepts only 8 to 10 characters with a dash after the year |
| Dates.ParseFormat | src/falconer/policy/schema.py:73-80 | every formatted date parses back to the same date |
| Dates.ParsePadded | src/falconer/policy/schema.py:73-80 | a zero-padded year, month and day in range are accepted exactly when they form a calendar date, and parse to that date |
| Dates.FormatDateInjective | src/falconer/persistence.py:94 | two dates with the same date key are the same date |
| Dates.CanonicalDateAccepted | src/falconer/policy/schema.py:73-80 | "2024-01-01" parses to 1 January 2024 |
| Dates.SlashDateRefused | src/falconer/policy/schema.py:73-80 | "01/01/2024" is refused |
| Dates.CommonYearLeapDayRefused | src/falconer/policy/schema.py:73-80 | "2023-02-29" is refused |
| JsonFiles.LoadJson | src/falconer/persistence.py:230-252 | a readable file gives its content; a missing file, one that cannot be opened or one that is not JSON gives the default when it is truthy, else `{}`; a file that is not text in the locale's encoding makes the load fail, since `UnicodeDecodeError` is not caught |
| JsonFiles.SaveJson | src/falconer/persistence.py:254-286 | succeeds exactly when the write succeeds and then holds the data; a failed write over an existing file restores it from the backup |
| JsonFiles.SaveThenLoad | src/falconer/persistence.py:254-286 | a later load sees the new data after a successful save, and exactly the old data after a failed one |
| JsonFiles.EmptyListDefaultReadsAsObject | src/falconer/persistence.py:116-120 | a missing or unparseable log file with default `[]` reads as `{}`, because `[]` is falsy; an undecodable one still fails |
| PolicySchema.NewPolicy | src/falconer/policy/schema.py:9-35 | a policy is built exactly when `0 < single <= daily`; otherwise the errors are listed, and `single > daily > 0` gives exactly the single-over-daily error |
| PolicySchema.PolicyDefaults | src/falconer/policy/schema.py:18-26 | no allow-list, no fee cap and confirmation required by default; equal limits are accepted |
| PolicySchema.NewTransactionRequest | src/falconer/policy/schema.py:38-47 | a request is built exactly when the amount is positive, and it keeps every field |
| PolicySchema.NewViolation | src/falconer/policy/schema.py:50-63 | the violation carries its type, request, severity and time |
| PolicySchema.ViolationSeverityDefault | src/falconer/policy/schema.py:58-60 | severity defaults to error |
| PolicySchema.NewDailySpend | src/falconer/policy/schema.py:66-80 | a record is built exactly when the date parses and both counters are non-negative |
| PolicySchema.DailySpendDateExamples | src/falconer/policy/schema.py:73-80 | the canonical date builds a record; the slash date does not |
| Persistence.StatusFor | src/falconer/persistence.py:130 | "completed" exactly when the txid is present and non-empty |
| Persistence.HistoryEntry | src/falconer/persistence.py:123-131 | the history entry carries the request's destination and amount, the txid and its status |
| Persistence.DayRecord | src/falconer/persistence.py:92-97 | a record found for day `i` is the stored record under that day's date key |
| Persistence.RetainFrom | src/falconer/persistence.py:298-303 | keeps exactly the records dated on or after the cutoff, unchanged |
| Persistence.Ledger.constructor | src/falconer/persistence.py:18-29 | a fresh ledger holds no records, no history and no violations |
| Persistence.Ledger.LoadDailySpend | src/falconer/persistence.py:59-76 | returns the day's record exactly when one is stored |
| Persistence.Ledger.SaveDailySpend | src/falconer/persistence.py:31-57 | inserts or overwrites the record under its date; no other day and neither log changes |
| Persistence.Ledger.LoadDailySpends | src/falconer/persistence.py:78-103 | the loop returns the trailing-window records (`Persistence.TrailingDailySpends`) |
| Persistence.Ledger.SaveTransaction | src/falconer/persistence.py:105-149 | appends the entry and keeps the newest 1000; nothing else changes |
| Persistence.Ledger.LoadTransactionHistory | src/falconer/persistence.py:151-166 | a suffix of the history: all of it for limit 0, the last `limit` entries for positive limits, and Python's negative-slice length for negative limits |
| Persistence.Ledger.SavePolicyViolation | src/falconer/persistence.py:168-203 | stamps the time, appends the violation and keeps the newest 500; nothing else changes |
| Persistence.Ledger.LoadPolicyViolations | src/falconer/persistence.py:205-220 | the same suffix rule over the violation log |
| Persistence.Ledger.CleanupOldData | src/falconer/persistence.py:288-310 | keeps exactly the records dated on or after `today - days`; changes nothing when that date overflows |
| Persistence.TrailingStep | src/falconer/persistence.py:92-97 | one more day of the window appends that day's record, if any |
| Persistence.TrailingStaysNone | src/falconer/persistence.py:92-103 | once a queried day overflows, every longer query fails |
| Persistence.TrailingContents | src/falconer/persistence.py:78-99 | the window's result holds exactly the stored records of the queried days |
| Persistence.TrailingNewestFirst | src/falconer/persistence.py:92-97 | along the result the dates strictly decrease, so no day appears twice |
| Persistence.DayRecordDate | src/falconer/persistence.py:42 | a stored record's date is the day it was looked up for |
| Persistence.RetainDayRecord | src/falconer/persistence.py:298-303 | a day on or after the cutoff keeps its record through cleanup |
| Persistence.RetainKeepsTrailing | src/falconer/persistence.py:288-303 | cleanup with `days` does not change the trailing window of at most `days + 1` days |
| Persistence.CleanupKeepsTrailing | src/falconer/persistence.py:78-103 | `load_daily_spends(n)` returns the same records before and after `cleanup_old_data(days)` when `n <= days + 1` |
| PolicyEngine.ViolationsSpec | src/falconer/policy/engine.py:37-103 | each of the four rules is reported exactly when its condition holds, at most once and in checking order; a request is clean exactly when it passes all four |
| PolicyEngine.SeverityOf | src/falconer/policy/engine.py:45-96 | fee-rate violations are warnings; the other three are errors |
| PolicyEngine.Flagged | src/falconer/policy/engine.py:40-47 | a rule is listed exactly when it is broken |
| PolicyEngine.RecordFor | src/falconer/policy/engine.py:41-98 | the record carries the broken rule's type, the request and the current time, and is a warning exactly for the fee-rate rule (an error otherwise) |
| PolicyEngine.Records | src/falconer/policy/engine.py:41-98 | one violation record per broken rule, in the same order, each with that rule's type and severity, the request and the current time |
| PolicyEngine.AllowedStaysWithinDailyLimit | src/falconer/policy/engine.py:53-62 | a request that breaks no rule keeps the day within the daily and single limits |
| PolicyEngine.ValidateAsWritten | src/falconer/policy/engine.py:85-101 | as written: raises exactly when no ledger is attached and the fee rule fires; otherwise returns the violations |
| PolicyEngine.FeeWarningWithoutLedgerRaises | src/falconer/policy/engine.py:100-101 | a 100 sat/vbyte request against a 50 sat/vbyte cap, with no ledger, raises |
| PolicyEngine.FindDate | src/falconer/policy/engine.py:138-141 | finds the first in-memory record for the day, or reports that none exists |
| PolicyEngine.FindDateAt | src/falconer/policy/engine.py:177-179 | the first index with the day's date is the one found |
| PolicyEngine.BumpAtSearchEnd | src/falconer/policy/engine.py:136-151 | where the search stops, recording bumps the found record or appends a zero record and bumps it |
| PolicyEngine.BumpShape | src/falconer/policy/engine.py:136-151 | recording changes only the recorded day's record, or appends it |
| PolicyEngine.BumpSpent | src/falconer/policy/engine.py:149-151 | recording adds the amount to the recorded day and to no other day |
| PolicyEngine.BumpKeepsDistinct | src/falconer/policy/engine.py:143-147 | recording keeps one valid record per day |
| PolicyEngine.Bumped | src/falconer/policy/engine.py:119-128 | the day's record gains the amount and one transaction; a missing record starts at zero |
| PolicyEngine.OnOrAfter | src/falconer/policy/engine.py:195-200 | keeps exactly the in-memory records dated on or after the cutoff |
| PolicyEngine.OnOrAfterKeepsWindow | src/falconer/policy/engine.py:195-200 | the in-memory summary keeps every record from `today - days` through today, which is `days + 1` days |
| PolicyEngine.Engine.constructor | src/falconer/policy/engine.py:15-24 | stores the policy and the optional ledger; there are no in-memory records |
| PolicyEngine.Engine.GetDailySpend | src/falconer/policy/engine.py:161-180 | the day's total from the ledger or the in-memory records; 0 when there is no record |
| PolicyEngine.Engine.ValidateTransaction | src/falconer/policy/engine.py:26-103 | returns the records of the broken rules (`PolicyEngine.ViolationsSpec`) and appends each to the ledger's log, with or without a ledger |
| PolicyEngine.Engine.Check | src/falconer/policy/engine.py:40-51 | one rule: a broken rule is appended to the results and the log; the log stays the starting log plus all results |
| PolicyEngine.Engine.CheckLimits | src/falconer/policy/engine.py:39-66 | the single-transaction and daily rules are reported, against the day's spending before the call, and logged in that order |
| PolicyEngine.Engine.CheckRequestRules | src/falconer/policy/engine.py:68-101 | the destination and fee-rate rules are appended to those found so far and logged; the daily records and history are untouched |
| PolicyEngine.Engine.RecordTransaction | src/falconer/policy/engine.py:105-159 | today's spending rises by exactly the amount and no other day changes; with a ledger the history gains the entry |
| PolicyEngine.Engine.RecordInMemory | src/falconer/policy/engine.py:136-151 | the search-then-bump loop equals `PolicyEngine.Bump` |
| PolicyEngine.Engine.GetDailySpendSummary | src/falconer/policy/engine.py:182-200 | with a ledger: the ledger's trailing window; without one: the records dated on or after `today - days`, or the overflow error |
| PolicyEngine.Engine.IsTransactionAllowed | src/falconer/policy/engine.py:202-212 | over the corrected validation (no failure without a ledger): allowed exactly when no rule is broken |
| FundingSchema.ProposalErrors | src/falconer/funding/schema.py:16-23 | no errors exactly when the amount is positive, the balance and return are non-negative and the horizon is positive |
| FundingSchema.NewProposal | src/falconer/funding/schema.py:10-31 | built exactly when the field constraints hold: pending, with the given values and every stamp unset |
| FundingSchema.NewProposalDefaults | src/falconer/funding/schema.py:21-22 | risk defaults to medium and strategies default to none |
| FundingSchema.NewApproval | src/falconer/funding/schema.py:40-48 | the notification carries its fields; the time is the current time |
| FundingSchema.ApprovalNotesDefault | src/falconer/funding/schema.py:46 | notes default to none |
| FundingManager.ShouldCreateProposal | src/falconer/funding/manager.py:21-27 | true exactly when funding is enabled and the balance is under the threshold |
| FundingManager.LifecycleShape | src/falconer/funding/manager.py:102-153 | rejected, executed and expired are final; nothing returns to pending; only approved proposals are executed |
| FundingManager.Approve | src/falconer/funding/manager.py:111-117 | stamps the status, time and approver; sets the notes only when given non-empty; leaves the rest unchanged |
| FundingManager.Reject | src/falconer/funding/manager.py:131-134 | stamps the status, time and rejecter; the reason becomes the notes; leaves the rest unchanged |
| FundingManager.Execute | src/falconer/funding/manager.py:148-150 | stamps the status, time and txid; leaves the rest unchanged |
| FundingManager.Filtered | src/falconer/funding/manager.py:82 | keeps exactly the proposals matching the status filter |
| FundingManager.Take | src/falconer/funding/manager.py:82 | the first `limit` proposals, or all of them without a limit |
| FundingManager.TruncateJustification | src/falconer/funding/manager.py:86-89 | up to 200 characters unchanged; longer ones become their first 197 characters plus "..." |
| FundingManager.TruncateIdempotent | src/falconer/funding/manager.py:86-89 | truncating twice is truncating once |
| FundingManager.Summarize | src/falconer/funding/manager.py:90-97 | the summary copies the id, time, status and amount, and truncates the justification |
| FundingManager.Summaries | src/falconer/funding/manager.py:85-99 | one summary per proposal, in order |
| FundingManager.ExpiryCutoff | src/falconer/funding/manager.py:157 | defined exactly when the age is within a `timedelta`'s 999999999 days and the cutoff lies in years 1 to 9999 (Python raises `OverflowError` otherwise); then the cutoff is in range, exactly that many hours before now, and no later than now for a non-negative age |
| FundingManager.ExpiryOverflows | src/falconer/funding/manager.py:157 | a hundred million hours back from any instant overflows |
| FundingManager.DefaultAgeInRange | src/falconer/funding/manager.py:155-157 | the default 24 hours is defined from the second day of the calendar on |
| FundingManager.ExpireStale | src/falconer/funding/manager.py:155-167 | exactly the pending proposals older than the cutoff become expired; the ids are unchanged |
| FundingManager.ExpireIdempotent | src/falconer/funding/manager.py:155-167 | a second sweep at the same cutoff changes nothing and counts nothing |
| FundingManager.TallyCounts | src/falconer/funding/manager.py:185-188 | the by-status map holds exactly the statuses that occur, each with its count |
| FundingManager.ApprovalRate | src/falconer/funding/manager.py:194-197 | the rate is in [0, 1], 0 when nothing is decided, and otherwise approved / (approved + rejected) |
| FundingManager.StatisticsFacts | src/falconer/funding/manager.py:169-202 | approved sats are at most requested sats; the integer average is at least 1 and at most the exact mean |
| FundingManager.ExpectedRoi | src/falconer/funding/manager.py:242-257 | raises (division by zero) exactly when there are daily earnings and nothing was requested; a positive request gives a non-negative return |
| FundingManager.RoiRate | src/falconer/funding/manager.py:245-251 | the thirty-day rate is never below 5% |
| FundingManager.ExpectedRoiExample | src/falconer/funding/manager.py:242-257 | 100000 sats requested, one strategy and 5000 sats a day give 165000 |
| FundingManager.ExpectedRoiMonotone | src/falconer/funding/manager.py:253-256 | more strategies never lower the expected return |
| FundingManager.RiskScore | src/falconer/funding/manager.py:261-274 | the score is clamped to [0, 1] |
| FundingManager.AssessRisk | src/falconer/funding/manager.py:276-281 | low exactly below 0.3; high exactly at 0.7 or above |
| FundingManager.AssessRiskMonotone | src/falconer/funding/manager.py:259-281 | higher volatility never lowers the risk level |
| FundingManager.DefaultVolatilityRisk | src/falconer/funding/manager.py:261-281 | at the default volatility: high with fewer than two strategies, medium otherwise |
| FundingManager.HorizonLookup | src/falconer/funding/manager.py:289-299 | every table entry, and the default, is between 1 and 30 days |
| FundingManager.MaxHorizonIsDefault | src/falconer/funding/manager.py:283-302 | the maximum is at least 30 and at least every lookup, so it is always 30 |
| FundingManager.CalculateTimeHorizon | src/falconer/funding/manager.py:283-302 | the loop computes the maximum, which is 30 |
| FundingManager.ProposalManager.constructor | src/falconer/funding/manager.py:15-19 | a fresh manager holds no proposals |
| FundingManager.ProposalManager.GetProposal | src/falconer/funding/manager.py:76-78 | returns the stored proposal exactly when its id is stored |
| FundingManager.ProposalManager.LoadProposals | src/falconer/funding/manager.py:82 | every listed proposal matches the filter; at most `limit` are listed |
| FundingManager.ProposalManager.SaveProposal | src/falconer/funding/manager.py:72 | the proposal is stored under its id; a new id is listed first |
| FundingManager.ProposalManager.ListProposals | src/falconer/funding/manager.py:80-100 | the loop returns the summaries of the first `limit` matching proposals |
| FundingManager.ProposalManager.PendingSeen | src/falconer/funding/manager.py:31-33 | the pending count that generation sees is the number of pending proposals, capped at 50 |
| FundingManager.ProposalManager.GenerateProposal | src/falconer/funding/manager.py:29-74 | refused at capacity; otherwise stores a pending proposal with the default amount and the computed return, risk and horizon; succeeds below capacity with valid inputs |
| FundingManager.ProposalManager.ApproveProposal | src/falconer/funding/manager.py:102-120 | an unknown id or a proposal that is not pending is refused and nothing changes; otherwise only that proposal is approved |
| FundingManager.ProposalManager.RejectProposal | src/falconer/funding/manager.py:122-137 | the same, with rejection |
| FundingManager.ProposalManager.MarkExecuted | src/falconer/funding/manager.py:139-153 | an unknown id or a proposal that is not approved is refused; otherwise only that proposal is executed |
| FundingManager.ProposalManager.ExpireOldProposals | src/falconer/funding/manager.py:155-167 | fails with nothing changed exactly when the cutoff overflows; otherwise the store becomes `FundingManager.ExpireStale` at the cutoff and the count is the number of stale proposals; every change is a legal transition |
| FundingManager.ProposalManager.Sweep | src/falconer/funding/manager.py:160-165 | the loop expires the stale proposals among those listed and counts them |
| FundingManager.ProposalManager.ExpireIfStale | src/falconer/funding/manager.py:161-165 | expires the next listed proposal exactly when it is stale, so the store is swept one proposal further and the stale count grows by one exactly then |
| FundingManager.ProposalManager.GetProposalStatistics | src/falconer/funding/manager.py:169-202 | the statistics of all stored proposals (`FundingManager.StatisticsOf`) |
| FundingManager.Accumulate | src/falconer/funding/manager.py:182-200 | the counting loop computes `FundingManager.StatisticsOf` |
| FundingManager.ExpiryStepsLegally | src/falconer/funding/manager.py:162-163 | the sweep only moves pending proposals to expired |
| FundingManager.CountStalePending | src/falconer/funding/manager.py:158-163 | counting the stale proposals among the pending ones counts all the stale ones |
| N8nAdapter.PyInt | src/falconer/funding/n8n_adapter.py:137 | `int(str)`: a text with no blank at either end reads as a signed, underscore-grouped decimal; the blanks `int()` skips are ASCII whitespace and the non-ASCII `isspace` characters, not U+001C to U+001F |
| N8nAdapter.PyIntOfDecimal | src/falconer/funding/n8n_adapter.py:137 | the decimal text of an integer parses back to it exactly when it has at most 4300 digits, and is refused otherwise |
| N8nAdapter.LongDigitRunRefused | src/falconer/funding/n8n_adapter.py:137 | more than 4300 digits, leading zeros included, are refused |
| N8nAdapter.PyIntExamples | src/falconer/funding/n8n_adapter.py:137 | "abc" and "1__0" are refused; "1_0" is 10 |
| N8nAdapter.PyIntBlanks | src/falconer/funding/n8n_adapter.py:137 | a leading newline or no-break space is skipped, while a leading U+001C is refused although `str.strip()` removes it |
| N8nAdapter.VerifyWebhookSignature | src/falconer/funding/n8n_adapter.py:124-182 | without a secret: accepted exactly outside production; with one: a non-integer timestamp or one more than 300 s away is refused, and for an integer timestamp within 300 s the request is accepted exactly when the signature equals the HMAC of timestamp plus payload |
| N8nAdapter.SignedFreshRequestAccepted | src/falconer/funding/n8n_adapter.py:135-171 | a correctly signed request stamped with the decimal text of a clock within 300 s (inclusive) is accepted exactly when the stamp has at most 4300 digits |
| N8nAdapter.StaleRequestRefused | src/falconer/funding/n8n_adapter.py:138-149 | a request stamped more than 300 s away is refused whatever its signature |
| N8nAdapter.LongStampRefused | src/falconer/funding/n8n_adapter.py:134-182 | with a secret set, a stamp of more than 4300 digits makes `int()` raise, and the request is refused whatever its signature and the clock |
| N8nAdapter.SeparatorStampRefused | src/falconer/funding/n8n_adapter.py:134-182 | with a secret set, a timestamp led by U+001C makes `int()` raise, and the request is refused whatever its signature and the clock |
| N8nAdapter.StrategyBullets | src/falconer/funding/n8n_adapter.py:204-210 | one bullet per strategy, in order, or the three default bullets |
| N8nAdapter.StrategyBulletsRoundTrip | src/falconer/funding/n8n_adapter.py:204-210 | the strategies read back off their bullets exactly |
| Validation.CheckAddress | src/falconer/validation.py:22-53 | only success with `true`, or the first failing check's error |
| Validation.ValidateBitcoinAddressAsWritten | src/falconer/validation.py:9-53 | as written: acceptance implies the `$`-anchored pattern matched |
| Validation.ValidateBitcoinAddress | src/falconer/validation.py:9-53 | acceptance implies one of the three address shapes over the whole string |
| Validation.AcceptedAddresses | src/falconer/validation.py:26-51 | on mainnet exactly legacy or `bc1` shapes; on testnet exactly `tb1` shapes; elsewhere any shape |
| Validation.CorrectedIsStricter | src/falconer/validation.py:30-34 | the corrected validator accepts nothing that the as-written one refuses |
| Validation.TrailingNewlineAccepted | src/falconer/validation.py:30-34 | 26 ones followed by a newline pass as written on mainnet, and fail the corrected format check |
| Validation.IsValidBitcoinAddressAsWritten | src/falconer/validation.py:78-91 | as written: true exactly when the `$`-anchored validator accepts |
| Validation.NewlineAddressCalledValid | src/falconer/validation.py:30-34 | the boolean check as written calls 26 ones and a newline valid on mainnet; the corrected one does not |
| Validation.IsValidBitcoinAddress | src/falconer/validation.py:78-91 | over the corrected validator: true exactly when it accepts, and then the address has one of the three shapes |
| Validation.FirstInvalid | src/falconer/validation.py:71-75 | over the corrected validator: none exactly when every address is valid; otherwise the first invalid index |
| Validation.ValidateBitcoinAddresses | src/falconer/validation.py:56-75 | over the corrected validator: the loop returns the list itself when all addresses are valid, else the first invalid address's error |
| Validation.ValidateAmountSats | src/falconer/validation.py:94-117 | accepts exactly integers (bools count as 0 and 1) from 1 to 21·10^14; other types are refused as not integers |
| Validation.AmountBoundaries | src/falconer/validation.py:106-117 | 1 and the whole supply pass; 0, one over the supply, a string and a float fail with their errors |
| Validation.ValidateFeeRate | src/falconer/validation.py:120-142 | accepts exactly numbers in (0, 1000]; other types are refused as not numbers |
| Validation.FeeRateBoundaries | src/falconer/validation.py:132-142 | 1000 and 100.99 pass; 0, 1001 and a string fail with their errors |
| Config.SingleTxLessThanDaily | src/falconer/config.py:55-67 | refused exactly when the daily limit was validated and the single limit exceeds it |
| Config.DefaultLimitsAccepted | src/falconer/config.py:42-43 | the default limits pass, and so do equal limits |
| Config.ParseAllowedDestinations | src/falconer/config.py:69-75 | a list passes through and nothing becomes `[]`; a string gives non-empty stripped pieces without commas |
| Config.ParseJoinedDestinations | src/falconer/config.py:73-74 | clean destinations joined by commas are read back as they were |
| Config.EmptyDestinations | src/falconer/config.py:74 | "" and "," give no destinations |
| Config.ServiceUrlParts | src/falconer/config.py:84-97 | a URL splits at its colons into the scheme, "//" plus the host, and the port |
| Config.DefaultBitcoindUrl | src/falconer/config.py:17-20 | the default node URL is `http://127.0.0.1:8332` |
| Psbt.Sum | src/falconer/wallet/psbt.py:217 | the total of no UTXOs is 0 |
| Psbt.SumPrefix | src/falconer/wallet/psbt.py:215-222 | a prefix never holds more than the whole list |
| Psbt.SortDescCorrect | src/falconer/wallet/psbt.py:211 | the sort yields a descending permutation of its input |
| Psbt.SortDescStable | src/falconer/wallet/psbt.py:211 | UTXOs of equal amount keep their input order |
| Psbt.SortKeepsSum | src/falconer/wallet/psbt.py:211 | sorting keeps the total |
| Psbt.ShortestReachingUnique | src/falconer/wallet/psbt.py:215-222 | the shortest prefix that reaches the goal is unique |
| Psbt.SelectUtxos | src/falconer/wallet/psbt.py:198-229 | fails exactly when all UTXOs together are below the target; otherwise returns the shortest largest-first prefix reaching the target plus 10000, or all UTXOs, whose total is at least the target |
| Psbt.TakeUntil | src/falconer/wallet/psbt.py:213-222 | the loop takes the shortest non-empty prefix whose total reaches the goal, or every UTXO, and its running total is that prefix's sum |
| Psbt.SelectionExample | src/falconer/wallet/psbt.py:215-222 | 30k, 20k and 10k sats against a target of 40k: the two largest are taken |
| Psbt.EstimateTxSize | src/falconer/wallet/psbt.py:265-279 | never below the 10-byte overhead |
| Psbt.TxSizeSteps | src/falconer/wallet/psbt.py:15-17 | 10 bytes for an empty transaction, plus 148 per input and 34 per output |
| Psbt.EstimateFee | src/falconer/wallet/psbt.py:246-263 | the two-output size times the rate, truncated: within one satoshi below the exact product |
| Psbt.FeeIgnoresAmount | src/falconer/wallet/psbt.py:246-263 | the fee does not depend on the output amount |
| Psbt.FeeMonotoneInInputs | src/falconer/wallet/psbt.py:259-263 | at a non-negative rate, more inputs never cost less |
| Psbt.FeeExample | src/falconer/wallet/psbt.py:259-263 | two inputs at 10 sat/vbyte: 374 bytes and 3740 sats |
| Psbt.PlanOutputs | src/falconer/wallet/psbt.py:105-110 | the payment first; a change output exactly when the change exceeds 546 sats, carrying the change |
| Psbt.OutputsBalance | src/falconer/wallet/psbt.py:105-110 | with change, outputs plus fee use up the inputs exactly; without it, at most 546 sats beyond the fee go to miners |
| Psbt.PlannedSize | src/falconer/wallet/psbt.py:137-142 | the recorded size counts one output, or two when there is change |

## Left out

- `_generate_justification` and `_generate_intended_use` (src/falconer/funding/manager.py:204-240): free-text templates over market data. Their texts are parameters of `GenerateProposal`.
- The proposal store: src/falconer/persistence.py defines no funding-proposal storage. The store is a map plus a newest-first id order inside `ProposalManager`, and the listing is newest first.
- `send_proposal` (src/falconer/funding/n8n_adapter.py:28-122): an HTTP call. Only the strategy bullets of `format_proposal_for_human` are modelled; the rest is text layout of floats and dates.
- `N8nAdapter.VerifyWebhookSignature`: HMAC-SHA256 and UTF-8 encoding are parameters. `hmac.compare_digest` is plain equality, because its constant running time is not a functional property.
- `N8nAdapter.PyInt`: ASCII digits only. Python's `int()` also accepts other Unicode decimal digits. The blanks it skips are modelled in full. The 4300-digit ceiling is the interpreter's default; changing it with `sys.set_int_max_str_digits` or `PYTHONINTMAXSTRDIGITS` is not modelled.
- `Dates.ParseDate`: ASCII digits only. Python's `strptime` also accepts other Unicode decimal digits in `%Y`, `%m` and `%d`.
- `FundingManager.HorizonLookup`: lower-cases ASCII letters only. Python's `str.lower` also maps other letters, such as the Kelvin sign to `k`.
- `Psbt.PlanOutputs`: assumes the change address differs from the destination. In the source the outputs are a dictionary keyed by address, so equal addresses would overwrite the payment with the change.
- `PolicyEngine.Engine.IsTransactionAllowed`: follows the corrected validation. As written, with no ledger attached and a fee rate over the cap, it raises instead of answering (see Findings).
- `Validation.IsValidBitcoinAddress`: follows the corrected validator. As written it is `Validation.IsValidBitcoinAddressAsWritten`, which also accepts an address shape followed by one newline (see Findings).
- `Validation.FirstInvalid`: follows the corrected validator, so an address ending in a newline counts as invalid where the source accepts it.
- `Validation.ValidateBitcoinAddresses`: follows the corrected validator, so a list holding an address ending in a newline fails where the source returns it.
- `create_psbt`, `finalize_psbt`, `broadcast_psbt`, `_estimate_fee_rate` and `_get_change_address` (src/falconer/wallet/psbt.py): node RPC calls. UTXO amounts are whole satoshis, not BTC floats converted with `int(amount * 1e8)`.
- Floats are exact reals. NaN, infinities and rounding are not modelled (risk score, return estimate, fee rate).
- Clock: today's date and the current instant are parameters. The sources mix UTC and local time, and that difference is not modelled.
- Logging calls, and the dictionary serialisation of violations (`model_dump()` versus `dict()`), are not modelled. Neither is the human-readable `message` text of a `PolicyViolation`, so `PolicySchema.PolicyViolation` has no message field.
- `Persistence.Ledger`: its methods model successful writes over decodable files. What a failed write leaves behind is stated by `JsonFiles.SaveJson` and `JsonFiles.SaveThenLoad`. A file that is not text in the locale's encoding makes `_load_json` raise (`JsonFiles.LoadJson` gives `None`). Every save reads its file first, so such a save, and `record_transaction`, raises too; the ledger's methods do not model that.
- A daily-spend file that cannot be opened or is not JSON loads as `{}`, as `_load_json` does. One that cannot be decoded raises (see `Persistence.Ledger` above).
- Settings the model takes as parameters are not fields of `Config` in src/falconer/config.py. These are the funding settings (`funding_proposal_enabled`, `funding_proposal_threshold_sats`, `funding_proposal_max_pending`, `funding_proposal_default_amount_sats`) and the webhook settings (`n8n_webhook_url`, `n8n_webhook_auth_token`, `n8n_webhook_secret`, `n8n_webhook_timeout_seconds`). The manager and the n8n adapter read them from it, and since `Config` does not declare them, those reads raise `AttributeError` as written. `FundingManager.FundingConfig` and the `secret` parameter of `N8nAdapter.VerifyWebhookSignature` supply them.
- `Validation.ValidateBitcoinAddress`: only string arguments are modelled; the `isinstance(address, str)` check on other types is not.
- Concurrency: calls are single-threaded. The read-modify-write of `record_transaction` is not atomic in the source.
- `FundingManager.ProposalManager.GenerateProposal`: the proposal id (`uuid4`) is a parameter, with the caller's guarantee that it is new.

## Findings

| source | as written | input that shows it | evidently intended | confidence | as-written member | corrected member |
|---|---|---|---|---|---|---|
| src/falconer/policy/engine.py:100-101 | the fee-rate branch calls `self.persistence.save_policy_violation` without checking that a ledger is attached | a policy with a 50 sat/vbyte cap, a request at 100 sat/vbyte, and no ledger: `None` has no `save_policy_violation`, so validation raises | log the warning only when a ledger is attached, as the other three rules do, and return it | not executed | PolicyEngine.ValidateAsWritten, PolicyEngine.FeeWarningWithoutLedgerRaises | PolicyEngine.Engine.ValidateTransaction, PolicyEngine.ViolationsSpec, PolicyEngine.Engine.IsTransactionAllowed |
| src/falconer/validation.py:30-34 | the address pattern ends in `$`, which in Python also matches just before a final newline | 26 `1` characters followed by `"\n"` on mainnet: the length is 27 and the pattern matches, so the address is accepted | the whole string must be one of the three address shapes | not executed | Validation.ValidateBitcoinAddressAsWritten, Validation.TrailingNewlineAccepted, Validation.IsValidBitcoinAddressAsWritten, Validation.NewlineAddressCalledValid | Validation.ValidateBitcoinAddress, Validation.AcceptedAddresses, Validation.IsValidBitcoinAddress, Validation.FirstInvalid, Validation.ValidateBitcoinAddresses |

=== FILE: config.dfy ===
/** The settings object: defaults, the single-transaction limit validator,
    the allowed-destinations parser and the service URLs. Reading the
    environment and the `.env` file is not modelled; the values arrive as
    arguments. */
module Config {
  import opened Prelude

  /** Scheme, local host, host address and port of one backing service. */
  datatype Endpoint = Endpoint(scheme: string, hostLocal: string, hostIp: string, port: int)

  datatype Settings = Settings(
    env: string,
    bitcoind: Endpoint,
    bitcoindRpcUser: string,
    bitcoindRpcPass: string,
    electrs: Endpoint,
    lnbits: Endpoint,
    lnbitsApiKey: string,
    lnbitsWalletId: string,
    policyPath: string,
    maxDailySpendSats: int,
    maxSingleTxSats: int,
    allowedDestinations: seq<string>,
    changeAddress: Option<string>,
    logLevel: string,
    logFile: Option<string>)

  /** The settings with every field at its default. */
  const Defaults: Settings := Settings(
    "dev",
    Endpoint("http", "127.0.0.1", "127.0.0.1", 8332),
    "bitcoin",
    "",
    Endpoint("http", "127.0.0.1", "127.0.0.1", 50001),
    Endpoint("http", "127.0.0.1", "127.0.0.1", 5000),
    "",
    "",
    "policy/dev.policy.json",
    100000,
    50000,
    [],
    None,
    "INFO",
    None)

  datatype ConfigError = SingleTxExceedsDaily

  /** `single_tx_less_than_daily`: `dailyValidated` is the daily limit when
      it was validated before this field, `None` when it is missing from
      the validated data. */
  function SingleTxLessThanDaily(v: int, dailyValidated: Option<int>): (r: Result<int, ConfigError>)
    ensures r.Failure? <==> dailyValidated.Some? && v > dailyValidated.value
    ensures r.Success? ==> r.value == v
  {
    if dailyValidated.Some? && v > dailyValidated.value then Failure(SingleTxExceedsDaily) else Success(v)
  }

  /** The default limits pass the validator, and equal limits pass too. */
  lemma DefaultLimitsAccepted(limit: int)
    ensures SingleTxLessThanDaily(Defaults.maxSingleTxSats, Some(Defaults.maxDailySpendSats)) == Success(50000)
    ensures SingleTxLessThanDaily(limit, Some(limit)) == Success(limit)
  {
  }

  /** The raw value given for `allowed_destinations`. */
  datatype RawDestinations = RawString(s: string) | RawList(items: seq<string>) | RawNone

  /** The non-empty stripped pieces of a comma-separated list. */
  function StrippedPieces(parts: seq<string>): (r: seq<string>)
    ensures |r| <= |parts|
    ensures forall i :: 0 <= i < |r| ==> r[i] != "" && IsStripped(r[i])
  {
    if parts == [] then []
    else
      var t := Strip(parts[0]);
      (if t != "" then [t] else []) + StrippedPieces(parts[1..])
  }

  /** `parse_allowed_destinations`: a string is split on ',', each piece
      stripped and empty pieces dropped; a list passes through; nothing
      becomes the empty list. */
  function ParseAllowedDestinations(v: RawDestinations): (r: seq<string>)
    ensures v.RawList? ==> r == v.items
    ensures v.RawNone? ==> r == []
    ensures v.RawString? ==> forall i :: 0 <= i < |r| ==> r[i] != "" && IsStripped(r[i]) && ',' !in r[i]
  {
    match v
    case RawString(s) =>
      var r := StrippedPieces(Split(s, ','));
      StrippedPiecesHaveNoComma(Split(s, ','));
      r
    case RawList(items) => items
    case RawNone => []
  }

  lemma {:induction false} StrippedPiecesHaveNoComma(parts: seq<string>)
    requires forall i :: 0 <= i < |parts| ==> ',' !in parts[i]
    ensures forall i :: 0 <= i < |StrippedPieces(parts)| ==> ',' !in StrippedPieces(parts)[i]
  {
    if parts != [] {
      StrippedPiecesHaveNoComma(parts[1..]);
      assert ',' !in parts[0];
      NoCommaAfterStrip(parts[0]);
    }
  }

  lemma NoCommaAfterStrip(s: string)
    requires ',' !in s
    ensures ',' !in Strip(s)
  {
    StripIsInside(s);
  }

  lemma StripIsInside(s: string)
    ensures forall c :: c in Strip(s) ==> c in s
  {
    var l := TrimLeft(s, IsSpace);
    forall c | c in TrimRight(l, IsSpace)
      ensures c in s
    {
      assert c in l;
    }
  }

  /** Destinations written out joined by commas are read back as they
      were, as long as each is non-empty, has no comma and no surrounding
      blanks. */
  lemma {:induction false} ParseJoinedDestinations(ds: seq<string>)
    requires |ds| >= 1
    requires forall i :: 0 <= i < |ds| ==> ds[i] != "" && IsStripped(ds[i]) && ',' !in ds[i]
    ensures ParseAllowedDestinations(RawString(Join(ds, ','))) == ds
  {
    SplitJoin(ds, ',');
    StrippedPiecesOfClean(ds);
  }

  lemma {:induction false} StrippedPiecesOfClean(ds: seq<string>)
    requires forall i :: 0 <= i < |ds| ==> ds[i] != "" && IsStripped(ds[i])
    ensures StrippedPieces(ds) == ds
  {
    if ds != [] {
      StripOfStripped(ds[0]);
      StrippedPiecesOfClean(ds[1..]);
    }
  }

  /** Blank pieces are dropped: an empty string or a lone comma gives no
      destination. */
  lemma EmptyDestinations()
    ensures ParseAllowedDestinations(RawString("")) == []
    ensures ParseAllowedDestinations(RawString(",")) == []
  {
    assert Split("", ',') == [""];
    assert FirstIndex(",", ',') == 0;
    assert Split(",", ',') == ["", ""] by {
      assert ","[..0] == "" && ","[1..] == "";
    }
  }

  /** `scheme://host_ip:port`. */
  function ServiceUrl(e: Endpoint): string {
    e.scheme + "://" + e.hostIp + ":" + IntToDecimal(e.port)
  }

  /** A URL splits at its colons back into the scheme, the host behind
      "//", and the port's decimal text, when neither scheme nor host holds
      a colon. */
  lemma ServiceUrlParts(e: Endpoint)
    requires ':' !in e.scheme && ':' !in e.hostIp
    ensures Split(ServiceUrl(e), ':') == [e.scheme, "//" + e.hostIp, IntToDecimal(e.port)]
  {
    var parts := [e.scheme, "//" + e.hostIp, IntToDecimal(e.port)];
    DecimalHasNoColon(e.port);
    assert ':' !in "//" + e.hostIp;
    assert Join(parts, ':') == ServiceUrl(e) by {
      assert Join(parts[2..], ':') == IntToDecimal(e.port);
      assert Join(parts[1..], ':') == "//" + e.hostIp + ":" + IntToDecimal(e.port);
    }
    SplitJoin(parts, ':');
  }

  lemma DecimalHasNoColon(i: int)
    ensures ':' !in IntToDecimal(i)
  {
    var n: nat := if i >= 0 then i else -i;
    var d := NatToDecimal(n);
    assert forall k :: 0 <= k < |d| ==> IsDigit(d[k]);
    if i < 0 {
      assert IntToDecimal(i) == "-" + d;
    }
  }

  /** The Bitcoin node's URL under the defaults. */
  lemma DefaultBitcoindUrl()
    ensures ServiceUrl(Defaults.bitcoind) == "http://127.0.0.1:8332"
  {
    Decimal8332();
  }

  lemma Decimal8332()
    ensures IntToDecimal(8332) == "8332"
  {
    assert DigitChar(8) == '8' && DigitChar(3) == '3' && DigitChar(2) == '2';
    assert NatToDecimal(8) == "8";
    assert NatToDecimal(83) == "83";
    assert NatToDecimal(833) == "833";
  }
}

=== FILE: dates.dfy ===
/** Calendar dates as the ledger uses them: `datetime.date` values, their
    `strftime("%Y-%m-%d")` text, `strptime(s, "%Y-%m-%d")`, chronological
    comparison and `date - timedelta(days=n)`, whose result outside years
    1..9999 raises `OverflowError` (here: `None`). */
module Dates {
  import opened Prelude

  datatype Ymd = Ymd(year: int, month: int, day: int)

  predicate IsLeap(y: int) {
    y % 4 == 0 && (y % 100 != 0 || y % 400 == 0)
  }

  function DaysInMonth(y: int, m: int): (n: int)
    requires 1 <= m <= 12
    ensures 28 <= n <= 31
  {
    if m == 2 then (if IsLeap(y) then 29 else 28)
    else if m == 4 || m == 6 || m == 9 || m == 11 then 30
    else 31
  }

  /** The range of Python's `datetime.date`. */
  predicate ValidYmd(d: Ymd) {
    1 <= d.year <= 9999 && 1 <= d.month <= 12 && 1 <= d.day <= DaysInMonth(d.year, d.month)
  }

  type Date = d: Ymd | ValidYmd(d) witness Ymd(1970, 1, 1)

  /** Chronological order of dates (`a < b` on `datetime.date`). */
  predicate Before(a: Date, b: Date) {
    a.year < b.year
    || (a.year == b.year && a.month < b.month)
    || (a.year == b.year && a.month == b.month && a.day < b.day)
  }

  lemma BeforeTransitive(a: Date, b: Date, c: Date)
    requires Before(a, b) && Before(b, c)
    ensures Before(a, c)
  {
  }

  lemma BeforeTotal(a: Date, b: Date)
    ensures Before(a, b) || a == b || Before(b, a)
    ensures !(Before(a, b) && Before(b, a))
  {
  }

  /** The day before `d`, or `None` before 0001-01-01. */
  function Pred(d: Date): (r: Option<Date>)
    ensures r.None? <==> d == Ymd(1, 1, 1)
    ensures r.Some? ==> Before(r.value, d)
  {
    if d.day > 1 then Some(Ymd(d.year, d.month, d.day - 1))
    else if d.month > 1 then Some(Ymd(d.year, d.month - 1, DaysInMonth(d.year, d.month - 1)))
    else if d.year > 1 then Some(Ymd(d.year - 1, 12, 31))
    else None
  }

  /** The day after `d`, or `None` after 9999-12-31. */
  function Succ(d: Date): (r: Option<Date>)
    ensures r.None? <==> d == Ymd(9999, 12, 31)
    ensures r.Some? ==> Before(d, r.value)
  {
    if d.day < DaysInMonth(d.year, d.month) then Some(Ymd(d.year, d.month, d.day + 1))
    else if d.month < 12 then Some(Ymd(d.year, d.month + 1, 1))
    else if d.year < 9999 then Some(Ymd(d.year + 1, 1, 1))
    else None
  }

  /** `d + timedelta(days=n)`; `None` where Python raises `OverflowError`. */
  function AddDays(d: Date, n: int): Option<Date>
    decreases if n >= 0 then n else -n
  {
    if n == 0 then Some(d)
    else if n > 0 then
      match Succ(d)
      case None => None
      case Some(e) => AddDays(e, n - 1)
    else
      match Pred(d)
      case None => None
      case Some(e) => AddDays(e, n + 1)
  }

  /** Going further back in time reaches a date no later than going less
      far back, and it can only overflow if the shorter trip does not
      already overflow first: `d - j` exists ==> `d - i` exists and
      `d - j <= d - i` for `0 <= i <= j`. */
  lemma {:induction false} AddDaysBackMonotone(d: Date, i: int, j: int)
    requires 0 <= i <= j
    requires AddDays(d, -j).Some?
    ensures AddDays(d, -i).Some?
    ensures !Before(AddDays(d, -i).value, AddDays(d, -j).value)
    decreases i
  {
    if i == 0 {
      if j > 0 {
        AddDaysBackBefore(d, j);
      }
    } else {
      var e := Pred(d).value;
      AddDaysBackMonotone(e, i - 1, j - 1);
    }
  }

  /** Going back at least one day reaches a strictly earlier date. */
  lemma {:induction false} AddDaysBackBefore(d: Date, j: int)
    requires j > 0
    requires AddDays(d, -j).Some?
    ensures Before(AddDays(d, -j).value, d)
    decreases j
  {
    var e := Pred(d).value;
    if j > 1 {
      AddDaysBackBefore(e, j - 1);
      BeforeTransitive(AddDays(d, -j).value, e, d);
    }
  }

  /** `d - timedelta(days=n)`. */
  function DaysAgo(d: Date, n: int): (r: Option<Date>)
    ensures n == 0 ==> r == Some(d)
  {
    AddDays(d, -n)
  }

  /** Going back strictly further reaches a strictly earlier date, and the
      nearer date exists whenever the farther one does. */
  lemma {:induction false} DaysAgoStrict(d: Date, i: int, j: int)
    requires 0 <= i < j
    requires DaysAgo(d, j).Some?
    ensures DaysAgo(d, i).Some?
    ensures Before(DaysAgo(d, j).value, DaysAgo(d, i).value)
    decreases i
  {
    if i == 0 {
      AddDaysBackBefore(d, j);
    } else {
      var e := Pred(d).value;
      assert DaysAgo(d, j) == DaysAgo(e, j - 1);
      assert DaysAgo(d, i) == DaysAgo(e, i - 1);
      DaysAgoStrict(e, i - 1, j - 1);
    }
  }

  // ---------------------------------------------------------------------
  // strftime("%Y-%m-%d")

  function Pad2(n: nat): (s: string)
    requires n < 100
    ensures |s| == 2 && AllDigits(s)
  {
    [DigitChar(n / 10), DigitChar(n % 10)]
  }

  function Pad4(n: nat): (s: string)
    requires n < 10000
    ensures |s| == 4 && AllDigits(s)
  {
    [DigitChar(n / 1000), DigitChar(n % 1000 / 100), DigitChar(n % 100 / 10), DigitChar(n % 10)]
  }

  /** The ledger's key for a date: `date.strftime("%Y-%m-%d")`. */
  function FormatDate(d: Date): (s: string)
    ensures |s| == 10 && s[4] == '-' && s[7] == '-'
  {
    Pad4(d.year) + "-" + Pad2(d.month) + "-" + Pad2(d.day)
  }

  // ---------------------------------------------------------------------
  // strptime(s, "%Y-%m-%d")

  function Digits4Value(s: string): nat
    requires |s| == 4 && AllDigits(s)
  {
    1000 * DigitValue(s[0]) + 100 * DigitValue(s[1]) + 10 * DigitValue(s[2]) + DigitValue(s[3])
  }

  /** The `%m` directive: `1[0-2]|0[1-9]|[1-9]`. */
  function MonthToken(t: string): (r: Option<int>)
    ensures r.Some? ==> 1 <= r.value <= 12
  {
    if |t| == 1 && '1' <= t[0] <= '9' then Some(DigitValue(t[0]))
    else if |t| == 2 && t[0] == '0' && '1' <= t[1] <= '9' then Some(DigitValue(t[1]))
    else if |t| == 2 && t[0] == '1' && '0' <= t[1] <= '2' then Some(10 + DigitValue(t[1]))
    else None
  }

  /** The `%d` directive: `3[01]|[12]\d|0[1-9]|[1-9]| [1-9]`. */
  function DayToken(t: string): (r: Option<int>)
    ensures r.Some? ==> 1 <= r.value <= 31
  {
    if |t| == 1 && '1' <= t[0] <= '9' then Some(DigitValue(t[0]))
    else if |t| == 2 && (t[0] == '0' || t[0] == ' ') && '1' <= t[1] <= '9' then Some(DigitValue(t[1]))
    else if |t| == 2 && (t[0] == '1' || t[0] == '2') && IsDigit(t[1]) then Some(10 * DigitValue(t[0]) + DigitValue(t[1]))
    else if |t| == 2 && t[0] == '3' && (t[1] == '0' || t[1] == '1') then Some(30 + DigitValue(t[1]))
    else None
  }

  /** `datetime.strptime(s, "%Y-%m-%d").date()`, with `None` for the
      `ValueError` cases: four digits of year, a dash, a month token up to
      the next dash, a day token that must end the string, and then a real
      calendar date (year 0 and 29 February of a common year are refused). */
  function ParseDate(s: string): (r: Option<Date>)
    ensures r.Some? ==> 8 <= |s| <= 10 && s[4] == '-'
  {
    if |s| < 5 || s[4] != '-' || !AllDigits(s[..4]) then None
    else
      var rest := s[5..];
      if '-' !in rest then None
      else
        var k := FirstIndex(rest, '-');
        match (MonthToken(rest[..k]), DayToken(rest[k + 1..]))
        case (Some(m), Some(dd)) =>
          var y := Digits4Value(s[..4]);
          if ValidYmd(Ymd(y, m, dd)) then Some(Ymd(y, m, dd)) else None
        case _ => None
  }

  /** The pydantic validator on `DailySpend.date`. */
  predicate IsDateString(s: string) {
    ParseDate(s).Some?
  }

  lemma {:induction false} Pad4Value(n: nat)
    requires n < 10000
    ensures Digits4Value(Pad4(n)) == n
  {
    var s := Pad4(n);
    assert DigitValue(s[0]) == n / 1000;
    assert DigitValue(s[1]) == n % 1000 / 100;
    assert DigitValue(s[2]) == n % 100 / 10;
    assert DigitValue(s[3]) == n % 10;
    assert n == 1000 * (n / 1000) + n % 1000;
    assert n % 1000 == 100 * (n % 1000 / 100) + n % 100;
    assert n % 100 == 10 * (n % 100 / 10) + n % 10;
  }

  /** Every formatted date parses back to itself, so the ledger's date keys
      always pass the `DailySpend` date validator and `FormatDate` is
      one-to-one. */
  lemma ParseFormat(d: Date)
    ensures ParseDate(FormatDate(d)) == Some(d)
  {
    ParsePadded(d.year, d.month, d.day);
  }

  /** A zero-padded year, month and day in range parse back to themselves
      when they make a calendar date, and are refused otherwise. */
  lemma ParsePadded(y: nat, m: int, dd: int)
    requires 1 <= y <= 9999 && 1 <= m <= 12 && 1 <= dd <= 31
    ensures ParseDate(Pad4(y) + "-" + Pad2(m) + "-" + Pad2(dd))
      == if ValidYmd(Ymd(y, m, dd)) then Some(Ymd(y, m, dd)) else None
  {
    var s := Pad4(y) + "-" + Pad2(m) + "-" + Pad2(dd);
    assert s[..4] == Pad4(y);
    Pad4Value(y);
    var rest := s[5..];
    assert rest == Pad2(m) + "-" + Pad2(dd);
    assert rest[2] == '-';
    assert '-' !in rest[..2];
    assert FirstIndex(rest, '-') == 2;
    assert rest[..2] == Pad2(m);
    assert rest[3..] == Pad2(dd);
    MonthTokenOfPad2(m);
    DayTokenOfPad2(dd);
  }

  lemma MonthTokenOfPad2(m: int)
    requires 1 <= m <= 12
    ensures MonthToken(Pad2(m)) == Some(m)
  {
    assert m == 10 * (m / 10) + m % 10;
  }

  lemma DayTokenOfPad2(dd: int)
    requires 1 <= dd <= 31
    ensures DayToken(Pad2(dd)) == Some(dd)
  {
    assert dd == 10 * (dd / 10) + dd % 10;
  }

  lemma FormatDateInjective(a: Date, b: Date)
    requires FormatDate(a) == FormatDate(b)
    ensures a == b
  {
    ParseFormat(a);
    ParseFormat(b);
  }

  /** The canonical form that the test suite uses is accepted. */
  lemma CanonicalDateAccepted()
    ensures ParseDate("2024-01-01") == Some(Ymd(2024, 1, 1))
  {
    ParseFormat(Ymd(2024, 1, 1));
    assert FormatDate(Ymd(2024, 1, 1)) == "2024-01-01";
  }

  /** The slash form that the test suite uses is refused. */
  lemma SlashDateRefused()
    ensures ParseDate("01/01/2024").None?
  {
    assert "01/01/2024"[4] == '1';
  }

  /** 29 February of a common year is not a calendar date. */
  lemma CommonYearLeapDayRefused()
    ensures ParseDate("2023-02-29").None?
  {
    assert "2023-02-29" == Pad4(2023) + "-" + Pad2(2) + "-" + Pad2(29);
    ParsePadded(2023, 2, 29);
    assert !IsLeap(2023);
  }
}

=== FILE: funding_manager.dfy ===
/** The funding-proposal manager (`FundingProposalManager`): the proposal
    lifecycle (pending -> approved | rejected | expired, approved ->
    executed), the pending-proposal ceiling, the expiry sweep, listing and
    statistics. The proposal store it calls is held here as a map from
    proposal id to proposal plus the ids in the order they were first
    saved; "now" and the new proposal's id are passed in. */
module FundingManager {
  import opened Prelude
  import opened PolicySchema
  import opened FundingSchema

  /** The funding settings the manager reads from its configuration. */
  datatype FundingConfig = FundingConfig(
    enabled: bool,
    thresholdSats: int,
    maxPending: int,
    defaultAmountSats: int)

  /** The earning context handed to `generate_proposal`, with the defaults
      of missing keys applied: balance 0, volatility 0.5, no strategies,
      no daily earnings. */
  datatype AiContext = AiContext(
    currentBalanceSats: int,
    volatility: real,
    activeStrategies: seq<string>,
    dailyEarnings: int)

  /** Why a manager operation raises. */
  datatype ManagerError =
    | NotFound(id: string)
    | InvalidState(current: ProposalStatus)
    | CapacityExceeded(maxPending: int)
    | DivisionByZero
    | InvalidField(errors: seq<FieldError>)
    | CutoffOverflow

  const DefaultListLimit: nat := 50
  const SummaryLimit: nat := 200
  const MicrosPerHour: int := 3_600_000_000
  const DefaultHorizonDays: int := 30
  const AllStatuses: set<ProposalStatus> := {Pending, Approved, Rejected, Executed, Expired}

  /** `should_create_proposal(balance)`. */
  function ShouldCreateProposal(config: FundingConfig, balance: int): (r: bool)
    ensures r <==> config.enabled && balance < config.thresholdSats
  {
    if !config.enabled then false else balance < config.thresholdSats
  }

  // -----------------------------------------------------------------------
  // The lifecycle

  /** The transitions the manager can make. */
  predicate LegalTransition(from: ProposalStatus, to: ProposalStatus) {
    || (from == Pending && (to == Approved || to == Rejected || to == Expired))
    || (from == Approved && to == Executed)
  }

  /** Rejected, executed and expired proposals are final, nothing returns
      to pending, and execution is reached only from approval. */
  lemma LifecycleShape(from: ProposalStatus, to: ProposalStatus)
    ensures from in {Rejected, Executed, Expired} ==> !LegalTransition(from, to)
    ensures !LegalTransition(from, Pending)
    ensures LegalTransition(from, Executed) <==> from == Approved
  {
  }

  /** Between two store states, every existing proposal either stayed as it
      was or made one legal transition keeping its identity, creation time
      and amount. */
  predicate StepsLegally(before: map<string, FundingProposal>, after: map<string, FundingProposal>) {
    forall id :: id in before ==>
      && id in after
      && (|| after[id] == before[id]
          || (&& LegalTransition(before[id].status, after[id].status)
              && after[id].proposalId == before[id].proposalId
              && after[id].createdAt == before[id].createdAt
              && after[id].requestedAmountSats == before[id].requestedAmountSats))
  }

  /** The approved proposal: status, time and approver stamped; the notes
      are stored only when given and non-empty. */
  function Approve(p: FundingProposal, approvedBy: string, notes: Option<string>, now: Timestamp): (q: FundingProposal)
    ensures q.status == Approved && q.approvedAt == Some(now) && q.approvedBy == Some(approvedBy)
    ensures q.approvalNotes == if notes.Some? && notes.value != "" then notes else p.approvalNotes
    ensures q.(status := p.status, approvedAt := p.approvedAt, approvedBy := p.approvedBy, approvalNotes := p.approvalNotes) == p
  {
    var q := p.(status := Approved, approvedAt := Some(now), approvedBy := Some(approvedBy));
    if notes.Some? && notes.value != "" then q.(approvalNotes := notes) else q
  }

  /** The rejected proposal: status, time and rejecter stamped, the reason
      stored as the notes. */
  function Reject(p: FundingProposal, rejectedBy: string, reason: string, now: Timestamp): (q: FundingProposal)
    ensures q.status == Rejected && q.rejectedAt == Some(now) && q.rejectedBy == Some(rejectedBy)
    ensures q.approvalNotes == Some(reason)
    ensures q.(status := p.status, rejectedAt := p.rejectedAt, rejectedBy := p.rejectedBy, approvalNotes := p.approvalNotes) == p
  {
    p.(status := Rejected, rejectedAt := Some(now), rejectedBy := Some(rejectedBy), approvalNotes := Some(reason))
  }

  /** The executed proposal: status, time and transaction id stamped. */
  function Execute(p: FundingProposal, txid: string, now: Timestamp): (q: FundingProposal)
    ensures q.status == Executed && q.executedAt == Some(now) && q.executionTxid == Some(txid)
    ensures q.(status := p.status, executedAt := p.executedAt, executionTxid := p.executionTxid) == p
  {
    p.(status := Executed, executedAt := Some(now), executionTxid := Some(txid))
  }

  // -----------------------------------------------------------------------
  // Listing and counting

  /** The stored proposals in listing order (newest first). */
  function InOrder(m: map<string, FundingProposal>, order: seq<string>): (ps: seq<FundingProposal>)
    ensures |ps| <= |order|
    ensures forall p :: p in ps ==> exists id :: id in m && m[id] == p
    decreases |order|
  {
    if order == [] then []
    else (if order[0] in m then [m[order[0]]] else []) + InOrder(m, order[1..])
  }

  predicate Matches(p: FundingProposal, status: Option<ProposalStatus>) {
    status.None? || p.status == status.value
  }

  /** The proposals whose status matches the filter, in order. */
  function Filtered(ps: seq<FundingProposal>, status: Option<ProposalStatus>): (r: seq<FundingProposal>)
    ensures |r| <= |ps|
    ensures forall p :: p in r <==> p in ps && Matches(p, status)
  {
    if ps == [] then []
    else Filtered(ps[..|ps| - 1], status) + (if Matches(ps[|ps| - 1], status) then [ps[|ps| - 1]] else [])
  }

  function CountStatus(ps: seq<FundingProposal>, s: ProposalStatus): nat {
    |Filtered(ps, Some(s))|
  }

  /** The first `limit` entries, or all of them without a limit. */
  function Take<T>(s: seq<T>, limit: Option<nat>): (r: seq<T>)
    ensures limit.None? ==> r == s
    ensures limit.Some? ==> |r| == (if limit.value <= |s| then limit.value else |s|)
    ensures r == s[..|r|]
  {
    if limit.Some? && limit.value < |s| then s[..limit.value] else s
  }

  /** A justification longer than 200 characters becomes its first 197
      characters and "...", exactly 200 characters; a shorter one is kept. */
  function TruncateJustification(j: string): (r: string)
    ensures |j| <= SummaryLimit ==> r == j
    ensures |j| > SummaryLimit ==> |r| == SummaryLimit && r[..197] == j[..197] && r[197..] == "..."
    ensures |r| <= SummaryLimit
  {
    if |j| > SummaryLimit then j[..197] + "..." else j
  }

  /** Truncating twice is truncating once. */
  lemma TruncateIdempotent(j: string)
    ensures TruncateJustification(TruncateJustification(j)) == TruncateJustification(j)
  {
  }

  /** The listing entry of a proposal. */
  function Summarize(p: FundingProposal): (s: ProposalSummary)
    ensures s.proposalId == p.proposalId && s.createdAt == p.createdAt && s.status == p.status
    ensures s.requestedAmountSats == p.requestedAmountSats
    ensures s.justification == TruncateJustification(p.justification)
  {
    ProposalSummary(p.proposalId, p.createdAt, p.status, p.requestedAmountSats, TruncateJustification(p.justification))
  }

  function Summaries(ps: seq<FundingProposal>): (ss: seq<ProposalSummary>)
    ensures |ss| == |ps|
    ensures forall i :: 0 <= i < |ps| ==> ss[i] == Summarize(ps[i])
  {
    seq(|ps|, i requires 0 <= i < |ps| => Summarize(ps[i]))
  }

  // -----------------------------------------------------------------------
  // Expiry

  /** The largest number of days a `timedelta` holds. */
  const MaxTimedeltaDays: int := 999_999_999

  /** `utcnow() - timedelta(hours=max_age_hours)`, in microseconds; `None`
      where Python raises `OverflowError`: the hours come to more than
      999999999 days either way, or the difference falls outside the years
      1 to 9999. */
  function ExpiryCutoff(now: Timestamp, maxAgeHours: int): (cutoff: Option<Timestamp>)
    ensures cutoff.Some? <==>
      && -MaxTimedeltaDays <= maxAgeHours / 24 <= MaxTimedeltaDays
      && InstantInRange(now - maxAgeHours * MicrosPerHour)
    ensures cutoff.Some? ==> InstantInRange(cutoff.value) && now - cutoff.value == maxAgeHours * MicrosPerHour
    ensures cutoff.Some? && maxAgeHours >= 0 ==> cutoff.value <= now
  {
    if maxAgeHours / 24 < -MaxTimedeltaDays || maxAgeHours / 24 > MaxTimedeltaDays then None
    else
      var cutoff := now - maxAgeHours * MicrosPerHour;
      if InstantInRange(cutoff) then Some(cutoff) else None
  }

  /** A hundred million hours (over eleven thousand years) back from any
      instant leaves the calendar, so the sweep raises before it starts. */
  lemma ExpiryOverflows(now: Timestamp)
    requires InstantInRange(now)
    ensures ExpiryCutoff(now, 100_000_000).None?
  {
    assert 100_000_000 * MicrosPerHour > MaxInstant;
  }

  /** The default age of 24 hours is in range from the second day of the
      calendar on. */
  lemma DefaultAgeInRange(now: Timestamp)
    requires InstantInRange(now) && now >= 24 * MicrosPerHour
    ensures ExpiryCutoff(now, 24) == Some(now - 24 * MicrosPerHour)
  {
  }

  /** A pending proposal created before the cutoff. */
  predicate Stale(p: FundingProposal, cutoff: Timestamp) {
    p.status == Pending && p.createdAt < cutoff
  }

  /** The store after the sweep: stale proposals expired, all others as
      they were. */
  function ExpireStale(m: map<string, FundingProposal>, cutoff: Timestamp): (r: map<string, FundingProposal>)
    ensures r.Keys == m.Keys
    ensures forall id :: id in m ==> r[id] == if Stale(m[id], cutoff) then m[id].(status := Expired) else m[id]
  {
    map id | id in m :: if Stale(m[id], cutoff) then m[id].(status := Expired) else m[id]
  }

  /** The store after expiring the stale proposals among `ids`. */
  function ExpireAmong(m: map<string, FundingProposal>, ids: set<string>, cutoff: Timestamp): (r: map<string, FundingProposal>)
    ensures r.Keys == m.Keys
  {
    map id | id in m :: if id in ids && Stale(m[id], cutoff) then m[id].(status := Expired) else m[id]
  }

  function CountStale(ps: seq<FundingProposal>, cutoff: Timestamp): nat {
    if ps == [] then 0
    else CountStale(ps[..|ps| - 1], cutoff) + (if Stale(ps[|ps| - 1], cutoff) then 1 else 0)
  }

  function IdsOf(ps: seq<FundingProposal>): set<string> {
    set k | 0 <= k < |ps| :: ps[k].proposalId
  }

  /** The sweep is idempotent: a second sweep at the same cutoff changes
      nothing and finds nothing to expire. */
  lemma {:induction false} ExpireIdempotent(m: map<string, FundingProposal>, order: seq<string>, cutoff: Timestamp)
    ensures ExpireStale(ExpireStale(m, cutoff), cutoff) == ExpireStale(m, cutoff)
    ensures CountStale(InOrder(ExpireStale(m, cutoff), order), cutoff) == 0
  {
    var e := ExpireStale(m, cutoff);
    NoneStale(InOrder(e, order), cutoff);
  }

  lemma {:induction false} NoneStale(ps: seq<FundingProposal>, cutoff: Timestamp)
    requires forall p :: p in ps ==> !Stale(p, cutoff)
    ensures CountStale(ps, cutoff) == 0
  {
    if ps != [] {
      NoneStale(ps[..|ps| - 1], cutoff);
    }
  }

  // -----------------------------------------------------------------------
  // Statistics

  datatype Statistics = Statistics(
    totalProposals: nat,
    byStatus: map<ProposalStatus, nat>,
    totalRequestedSats: int,
    totalApprovedSats: int,
    approvalRate: real,
    averageRequestedAmount: int)

  /** Requested amounts summed over the proposals matching the filter. */
  function SumRequested(ps: seq<FundingProposal>, status: Option<ProposalStatus>): int {
    if ps == [] then 0
    else
      var last := ps[|ps| - 1];
      SumRequested(ps[..|ps| - 1], status) + (if Matches(last, status) then last.requestedAmountSats else 0)
  }

  /** The per-status counts as the loop accumulates them: each proposal
      adds one to its own status, starting the entry at 1. */
  function Tally(ps: seq<FundingProposal>): map<ProposalStatus, nat> {
    if ps == [] then map[]
    else
      var t := Tally(ps[..|ps| - 1]);
      var s := ps[|ps| - 1].status;
      t[s := if s in t then t[s] + 1 else 1]
  }

  /** The tally holds exactly the statuses that occur, each with the number
      of proposals having it. */
  lemma {:induction false} TallyCounts(ps: seq<FundingProposal>)
    ensures forall s :: s in Tally(ps) <==> CountStatus(ps, s) > 0
    ensures forall s :: s in Tally(ps) ==> Tally(ps)[s] == CountStatus(ps, s)
  {
    if ps != [] {
      var init := ps[..|ps| - 1];
      TallyCounts(init);
      forall s: ProposalStatus
        ensures CountStatus(ps, s) == CountStatus(init, s) + (if s == ps[|ps| - 1].status then 1 else 0)
      {
      }
    }
  }

  /** The share of approvals among decided (approved or rejected)
      proposals; 0 when none is decided. */
  function ApprovalRate(approved: nat, rejected: nat): (rate: real)
    ensures 0.0 <= rate <= 1.0
    ensures approved + rejected == 0 ==> rate == 0.0
    ensures approved + rejected > 0 ==> rate * (approved + rejected) as real == approved as real
  {
    var decided := approved + rejected;
    if decided > 0 then approved as real / decided as real else 0.0
  }

  /** `get_proposal_statistics` over a list of proposals. */
  function StatisticsOf(ps: seq<FundingProposal>): Statistics {
    if ps == [] then Statistics(0, map[], 0, 0, 0.0, 0)
    else
      Statistics(|ps|, Tally(ps), SumRequested(ps, None), SumRequested(ps, Some(Approved)),
        ApprovalRate(CountStatus(ps, Approved), CountStatus(ps, Rejected)),
        SumRequested(ps, None) / |ps|)
  }

  /** Approved sats never exceed requested sats, and the integer average is
      at least 1 sat and at most the total spread evenly. */
  lemma StatisticsFacts(ps: seq<FundingProposal>)
    requires forall p :: p in ps ==> ValidProposal(p)
    ensures 0 <= StatisticsOf(ps).totalApprovedSats <= StatisticsOf(ps).totalRequestedSats
    ensures ps != [] ==> 1 <= StatisticsOf(ps).averageRequestedAmount
    ensures ps != [] ==> StatisticsOf(ps).averageRequestedAmount * |ps| <= StatisticsOf(ps).totalRequestedSats
  {
    SumFacts(ps);
    if ps != [] {
      AverageFacts(SumRequested(ps, None), |ps|);
    }
  }

  lemma AverageFacts(total: int, n: int)
    requires n > 0 && total >= n
    ensures 1 <= total / n && total / n * n <= total
  {
  }

  lemma {:induction false} SumFacts(ps: seq<FundingProposal>)
    requires forall p :: p in ps ==> ValidProposal(p)
    ensures 0 <= SumRequested(ps, Some(Approved)) <= SumRequested(ps, None)
    ensures SumRequested(ps, None) >= |ps|
  {
    if ps != [] {
      SumFacts(ps[..|ps| - 1]);
      assert ps[|ps| - 1] in ps;
    }
  }

  // -----------------------------------------------------------------------
  // Expected return and risk (`real` arithmetic in place of floats)

  /** `_calculate_expected_roi`: a 5% base rate, raised to thirty days of
      recent daily earnings when that is higher, scaled by 10% per active
      strategy; `None` where the division by the requested amount fails. */
  function ExpectedRoi(requested: int, strategyCount: nat, dailyEarnings: int): (r: Option<int>)
    ensures r.None? <==> dailyEarnings > 0 && requested == 0
    ensures requested > 0 ==> r.Some? && r.value >= 0
  {
    if dailyEarnings > 0 && requested == 0 then None
    else
      var base := BaseReturn(requested, dailyEarnings);
      assert requested > 0 ==> base * StrategyMultiplier(strategyCount) >= 0.0 by {
        if requested > 0 { MulNonNegative(base, StrategyMultiplier(strategyCount)); }
      }
      Some(TruncProduct(base, StrategyMultiplier(strategyCount)))
  }

  /** The requested amount at the thirty-day rate. */
  function BaseReturn(requested: int, dailyEarnings: int): (b: real)
    requires dailyEarnings > 0 ==> requested != 0
    ensures requested > 0 ==> b >= 0.0
  {
    var rate := RoiRate(requested, dailyEarnings);
    assert requested > 0 ==> requested as real * rate >= 0.0 by {
      if requested > 0 { MulNonNegative(requested as real, rate); }
    }
    requested as real * rate
  }

  /** Each active strategy adds 10% to the expected return. */
  function StrategyMultiplier(strategyCount: nat): (m: real)
    ensures m >= 1.0
  {
    1.0 + strategyCount as real * 0.1
  }

  /** The thirty-day return rate: 5%, or thirty days of daily earnings
      relative to the requested amount when that is higher. */
  function RoiRate(requested: int, dailyEarnings: int): (rate: real)
    requires dailyEarnings > 0 ==> requested != 0
    ensures rate >= 0.05
  {
    var earningsRate := if dailyEarnings > 0 then dailyEarnings as real / requested as real * 30.0 else 0.0;
    if dailyEarnings > 0 && earningsRate > 0.05 then earningsRate else 0.05
  }

  /** The worked example: 100000 sats requested, one strategy, 5000 sats of
      daily earnings: 100000 x 1.5 x 1.1 = 165000. */
  lemma ExpectedRoiExample()
    ensures ExpectedRoi(100000, 1, 5000) == Some(165000)
  {
    assert RoiRate(100000, 5000) == 1.5;
    assert 100000 as real * 1.5 * (1.0 + 1 as real * 0.1) == 165000.0;
  }

  /** More strategies never lower the expected return. */
  lemma ExpectedRoiMonotone(requested: int, k1: nat, k2: nat, dailyEarnings: int)
    requires requested > 0 && k1 <= k2
    ensures ExpectedRoi(requested, k1, dailyEarnings).value <= ExpectedRoi(requested, k2, dailyEarnings).value
  {
    var base := BaseReturn(requested, dailyEarnings);
    TruncProductMonotone(base, base, StrategyMultiplier(k1), StrategyMultiplier(k2));
  }

  /** The clamped risk score of `_assess_risk`. */
  function RiskScore(volatility: real, strategyCount: nat): (s: real)
    ensures 0.0 <= s <= 1.0
  {
    var s := 0.5 + (volatility - 0.5) * 0.3;
    var adjusted := if strategyCount > 3 then s - 0.2 else if strategyCount < 2 then s + 0.2 else s;
    if adjusted < 0.0 then 0.0 else if adjusted > 1.0 then 1.0 else adjusted
  }

  /** `_assess_risk`: the score bucketed at 0.3 and 0.7. */
  function AssessRisk(volatility: real, strategyCount: nat): (r: Risk)
    ensures r == Low <==> RiskScore(volatility, strategyCount) < 0.3
    ensures r == High <==> RiskScore(volatility, strategyCount) >= 0.7
  {
    var s := RiskScore(volatility, strategyCount);
    if s < 0.3 then Low else if s < 0.7 then Medium else High
  }

  function RiskLevel(r: Risk): nat {
    match r
    case Low => 0
    case Medium => 1
    case High => 2
  }

  /** Higher volatility never lowers the assessed risk, and neither does
      dropping from four or more strategies to two or three. */
  lemma AssessRiskMonotone(v1: real, v2: real, k: nat)
    requires v1 <= v2
    ensures RiskLevel(AssessRisk(v1, k)) <= RiskLevel(AssessRisk(v2, k))
  {
    assert RiskScore(v1, k) <= RiskScore(v2, k);
  }

  /** At the default volatility the score is 0.5 adjusted by the strategy
      count alone: fewer than two strategies reach 0.7, which is already
      high risk, and two or more strategies are medium risk. */
  lemma DefaultVolatilityRisk(k: nat)
    ensures k < 2 ==> AssessRisk(0.5, k) == High
    ensures k >= 2 ==> AssessRisk(0.5, k) == Medium
  {
  }

  // -----------------------------------------------------------------------
  // Time horizon

  /** The per-strategy horizon table, looked up by the lower-cased name,
      30 days for names not in the table. */
  function HorizonLookup(strategy: string): (h: int)
    ensures 1 <= h <= DefaultHorizonDays
  {
    var s := AsciiLower(strategy);
    if s == "market_making" then 7
    else if s == "arbitrage" then 1
    else if s == "yield_farming" then 30
    else if s == "liquidity_provision" then 14
    else DefaultHorizonDays
  }

  /** The maximum of 30 and every strategy's lookup. */
  function MaxHorizon(strategies: seq<string>): int {
    if strategies == [] then DefaultHorizonDays
    else
      var h := HorizonLookup(strategies[|strategies| - 1]);
      var rest := MaxHorizon(strategies[..|strategies| - 1]);
      if h > rest then h else rest
  }

  /** The horizon is at least 30 and at least every strategy's lookup, and
      since no lookup exceeds 30 it is always exactly 30. */
  lemma {:induction false} MaxHorizonIsDefault(strategies: seq<string>)
    ensures MaxHorizon(strategies) >= DefaultHorizonDays
    ensures forall i :: 0 <= i < |strategies| ==> HorizonLookup(strategies[i]) <= MaxHorizon(strategies)
    ensures MaxHorizon(strategies) == DefaultHorizonDays
  {
    if strategies != [] {
      var init := strategies[..|strategies| - 1];
      MaxHorizonIsDefault(init);
      forall i | 0 <= i < |strategies|
        ensures HorizonLookup(strategies[i]) <= MaxHorizon(strategies)
      {
        if i < |strategies| - 1 {
          assert strategies[i] == init[i];
        }
      }
    }
  }

  /** `_calculate_time_horizon`: the loop computing the maximum. */
  method CalculateTimeHorizon(strategies: seq<string>) returns (h: int)
    ensures h == MaxHorizon(strategies)
    ensures h == DefaultHorizonDays
  {
    if strategies == [] {
      return DefaultHorizonDays;
    }
    h := DefaultHorizonDays;
    var i := 0;
    while i < |strategies|
      invariant 0 <= i <= |strategies|
      invariant h == MaxHorizon(strategies[..i])
    {
      var lookup := HorizonLookup(strategies[i]);
      assert strategies[..i + 1][..i] == strategies[..i];
      h := if h > lookup then h else lookup;
      i := i + 1;
    }
    assert strategies[..i] == strategies;
    MaxHorizonIsDefault(strategies);
  }

  // -----------------------------------------------------------------------
  // The manager

  class ProposalManager {
    const config: FundingConfig
    var proposals: map<string, FundingProposal>
    var order: seq<string>

    /** Every stored proposal is filed under its own id and satisfies the
        field constraints; `order` lists each stored id once. */
    ghost predicate Valid()
      reads this
    {
      && (forall id :: id in proposals <==> id in order)
      && (forall i, j :: 0 <= i < j < |order| ==> order[i] != order[j])
      && (forall id :: id in proposals ==> proposals[id].proposalId == id && ValidProposal(proposals[id]))
    }

    constructor (config: FundingConfig)
      ensures Valid()
      ensures this.config == config && proposals == map[] && order == []
    {
      this.config := config;
      proposals := map[];
      order := [];
    }

    /** `get_proposal(id)`. */
    function GetProposal(id: string): (r: Option<FundingProposal>)
      reads this
      ensures r.Some? <==> id in proposals
      ensures r.Some? ==> r.value == proposals[id]
    {
      if id in proposals then Some(proposals[id]) else None
    }

    /** The store's listing: proposals in order, filtered by status, the
        first `limit` of them. */
    function LoadProposals(status: Option<ProposalStatus>, limit: Option<nat>): (ps: seq<FundingProposal>)
      reads this
      ensures forall p :: p in ps ==> Matches(p, status)
      ensures limit.Some? ==> |ps| <= limit.value
    {
      Take(Filtered(InOrder(proposals, order), status), limit)
    }

    /** Save a proposal to the store: overwrite it under its id, or file it
        first (the listing is newest first) when the id is new. */
    method SaveProposal(p: FundingProposal)
      requires Valid() && ValidProposal(p)
      modifies this
      ensures Valid()
      ensures proposals == old(proposals)[p.proposalId := p]
      ensures order == if p.proposalId in old(proposals) then old(order) else [p.proposalId] + old(order)
    {
      if p.proposalId !in proposals {
        order := [p.proposalId] + order;
      }
      proposals := proposals[p.proposalId := p];
    }

    /** `list_proposals(status, limit)`: the summaries of the first `limit`
        matching proposals. */
    method ListProposals(status: Option<ProposalStatus>, limit: nat) returns (summaries: seq<ProposalSummary>)
      ensures summaries == Summaries(LoadProposals(status, Some(limit)))
      ensures |summaries| <= limit
      ensures forall i :: 0 <= i < |summaries| ==>
        Matches(LoadProposals(status, Some(limit))[i], status) && |summaries[i].justification| <= SummaryLimit
    {
      var ps := LoadProposals(status, Some(limit));
      summaries := [];
      var i := 0;
      while i < |ps|
        invariant 0 <= i <= |ps|
        invariant summaries == Summaries(ps[..i])
      {
        summaries := summaries + [Summarize(ps[i])];
        i := i + 1;
      }
      assert ps[..i] == ps;
      forall i | 0 <= i < |ps|
        ensures Matches(ps[i], status)
      {
        assert ps[i] in ps;
      }
    }

    /** How many pending proposals `generate_proposal` sees: the length of
        the default listing, which stops at 50. */
    function PendingSeen(): (n: nat)
      reads this
      ensures n == (if CountStatus(InOrder(proposals, order), Pending) <= DefaultListLimit
                    then CountStatus(InOrder(proposals, order), Pending) else DefaultListLimit)
    {
      |LoadProposals(Some(Pending), Some(DefaultListLimit))|
    }

    /** `generate_proposal`: refused when the pending proposals seen reach
        the ceiling; otherwise a new pending proposal for the configured
        default amount and the context's strategies is stored and
        returned. `justification` and `intendedUse` are the generated
        texts; `id` is the fresh identifier. */
    method GenerateProposal(context: AiContext, id: string, now: Timestamp, justification: string, intendedUse: string)
      returns (r: Result<FundingProposal, ManagerError>)
      requires Valid() && id !in proposals
      modifies this
      ensures Valid()
      ensures old(PendingSeen()) >= config.maxPending ==> r == Failure(CapacityExceeded(config.maxPending))
      ensures r.Success? ==>
        && old(PendingSeen()) < config.maxPending
        && ValidProposal(r.value) && r.value.status == Pending && r.value.proposalId == id
        && r.value.createdAt == now
        && r.value.requestedAmountSats == config.defaultAmountSats
        && r.value.currentBalanceSats == context.currentBalanceSats
        && r.value.strategiesToExecute == context.activeStrategies
        && r.value.timeHorizonDays == DefaultHorizonDays
        && r.value.riskAssessment == AssessRisk(context.volatility, |context.activeStrategies|)
        && Some(r.value.expectedRoiSats) == ExpectedRoi(config.defaultAmountSats, |context.activeStrategies|, context.dailyEarnings)
        && proposals == old(proposals)[id := r.value] && order == [id] + old(order)
      ensures r.Failure? ==> proposals == old(proposals) && order == old(order)
      ensures old(PendingSeen()) < config.maxPending && config.defaultAmountSats > 0 && context.currentBalanceSats >= 0
        ==> r.Success?
      ensures StepsLegally(old(proposals), proposals)
    {
      var pending := ListProposals(Some(Pending), DefaultListLimit);
      if |pending| >= config.maxPending {
        return Failure(CapacityExceeded(config.maxPending));
      }
      var requested := config.defaultAmountSats;
      var roi := ExpectedRoi(requested, |context.activeStrategies|, context.dailyEarnings);
      if roi.None? {
        return Failure(DivisionByZero);
      }
      var risk := AssessRisk(context.volatility, |context.activeStrategies|);
      var horizon := CalculateTimeHorizon(context.activeStrategies);
      var made := NewProposal(id, now, requested, context.currentBalanceSats, justification, intendedUse,
        roi.value, horizon, risk, context.activeStrategies);
      if made.Failure? {
        return Failure(InvalidField(made.error));
      }
      SaveProposal(made.value);
      r := Success(made.value);
    }

    /** `approve_proposal`: only a pending proposal can be approved. */
    method ApproveProposal(id: string, approvedBy: string, notes: Option<string>, now: Timestamp)
      returns (r: Result<FundingProposal, ManagerError>)
      requires Valid()
      modifies this
      ensures Valid() && order == old(order)
      ensures id !in old(proposals) ==> r == Failure(NotFound(id)) && proposals == old(proposals)
      ensures id in old(proposals) && old(proposals)[id].status != Pending ==>
        r == Failure(InvalidState(old(proposals)[id].status)) && proposals == old(proposals)
      ensures id in old(proposals) && old(proposals)[id].status == Pending ==>
        r == Success(Approve(old(proposals)[id], approvedBy, notes, now)) && proposals == old(proposals)[id := r.value]
      ensures StepsLegally(old(proposals), proposals)
    {
      var found := GetProposal(id);
      if found.None? {
        return Failure(NotFound(id));
      }
      var p := found.value;
      if p.status != Pending {
        return Failure(InvalidState(p.status));
      }
      p := Approve(p, approvedBy, notes, now);
      SaveProposal(p);
      r := Success(p);
    }

    /** `reject_proposal`: only a pending proposal can be rejected. */
    method RejectProposal(id: string, rejectedBy: string, reason: string, now: Timestamp)
      returns (r: Result<FundingProposal, ManagerError>)
      requires Valid()
      modifies this
      ensures Valid() && order == old(order)
      ensures id !in old(proposals) ==> r == Failure(NotFound(id)) && proposals == old(proposals)
      ensures id in old(proposals) && old(proposals)[id].status != Pending ==>
        r == Failure(InvalidState(old(proposals)[id].status)) && proposals == old(proposals)
      ensures id in old(proposals) && old(proposals)[id].status == Pending ==>
        r == Success(Reject(old(proposals)[id], rejectedBy, reason, now)) && proposals == old(proposals)[id := r.value]
      ensures StepsLegally(old(proposals), proposals)
    {
      var found := GetProposal(id);
      if found.None? {
        return Failure(NotFound(id));
      }
      var p := found.value;
      if p.status != Pending {
        return Failure(InvalidState(p.status));
      }
      p := Reject(p, rejectedBy, reason, now);
      SaveProposal(p);
      r := Success(p);
    }

    /** `mark_executed`: only an approved proposal can be executed. */
    method MarkExecuted(id: string, txid: string, now: Timestamp)
      returns (r: Result<FundingProposal, ManagerError>)
      requires Valid()
      modifies this
      ensures Valid() && order == old(order)
      ensures id !in old(proposals) ==> r == Failure(NotFound(id)) && proposals == old(proposals)
      ensures id in old(proposals) && old(proposals)[id].status != Approved ==>
        r == Failure(InvalidState(old(proposals)[id].status)) && proposals == old(proposals)
      ensures id in old(proposals) && old(proposals)[id].status == Approved ==>
        r == Success(Execute(old(proposals)[id], txid, now)) && proposals == old(proposals)[id := r.value]
      ensures StepsLegally(old(proposals), proposals)
    {
      var found := GetProposal(id);
      if found.None? {
        return Failure(NotFound(id));
      }
      var p := found.value;
      if p.status != Approved {
        return Failure(InvalidState(p.status));
      }
      p := Execute(p, txid, now);
      SaveProposal(p);
      r := Success(p);
    }

    /** `expire_old_proposals(max_age_hours)`: every pending proposal created
        before `now - max_age_hours` becomes expired; the count of those is
        returned. Nothing else changes. When that cutoff overflows, the
        `OverflowError` escapes before anything is touched. */
    method ExpireOldProposals(maxAgeHours: int, now: Timestamp) returns (r: Result<nat, ManagerError>)
      requires Valid()
      modifies this
      ensures Valid() && order == old(order)
      ensures r.Failure? <==> ExpiryCutoff(now, maxAgeHours).None?
      ensures r.Failure? ==> r.error == CutoffOverflow && proposals == old(proposals)
      ensures r.Success? ==>
        var cutoff := ExpiryCutoff(now, maxAgeHours).value;
        && proposals == ExpireStale(old(proposals), cutoff)
        && r.value == CountStale(InOrder(old(proposals), old(order)), cutoff)
      ensures StepsLegally(old(proposals), proposals)
    {
      var cut := ExpiryCutoff(now, maxAgeHours);
      if cut.None? {
        return Failure(CutoffOverflow);
      }
      var cutoff := cut.value;
      var pending := LoadProposals(Some(Pending), None);
      ghost var m0 := proposals;
      assert pending == Filtered(InOrder(proposals, order), Some(Pending));
      PendingListing(proposals, order, pending);
      CountStalePending(InOrder(proposals, order), cutoff);
      var count := Sweep(pending, cutoff, m0);
      ExpireAllPending(m0, IdsOf(pending), cutoff);
      ExpiryStepsLegally(m0, cutoff);
      r := Success(count);
    }

    /** The loop of `expire_old_proposals` over the pending listing. */
    method Sweep(pending: seq<FundingProposal>, cutoff: Timestamp, ghost m0: map<string, FundingProposal>)
      returns (count: nat)
      requires Valid() && proposals == m0
      requires forall k :: 0 <= k < |pending| ==>
        && pending[k].proposalId in m0 && m0[pending[k].proposalId] == pending[k]
        && pending[k].status == Pending && ValidProposal(pending[k])
      modifies this
      ensures Valid() && order == old(order)
      ensures proposals == ExpireAmong(m0, IdsOf(pending), cutoff)
      ensures count == CountStale(pending, cutoff)
    {
      count := 0;
      for i := 0 to |pending|
        invariant Valid() && order == old(order)
        invariant SweptUpTo(pending, i, cutoff, m0)
        invariant count == CountStale(pending[..i], cutoff)
      {
        var expired := ExpireIfStale(pending, i, cutoff, m0);
        count := count + if expired then 1 else 0;
      }
      assert pending[..|pending|] == pending;
    }

    /** The store once the sweep has handled the first `i` pending
        proposals. */
    ghost predicate SweptUpTo(pending: seq<FundingProposal>, i: nat, cutoff: Timestamp, m0: map<string, FundingProposal>)
      requires i <= |pending|
      reads this
    {
      proposals == ExpireAmong(m0, IdsOf(pending[..i]), cutoff)
    }

    /** One step of the sweep: expire `pending[i]` when it is stale. */
    method ExpireIfStale(pending: seq<FundingProposal>, i: nat, cutoff: Timestamp, ghost m0: map<string, FundingProposal>)
      returns (expired: bool)
      requires i < |pending|
      requires Valid() && SweptUpTo(pending, i, cutoff, m0)
      requires pending[i].proposalId in m0 && m0[pending[i].proposalId] == pending[i]
      requires pending[i].status == Pending && ValidProposal(pending[i])
      modifies this
      ensures Valid() && order == old(order)
      ensures SweptUpTo(pending, i + 1, cutoff, m0)
      ensures expired <==> Stale(pending[i], cutoff)
      ensures CountStale(pending[..i + 1], cutoff) == CountStale(pending[..i], cutoff) + (if expired then 1 else 0)
    {
      var p := pending[i];
      SweepStep(pending, i, cutoff);
      ExpireStep(m0, IdsOf(pending[..i]), p, cutoff);
      expired := p.createdAt < cutoff;
      if expired {
        SaveProposal(p.(status := Expired));
      }
    }

    /** `get_proposal_statistics`: counts by status, totals, the approval
        rate among decided proposals and the integer average, accumulated
        over every stored proposal. */
    method GetProposalStatistics() returns (stats: Statistics)
      ensures stats == StatisticsOf(InOrder(proposals, order))
    {
      var all := LoadProposals(None, None);
      FilteredNone(InOrder(proposals, order));
      stats := Accumulate(all);
    }
  }

  /** The accumulation loop of `get_proposal_statistics`. */
  method Accumulate(all: seq<FundingProposal>) returns (stats: Statistics)
    ensures stats == StatisticsOf(all)
  {
    if all == [] {
      return Statistics(0, map[], 0, 0, 0.0, 0);
    }
    var byStatus: map<ProposalStatus, nat> := map[];
    var totalRequested := 0;
    var totalApproved := 0;
    var i := 0;
    while i < |all|
      invariant 0 <= i <= |all|
      invariant byStatus == Tally(all[..i])
      invariant totalRequested == SumRequested(all[..i], None)
      invariant totalApproved == SumRequested(all[..i], Some(Approved))
    {
      var p := all[i];
      assert all[..i + 1][..i] == all[..i];
      byStatus := byStatus[p.status := if p.status in byStatus then byStatus[p.status] + 1 else 1];
      totalRequested := totalRequested + p.requestedAmountSats;
      if p.status == Approved {
        totalApproved := totalApproved + p.requestedAmountSats;
      }
      i := i + 1;
    }
    assert all[..i] == all;
    TallyCounts(all);
    var approved := if Approved in byStatus then byStatus[Approved] else 0;
    var rejected := if Rejected in byStatus then byStatus[Rejected] else 0;
    stats := Statistics(|all|, byStatus, totalRequested, totalApproved, ApprovalRate(approved, rejected), totalRequested / |all|);
  }

  lemma {:induction false} FilteredNone(ps: seq<FundingProposal>)
    ensures Filtered(ps, None) == ps
  {
    if ps != [] {
      var init, last := ps[..|ps| - 1], ps[|ps| - 1];
      assert init + [last] == ps;
      FilteredNone(init);
      assert Filtered(ps, None) == Filtered(init, None) + [last];
    }
  }

  /** When every listed id is stored, the ordered listing is exactly the
      stored proposals of the listed ids. */
  lemma {:induction false} InOrderAll(m: map<string, FundingProposal>, order: seq<string>)
    requires forall k :: 0 <= k < |order| ==> order[k] in m
    ensures |InOrder(m, order)| == |order|
    ensures forall k :: 0 <= k < |order| ==> InOrder(m, order)[k] == m[order[k]]
    decreases |order|
  {
    if order != [] {
      InOrderAll(m, order[1..]);
    }
  }

  /** The pending listing holds the stored proposal of every pending id, and
      nothing else. */
  lemma PendingListing(m: map<string, FundingProposal>, order: seq<string>, ps: seq<FundingProposal>)
    requires forall id :: id in m <==> id in order
    requires forall id :: id in m ==> m[id].proposalId == id
    requires forall id :: id in m ==> ValidProposal(m[id])
    requires ps == Filtered(InOrder(m, order), Some(Pending))
    ensures forall k :: 0 <= k < |ps| ==>
      && ps[k].proposalId in m && m[ps[k].proposalId] == ps[k]
      && ps[k].status == Pending && ValidProposal(ps[k])
    ensures forall id :: id in m && m[id].status == Pending ==> id in IdsOf(ps)
  {
    var all := InOrder(m, order);
    InOrderAll(m, order);
    forall k | 0 <= k < |ps|
      ensures ps[k].proposalId in m && m[ps[k].proposalId] == ps[k] && ps[k].status == Pending
    {
      var p := ps[k];
      assert p in ps;
      assert p in all;
      var k :| 0 <= k < |all| && all[k] == p;
      assert p == m[order[k]];
    }
    forall id | id in m && m[id].status == Pending
      ensures id in IdsOf(ps)
    {
      var k :| 0 <= k < |order| && order[k] == id;
      assert all[k] == m[id];
      assert m[id] in ps;
      var j :| 0 <= j < |ps| && ps[j] == m[id];
      assert ps[j].proposalId == id;
    }
  }

  lemma IdsOfSnoc(ps: seq<FundingProposal>)
    requires ps != []
    ensures IdsOf(ps) == IdsOf(ps[..|ps| - 1]) + {ps[|ps| - 1].proposalId}
  {
    var init := ps[..|ps| - 1];
    forall id | id in IdsOf(ps)
      ensures id in IdsOf(init) + {ps[|ps| - 1].proposalId}
    {
      var k :| 0 <= k < |ps| && ps[k].proposalId == id;
      if k < |init| {
        assert init[k] == ps[k];
      }
    }
    forall id | id in IdsOf(init)
      ensures id in IdsOf(ps)
    {
      var k :| 0 <= k < |init| && init[k].proposalId == id;
      assert ps[k] == init[k];
    }
  }

  /** One more proposal handled by the sweep: its id joins the handled
      ids, and it is counted exactly when it is stale. */
  lemma SweepStep(pending: seq<FundingProposal>, i: nat, cutoff: Timestamp)
    requires i < |pending|
    ensures IdsOf(pending[..i + 1]) == IdsOf(pending[..i]) + {pending[i].proposalId}
    ensures CountStale(pending[..i + 1], cutoff)
      == CountStale(pending[..i], cutoff) + (if Stale(pending[i], cutoff) then 1 else 0)
  {
    assert pending[..i + 1][..i] == pending[..i];
    IdsOfSnoc(pending[..i + 1]);
  }

  /** Handling one more pending proposal in the sweep expires it exactly
      when it is stale. */
  lemma ExpireStep(m0: map<string, FundingProposal>, ids: set<string>, p: FundingProposal, cutoff: Timestamp)
    requires p.proposalId in m0 && m0[p.proposalId] == p && p.status == Pending
    ensures ExpireAmong(m0, ids + {p.proposalId}, cutoff)
      == if p.createdAt < cutoff then ExpireAmong(m0, ids, cutoff)[p.proposalId := p.(status := Expired)]
         else ExpireAmong(m0, ids, cutoff)
  {
  }

  /** Once every stale id has been handled the sweep is complete. */
  lemma ExpireAllPending(m0: map<string, FundingProposal>, ids: set<string>, cutoff: Timestamp)
    requires forall id :: id in m0 && m0[id].status == Pending ==> id in ids
    ensures ExpireAmong(m0, ids, cutoff) == ExpireStale(m0, cutoff)
  {
  }

  /** The sweep only moves pending proposals to expired. */
  lemma ExpiryStepsLegally(m: map<string, FundingProposal>, cutoff: Timestamp)
    ensures StepsLegally(m, ExpireStale(m, cutoff))
  {
  }

  /** Only pending proposals can be stale, so counting the stale ones among
      the pending ones counts them all. */
  lemma {:induction false} CountStalePending(ps: seq<FundingProposal>, cutoff: Timestamp)
    ensures CountStale(Filtered(ps, Some(Pending)), cutoff) == CountStale(ps, cutoff)
  {
    if ps != [] {
      var init := ps[..|ps| - 1];
      var last := ps[|ps| - 1];
      CountStalePending(init, cutoff);
      var f := Filtered(init, Some(Pending));
      if last.status == Pending {
        assert (f + [last])[..|f|] == f;
      } else {
        assert f + [] == f;
      }
    }
  }
}

=== FILE: funding_schema.dfy ===
/** The funding-proposal data model: `FundingProposal` with its field
    constraints and defaults, the approval notification `ProposalApproval`
    and the listing projection `ProposalSummary`. */
module FundingSchema {
  import opened Prelude
  import opened PolicySchema

  /** The five statuses the manager ever stores. */
  datatype ProposalStatus = Pending | Approved | Rejected | Executed | Expired

  datatype Risk = Low | Medium | High

  datatype FundingProposal = FundingProposal(
    proposalId: string,
    createdAt: Timestamp,
    status: ProposalStatus,
    requestedAmountSats: int,
    currentBalanceSats: int,
    justification: string,
    intendedUse: string,
    expectedRoiSats: int,
    riskAssessment: Risk,
    strategiesToExecute: seq<string>,
    timeHorizonDays: int,
    approvedAt: Option<Timestamp>,
    approvedBy: Option<string>,
    rejectedAt: Option<Timestamp>,
    rejectedBy: Option<string>,
    approvalNotes: Option<string>,
    executedAt: Option<Timestamp>,
    executionTxid: Option<string>,
    workflowId: Option<string>)

  /** The field constraints every stored proposal satisfies. */
  predicate ValidProposal(p: FundingProposal) {
    && p.requestedAmountSats > 0
    && p.currentBalanceSats >= 0
    && p.expectedRoiSats >= 0
    && p.timeHorizonDays > 0
  }

  /** The constraint errors of a proposal's numeric fields, in field order. */
  function ProposalErrors(requested: int, balance: int, roi: int, horizon: int): (errors: seq<FieldError>)
    ensures errors == [] <==> requested > 0 && balance >= 0 && roi >= 0 && horizon > 0
  {
    (if requested > 0 then [] else [NotPositive("requested_amount_sats")])
    + (if balance >= 0 then [] else [Negative("current_balance_sats")])
    + (if roi >= 0 then [] else [Negative("expected_roi_sats")])
    + (if horizon > 0 then [] else [NotPositive("time_horizon_days")])
  }

  /** `FundingProposal(...)` for a new proposal: a fresh id (`uuid4`,
      passed in), the creation time, status pending, risk medium and no
      strategies unless given, and every approval, rejection and execution
      stamp unset. */
  function NewProposal(
    id: string,
    now: Timestamp,
    requested: int,
    balance: int,
    justification: string,
    intendedUse: string,
    roi: int,
    horizon: int,
    risk: Risk := Medium,
    strategies: seq<string> := []): (r: Result<FundingProposal, seq<FieldError>>)
    ensures r.Success? <==> requested > 0 && balance >= 0 && roi >= 0 && horizon > 0
    ensures r.Failure? ==> r.error != []
    ensures r.Success? ==>
      && ValidProposal(r.value)
      && r.value.proposalId == id && r.value.createdAt == now && r.value.status == Pending
      && r.value.requestedAmountSats == requested && r.value.currentBalanceSats == balance
      && r.value.expectedRoiSats == roi && r.value.timeHorizonDays == horizon
      && r.value.riskAssessment == risk && r.value.strategiesToExecute == strategies
      && r.value.approvedAt.None? && r.value.approvedBy.None?
      && r.value.rejectedAt.None? && r.value.rejectedBy.None? && r.value.approvalNotes.None?
      && r.value.executedAt.None? && r.value.executionTxid.None? && r.value.workflowId.None?
  {
    var errors := ProposalErrors(requested, balance, roi, horizon);
    if errors != [] then Failure(errors)
    else Success(FundingProposal(id, now, Pending, requested, balance, justification, intendedUse,
      roi, risk, strategies, horizon, None, None, None, None, None, None, None, None))
  }

  /** A proposal built without risk or strategies is a medium-risk proposal
      with no strategies. */
  lemma NewProposalDefaults(id: string, now: Timestamp, requested: int, balance: int, roi: int, horizon: int)
    requires requested > 0 && balance >= 0 && roi >= 0 && horizon > 0
    ensures NewProposal(id, now, requested, balance, "", "", roi, horizon).Success?
    ensures NewProposal(id, now, requested, balance, "", "", roi, horizon).value.riskAssessment == Medium
    ensures NewProposal(id, now, requested, balance, "", "", roi, horizon).value.strategiesToExecute == []
  {
  }

  /** The approval notification the workflow sends back. */
  datatype ProposalApproval = ProposalApproval(
    proposalId: string,
    status: string,
    approvedBy: string,
    approvalNotes: Option<string>,
    timestamp: Timestamp,
    signature: string)

  /** `ProposalApproval(...)`: notes default to none, the timestamp to the
      current time. */
  function NewApproval(proposalId: string, status: string, approvedBy: string, signature: string,
                       now: Timestamp, notes: Option<string> := None): (a: ProposalApproval)
    ensures a.proposalId == proposalId && a.status == status && a.approvedBy == approvedBy
    ensures a.signature == signature && a.timestamp == now && a.approvalNotes == notes
  {
    ProposalApproval(proposalId, status, approvedBy, notes, now, signature)
  }

  lemma ApprovalNotesDefault(proposalId: string, status: string, approvedBy: string, signature: string, now: Timestamp)
    ensures NewApproval(proposalId, status, approvedBy, signature, now).approvalNotes == None
  {
  }

  /** The listing projection: identity, creation time, status, amount and
      the (already truncated) justification. */
  datatype ProposalSummary = ProposalSummary(
    proposalId: string,
    createdAt: Timestamp,
    status: ProposalStatus,
    requestedAmountSats: int,
    justification: string)
}

=== FILE: json_files.dfy ===
/** The ledger's file layer: `_load_json` and `_save_json` of the
    persistence manager, over an abstract file state. A file is missing,
    present but unreadable or not valid JSON, present but not text in the
    locale's encoding, or holds a JSON value. */
module JsonFiles {
  import opened Prelude

  /** JSON values as `json.load` returns them (floats are not modelled). */
  datatype Json =
    | JNull
    | JBool(b: bool)
    | JInt(i: int)
    | JStr(s: string)
    | JList(items: seq<Json>)
    | JObject(fields: map<string, Json>)

  /** Python truthiness of a decoded JSON value. */
  predicate Truthy(j: Json) {
    match j
    case JNull => false
    case JBool(b) => b
    case JInt(i) => i != 0
    case JStr(s) => s != ""
    case JList(items) => items != []
    case JObject(fields) => fields != map[]
  }

  /** `Unparseable`: opening or reading fails with an `OSError`, or the
      text is not JSON (`JSONDecodeError`). `Undecodable`: the bytes are not
      text in the locale's encoding, so reading raises `UnicodeDecodeError`,
      which `_load_json` does not catch. */
  datatype FileState = Missing | Unparseable | Undecodable | Holds(data: Json)

  /** How an attempted write ends: the data is written, opening the file
      for writing fails, or `json.dump` fails part-way through. */
  datatype WriteOutcome = Written | OpenFailed | DumpFailed

  /** `_load_json(path, default)`: the decoded content, or `default or {}`
      when the file is missing, cannot be read or is not JSON; `None` where
      the `UnicodeDecodeError` of an undecodable file escapes. */
  function LoadJson(f: FileState, default: Json): (r: Option<Json>)
    ensures f.Holds? ==> r == Some(f.data)
    ensures r.None? <==> f.Undecodable?
    ensures (f.Missing? || f.Unparseable?) ==> r.Some? && (Truthy(r.value) || r.value == JObject(map[]))
    ensures (f.Missing? || f.Unparseable?) && Truthy(default) ==> r == Some(default)
  {
    match f
    case Holds(data) => Some(data)
    case Undecodable => None
    case _ => Some(if Truthy(default) then default else JObject(map[]))
  }

  /** `_save_json(path, data)`: the file after the attempt and whether the
      attempt succeeded (a failure re-raises). An existing file is first
      renamed to a backup, which is renamed back when the write fails; with
      no prior file there is no backup, and a dump that fails part-way leaves
      a truncated file behind. */
  function SaveJson(f: FileState, data: Json, outcome: WriteOutcome): (r: (FileState, bool))
    ensures r.1 <==> outcome == Written
    ensures r.1 ==> r.0 == Holds(data)
    ensures !r.1 && f != Missing ==> r.0 == f
  {
    if outcome == Written then (Holds(data), true)
    else if f != Missing then (f, false)
    else if outcome == OpenFailed then (Missing, false)
    else (Unparseable, false)
  }

  /** All-or-nothing at the level of what a later load sees: after a
      successful save a load returns the saved data, and after a failed save
      a load returns exactly what it returned before. */
  lemma SaveThenLoad(f: FileState, data: Json, outcome: WriteOutcome, default: Json)
    ensures LoadJson(SaveJson(f, data, outcome).0, default)
         == if outcome == Written then Some(data) else LoadJson(f, default)
  {
  }

  /** The logs are loaded with default `[]`, which is falsy, so a missing
      log file reads as `{}`, not as an empty list; the callers' own
      `isinstance(..., list)` check turns it back into `[]`. An
      undecodable log file still raises. */
  lemma EmptyListDefaultReadsAsObject(f: FileState)
    requires !f.Holds?
    ensures LoadJson(f, JList([])) == if f.Undecodable? then None else Some(JObject(map[]))
  {
  }
}

=== FILE: n8n_adapter.dfy ===
/** The approval-webhook side of the n8n adapter: the signature decision
    of `verify_webhook_signature` and the strategy section of the
    human-readable proposal message. The clock, the UTF-8 encoder and
    HMAC-SHA256 (RFC 2104 over FIPS 180-4 SHA-256, hex digest) are
    parameters. */
module N8nAdapter {
  import opened Prelude

  newtype byte = b: int | 0 <= b < 256

  /** The accepted distance between the webhook's timestamp and now. */
  const ReplayWindowSeconds: int := 300

  function Abs(x: int): (r: nat)
    ensures r == x || r == -x
  {
    if x < 0 then -x else x
  }

  // -----------------------------------------------------------------------
  // int(str)

  /** The digit part Python's `int()` accepts: digits, with single
      underscores allowed between two digits. */
  predicate IsUnderscoredDigits(s: string) {
    && |s| >= 1
    && IsDigit(s[0]) && IsDigit(s[|s| - 1])
    && (forall i :: 0 <= i < |s| ==> IsDigit(s[i]) || s[i] == '_')
    && (forall i :: 0 <= i < |s| - 1 ==> !(s[i] == '_' && s[i + 1] == '_'))
  }

  function DropUnderscores(s: string): (r: string)
    ensures (forall i :: 0 <= i < |s| ==> IsDigit(s[i]) || s[i] == '_') ==> AllDigits(r)
    ensures AllDigits(s) ==> r == s
  {
    if s == [] then []
    else (if s[0] == '_' then [] else [s[0]]) + DropUnderscores(s[1..])
  }

  /** The characters `int()` skips around a number: the ASCII blanks
      space, tab, newline, vertical tab, form feed and carriage return,
      and every non-ASCII character `str.isspace()` accepts (those are
      turned into spaces first). The ASCII separators U+001C..U+001F,
      which `str.strip()` removes, are not skipped. */
  predicate IsIntSpace(c: char) {
    IsSpace(c) && !('\U{001C}' <= c <= '\U{001F}')
  }

  /** `int(s)` for a string: the blanks above stripped, then
      `ParseSigned`; `None` where Python raises `ValueError`. */
  function PyInt(s: string): (r: Option<int>)
    ensures StrippedBy(s, IsIntSpace) ==> r == ParseSigned(s)
  {
    ParseSigned(StripBy(s, IsIntSpace))
  }

  /** The most digits `int()` converts from a decimal string: the default
      of `sys.get_int_max_str_digits()`. Leading zeros count, underscores
      do not. */
  const MaxStrDigits: nat := 4300

  /** An optional sign, then decimal digits with single underscores
      between them, at most `MaxStrDigits` digits in all. */
  function ParseSigned(t: string): (r: Option<int>)
    ensures r.Some? ==> t != []
  {
    if t == [] then None
    else
      var body := if t[0] == '-' || t[0] == '+' then t[1..] else t;
      if !IsUnderscoredDigits(body) then None
      else
        var digits := DropUnderscores(body);
        if |digits| > MaxStrDigits then None
        else
          var n: int := DecimalValue(digits);
          Some(if t[0] == '-' then -n else n)
  }

  /** `int(str(i)) == i`: the decimal text of an integer of at most 4300
      digits parses back to it; a longer one is refused. */
  lemma PyIntOfDecimal(i: int)
    ensures PyInt(IntToDecimal(i)).Some? <==> |NatToDecimal(Abs(i))| <= MaxStrDigits
    ensures PyInt(IntToDecimal(i)).Some? ==> PyInt(IntToDecimal(i)).value == i
  {
    var s := IntToDecimal(i);
    var digits := NatToDecimal(Abs(i));
    assert s == if i < 0 then "-" + digits else digits;
    assert PyInt(s) == ParseSigned(s) by {
      StrippedDecimal(s, digits);
      StripByOfStripped(s, IsIntSpace);
    }
    ParseDigits(digits, i < 0);
    assert DecimalValue(digits) == Abs(i) by {
      DecimalRoundTrip(Abs(i));
    }
  }

  /** Plain digits, with or without a minus sign, read as their value
      when there are at most 4300 of them. */
  lemma ParseDigits(d: string, negative: bool)
    requires |d| >= 1 && AllDigits(d)
    ensures var r := ParseSigned(if negative then "-" + d else d);
      && (r.Some? <==> |d| <= MaxStrDigits)
      && (r.Some? ==> r.value == if negative then -(DecimalValue(d) as int) else DecimalValue(d))
  {
    PlainDigits(d);
    assert IsDigit(d[0]);
    if negative {
      var t := "-" + d;
      assert t[0] == '-' && t[1..] == d;
    } else {
      assert d[0] != '-' && d[0] != '+';
    }
  }

  lemma StrippedDecimal(s: string, digits: string)
    requires |digits| >= 1 && AllDigits(digits)
    requires s == digits || s == "-" + digits
    ensures StrippedBy(s, IsIntSpace)
  {
    assert IsDigit(digits[|digits| - 1]);
    assert s[|s| - 1] == digits[|digits| - 1];
  }

  /** A plain run of digits is accepted as it stands. */
  lemma PlainDigits(d: string)
    requires |d| >= 1 && AllDigits(d)
    ensures IsUnderscoredDigits(d) && DropUnderscores(d) == d
  {
  }

  /** Text that is not an integer is refused, and so is a doubled
      underscore, while a single grouping underscore is accepted. */
  lemma PyIntExamples()
    ensures PyInt("abc").None?
    ensures PyInt("1__0").None?
    ensures PyInt("1_0") == Some(10)
  {
    PyIntRefusesText();
    PyIntRefusesDoubledUnderscore();
    PyIntGroupingUnderscore();
  }

  /** `int()` skips blanks around the number, a no-break space among
      them, but not an ASCII file separator, which `str.strip()` would
      remove. */
  lemma PyIntBlanks()
    ensures PyInt("\n5") == Some(5)
    ensures PyInt("\U{00A0}5") == Some(5)
    ensures PyInt("\U{001C}5").None?
    ensures Strip("\U{001C}5") == "5"
  {
    PyIntAroundBlanks();
    PyIntAfterNoBreakSpace();
    PyIntRefusesSeparator();
    StripSeparator();
  }

  lemma PyIntAroundBlanks()
    ensures PyInt("\n5") == Some(5)
  {
    assert "\n5" == ['\n'] + "5";
    StripLeading('\n', "5", IsIntSpace);
    ParseFive();
  }

  lemma PyIntAfterNoBreakSpace()
    ensures PyInt("\U{00A0}5") == Some(5)
  {
    assert "\U{00A0}5" == ['\U{00A0}'] + "5";
    StripLeading('\U{00A0}', "5", IsIntSpace);
    ParseFive();
  }

  lemma ParseFive()
    ensures ParseSigned("5") == Some(5)
  {
    PlainDigits("5");
    assert DecimalValue("5") == 5 by {
      assert "5"[..0] == [];
    }
  }

  lemma PyIntRefusesSeparator()
    ensures PyInt("\U{001C}5").None?
  {
    var s := "\U{001C}5";
    assert ParseSigned(s).None? by {
      assert s[0] == '\U{001C}' && !IsDigit(s[0]);
    }
    assert StrippedBy(s, IsIntSpace) by {
      assert s[0] == '\U{001C}' && s[1] == '5';
    }
    StripByOfStripped(s, IsIntSpace);
  }

  lemma StripSeparator()
    ensures Strip("\U{001C}5") == "5"
  {
    assert "\U{001C}5" == ['\U{001C}'] + "5";
    StripLeading('\U{001C}', "5", IsSpace);
  }

  /** A run of more than 4300 digits is refused, leading zeros
      included. */
  lemma LongDigitRunRefused(d: string)
    requires AllDigits(d) && |d| > MaxStrDigits
    ensures PyInt(d).None?
  {
    assert ParseSigned(d).None? by {
      assert IsDigit(d[0]) && d[0] != '-' && d[0] != '+';
      PlainDigits(d);
    }
    assert StrippedBy(d, IsIntSpace) by {
      assert IsDigit(d[0]) && IsDigit(d[|d| - 1]);
    }
    StripByOfStripped(d, IsIntSpace);
  }

  lemma PyIntRefusesText()
    ensures PyInt("abc").None?
  {
    assert StrippedBy("abc", IsIntSpace) && !IsDigit("abc"[0]);
  }

  lemma PyIntRefusesDoubledUnderscore()
    ensures PyInt("1__0").None?
  {
    var t := "1__0";
    assert !IsUnderscoredDigits(t) by {
      assert t[1] == '_' && t[2] == '_';
    }
    assert ParseSigned(t).None? by {
      assert t[0] == '1';
    }
    assert StrippedBy(t, IsIntSpace) by {
      assert t[0] == '1' && t[3] == '0';
    }
    StripByOfStripped(t, IsIntSpace);
  }

  lemma PyIntGroupingUnderscore()
    ensures PyInt("1_0") == Some(10)
  {
    var t := "1_0";
    assert StrippedBy(t, IsIntSpace);
    assert t[0] != '-' && t[0] != '+';
    assert IsUnderscoredDigits(t);
    assert DropUnderscores(t) == "10" by {
      assert t[1..] == "_0" && t[1..][1..] == "0";
      assert DropUnderscores("_0") == "0";
    }
    assert DecimalValue("10") == 10 by {
      assert "10"[..1] == "1";
    }
    assert ParseSigned(t) == Some(10);
  }

  // -----------------------------------------------------------------------
  // verify_webhook_signature

  /** `verify_webhook_signature(payload, signature, timestamp)`. Without a
      secret the request is refused in production and let through
      elsewhere. With a secret, a timestamp that is not an integer or lies
      more than 300 seconds from now is refused; otherwise the signature
      must equal the hex HMAC-SHA256 under the secret of the timestamp's
      bytes followed by the payload. */
  function VerifyWebhookSignature(
    secret: Option<string>,
    env: string,
    payload: seq<byte>,
    signature: string,
    timestamp: string,
    now: int,
    encode: string -> seq<byte>,
    hmacSha256Hex: (seq<byte>, seq<byte>) -> string): (ok: bool)
    ensures (secret.None? || secret.value == "") ==> (ok <==> env != "prod")
    ensures secret.Some? && secret.value != "" && PyInt(timestamp).None? ==> !ok
    ensures (secret.Some? && secret.value != "" && PyInt(timestamp).Some?
             && Abs(now - PyInt(timestamp).value) > ReplayWindowSeconds) ==> !ok
    ensures secret.Some? && secret.value != "" && ok ==>
      && PyInt(timestamp).Some? && Abs(now - PyInt(timestamp).value) <= ReplayWindowSeconds
      && signature == hmacSha256Hex(encode(secret.value), encode(timestamp) + payload)
    ensures secret.Some? && secret.value != "" && PyInt(timestamp).Some?
            && Abs(now - PyInt(timestamp).value) <= ReplayWindowSeconds ==>
      (ok <==> signature == hmacSha256Hex(encode(secret.value), encode(timestamp) + payload))
  {
    if secret.None? || secret.value == "" then env != "prod"
    else
      match PyInt(timestamp)
      case None => false
      case Some(webhookTime) =>
        if Abs(now - webhookTime) > ReplayWindowSeconds then false
        else signature == hmacSha256Hex(encode(secret.value), encode(timestamp) + payload)
  }

  /** A sender holding the secret that stamps the request with the decimal
      text of its clock and signs it, the two clocks at most 300 seconds
      apart (exactly 300 included), is accepted exactly when the stamp has
      at most 4300 digits. */
  lemma SignedFreshRequestAccepted(
    secret: string, env: string, payload: seq<byte>, sent: int, now: int,
    encode: string -> seq<byte>, hmacSha256Hex: (seq<byte>, seq<byte>) -> string)
    requires secret != ""
    requires Abs(now - sent) <= ReplayWindowSeconds
    ensures var timestamp := IntToDecimal(sent);
      VerifyWebhookSignature(Some(secret), env, payload,
        hmacSha256Hex(encode(secret), encode(timestamp) + payload), timestamp, now, encode, hmacSha256Hex)
      <==> |NatToDecimal(Abs(sent))| <= MaxStrDigits
  {
    PyIntOfDecimal(sent);
  }

  /** A request stamped more than 300 seconds away from now is refused
      whatever it carries as a signature. */
  lemma StaleRequestRefused(
    secret: string, env: string, payload: seq<byte>, signature: string, sent: int, now: int,
    encode: string -> seq<byte>, hmacSha256Hex: (seq<byte>, seq<byte>) -> string)
    requires secret != ""
    requires Abs(now - sent) > ReplayWindowSeconds
    ensures !VerifyWebhookSignature(Some(secret), env, payload, signature, IntToDecimal(sent), now, encode, hmacSha256Hex)
  {
    PyIntOfDecimal(sent);
  }

  /** A timestamp of more than 4300 digits is refused with a secret set,
      whatever the signature and the clock, even when its value (after
      leading zeros) is the current time: `int()` raises on it. */
  lemma LongStampRefused(
    secret: string, env: string, payload: seq<byte>, signature: string, stamp: string, now: int,
    encode: string -> seq<byte>, hmacSha256Hex: (seq<byte>, seq<byte>) -> string)
    requires secret != "" && AllDigits(stamp) && |stamp| > MaxStrDigits
    ensures !VerifyWebhookSignature(Some(secret), env, payload, signature, stamp, now, encode, hmacSha256Hex)
  {
    LongDigitRunRefused(stamp);
  }

  /** A timestamp led by an ASCII file separator is refused with a secret
      set, whatever the signature and the clock: `int()` raises on it. */
  lemma SeparatorStampRefused(
    secret: string, env: string, payload: seq<byte>, signature: string, now: int,
    encode: string -> seq<byte>, hmacSha256Hex: (seq<byte>, seq<byte>) -> string)
    requires secret != ""
    ensures !VerifyWebhookSignature(Some(secret), env, payload, signature, "\U{001C}5", now, encode, hmacSha256Hex)
  {
    PyIntRefusesSeparator();
  }

  // -----------------------------------------------------------------------
  // format_proposal_for_human: the strategy section

  const BulletPrefix: string := "  • "
  const DefaultBullets: seq<string> := [
    BulletPrefix + "Market making",
    BulletPrefix + "Arbitrage opportunities",
    BulletPrefix + "Yield farming"]

  /** The bullet lines under "STRATEGIES TO EXECUTE": one per strategy in
      order, or the three default bullets when there is none. */
  function StrategyBullets(strategies: seq<string>): (lines: seq<string>)
    ensures strategies == [] ==> lines == DefaultBullets
    ensures strategies != [] ==> |lines| == |strategies|
    ensures strategies != [] ==> forall i :: 0 <= i < |strategies| ==> lines[i] == BulletPrefix + strategies[i]
  {
    if strategies == [] then DefaultBullets
    else seq(|strategies|, i requires 0 <= i < |strategies| => BulletPrefix + strategies[i])
  }

  /** Reading the strategies back off the bullets. */
  function BulletTexts(lines: seq<string>): (texts: seq<string>)
    ensures |texts| == |lines|
  {
    seq(|lines|, i requires 0 <= i < |lines| =>
      if |lines[i]| >= |BulletPrefix| then lines[i][|BulletPrefix|..] else lines[i])
  }

  /** The bullets carry every strategy in order: a non-empty list is read
      back exactly, and an empty list always yields three lines. */
  lemma StrategyBulletsRoundTrip(strategies: seq<string>)
    ensures strategies != [] ==> BulletTexts(StrategyBullets(strategies)) == strategies
    ensures strategies == [] ==> |StrategyBullets(strategies)| == 3
  {
    if strategies != [] {
      var texts := BulletTexts(StrategyBullets(strategies));
      forall i | 0 <= i < |strategies|
        ensures texts[i] == strategies[i]
      {
        assert StrategyBullets(strategies)[i] == BulletPrefix + strategies[i];
      }
    }
  }
}

=== FILE: persistence.dfy ===
/** The ledger store (`PersistenceManager`): the daily-spend records keyed by
    their date string, the transaction history (at most 1000 entries) and the
    policy-violation log (at most 500 entries). The fields hold what the
    three JSON files hold after each committed write; the file layer itself
    is `JsonFiles`. "Today" is passed in where the source reads the local
    clock. */
module Persistence {
  import opened Prelude
  import opened Dates
  import opened PolicySchema

  const MaxHistory: nat := 1000
  const MaxViolations: nat := 500

  datatype TxStatus = Completed | Pending

  /** One entry of `transaction_history.json`. */
  datatype TransactionRecord = TransactionRecord(
    timestamp: Timestamp,
    destination: string,
    amountSats: int,
    feeRateSatsPerVbyte: Option<int>,
    description: Option<string>,
    txid: Option<string>,
    status: TxStatus)

  /** `"completed" if txid else "pending"`: an empty txid is falsy too. */
  function StatusFor(txid: Option<string>): (s: TxStatus)
    ensures s == Completed <==> txid.Some? && txid.value != ""
  {
    if txid.Some? && txid.value != "" then Completed else Pending
  }

  function HistoryEntry(request: TransactionRequest, txid: Option<string>): (e: TransactionRecord)
    ensures e.amountSats == request.amountSats && e.destination == request.destination
    ensures e.txid == txid && e.status == StatusFor(txid)
  {
    TransactionRecord(request.createdAt, request.destination, request.amountSats,
      request.feeRateSatsPerVbyte, request.description, txid, StatusFor(txid))
  }

  /** The record stored for the day `i` days before `today`, if that day
      is in the calendar and has a record. */
  function DayRecord(m: map<string, DailySpend>, today: Date, i: int): (r: Option<DailySpend>)
    ensures r.Some? ==> DaysAgo(today, i).Some? && FormatDate(DaysAgo(today, i).value) in m
    ensures r.Some? ==> r.value == m[FormatDate(DaysAgo(today, i).value)]
  {
    match DaysAgo(today, i)
    case None => None
    case Some(d) => if FormatDate(d) in m then Some(m[FormatDate(d)]) else None
  }

  /** The records of today, today-1, ..., today-(n-1) that exist, newest
      first, or `None` when one of those days is outside the calendar
      (`OverflowError`). */
  function TrailingUpTo(m: map<string, DailySpend>, today: Date, n: nat): Option<seq<DailySpend>> {
    if n == 0 then Some([])
    else
      match TrailingUpTo(m, today, n - 1)
      case None => None
      case Some(prev) =>
        if DaysAgo(today, n - 1).None? then None
        else
          var here := DayRecord(m, today, n - 1);
          Some(prev + if here.Some? then [here.value] else [])
  }

  /** `load_daily_spends(days)`: the overflow is caught and gives `[]`, and
      so does a non-positive `days` (an empty `range`). */
  function TrailingDailySpends(m: map<string, DailySpend>, today: Date, days: int): seq<DailySpend> {
    if days <= 0 then []
    else
      match TrailingUpTo(m, today, days)
      case None => []
      case Some(s) => s
  }

  /** The date a stored date string stands for (`strptime`). */
  function DateOf(s: string): Date
    requires IsDateString(s)
  {
    ParseDate(s).value
  }

  /** The records `cleanup_old_data` keeps: those dated on or after the
      cutoff. Every key parses, since every stored record passed the
      `DailySpend` date validator. */
  function RetainFrom(m: map<string, DailySpend>, cutoff: Date): (r: map<string, DailySpend>)
    requires forall k :: k in m ==> IsDateString(k)
    ensures forall k :: k in r <==> k in m && !Before(DateOf(k), cutoff)
    ensures forall k :: k in r ==> r[k] == m[k]
  {
    map k | k in m && !Before(DateOf(k), cutoff) :: m[k]
  }

  /** The store's invariant: each record sits under its own date string and
      is a valid `DailySpend`; both logs are within their bounds. */
  ghost predicate WellKeyed(m: map<string, DailySpend>) {
    forall k :: k in m ==> m[k].date == k && ValidDailySpend(m[k])
  }

  class Ledger {
    var dailySpends: map<string, DailySpend>
    var history: seq<TransactionRecord>
    var violations: seq<PolicyViolation>

    ghost predicate Valid()
      reads this
    {
      WellKeyed(dailySpends) && |history| <= MaxHistory && |violations| <= MaxViolations
    }

    /** A manager over a fresh data directory: all three files missing. */
    constructor ()
      ensures Valid()
      ensures dailySpends == map[] && history == [] && violations == []
    {
      dailySpends := map[];
      history := [];
      violations := [];
    }

    /** `load_daily_spend(date_str)`. */
    function LoadDailySpend(date: string): (r: Option<DailySpend>)
      reads this
      ensures r.Some? <==> date in dailySpends
      ensures r.Some? ==> r.value == dailySpends[date]
    {
      if date in dailySpends then Some(dailySpends[date]) else None
    }

    /** `save_daily_spend`: insert or overwrite the record for its date; a
      later load for that date returns it and every other date reads as
      before. */
    method SaveDailySpend(spend: DailySpend)
      requires Valid() && ValidDailySpend(spend)
      modifies this
      ensures Valid()
      ensures dailySpends == old(dailySpends)[spend.date := spend]
      ensures LoadDailySpend(spend.date) == Some(spend)
      ensures forall d :: d != spend.date ==> LoadDailySpend(d) == old(LoadDailySpend(d))
      ensures history == old(history) && violations == old(violations)
    {
      dailySpends := dailySpends[spend.date := spend];
    }

    /** `load_daily_spends(days)`: the records of today, today-1, ...,
      today-(days-1) that exist, newest first. */
    method LoadDailySpends(days: int, today: Date) returns (result: seq<DailySpend>)
      ensures result == TrailingDailySpends(dailySpends, today, days)
    {
      result := [];
      var i := 0;
      while i < days
        invariant 0 <= i <= if days > 0 then days else 0
        invariant TrailingUpTo(dailySpends, today, i) == Some(result)
        decreases days - i
      {
        var check := DaysAgo(today, i);
        if check.None? {
          assert TrailingUpTo(dailySpends, today, i + 1).None?;
          TrailingStaysNone(dailySpends, today, i + 1, days);
          return [];
        }
        var key := FormatDate(check.value);
        ghost var prev := result;
        if key in dailySpends {
          result := result + [dailySpends[key]];
        }
        TrailingStep(dailySpends, today, i, prev);
        i := i + 1;
      }
    }

    /** `save_transaction`: append one history entry and keep the last 1000. */
    method SaveTransaction(request: TransactionRequest, txid: Option<string>)
      requires Valid()
      modifies this
      ensures Valid()
      ensures history == KeepLast(old(history) + [HistoryEntry(request, txid)], MaxHistory)
      ensures dailySpends == old(dailySpends) && violations == old(violations)
    {
      var h := history + [HistoryEntry(request, txid)];
      if |h| > MaxHistory {
        h := h[|h| - MaxHistory..];
      }
      history := h;
    }

    /** `load_transaction_history(limit)`. */
    function LoadTransactionHistory(limit: int): (r: seq<TransactionRecord>)
      reads this
      ensures |r| <= |history| && r == history[|history| - |r|..]
      ensures limit == 0 ==> r == history
      ensures limit > 0 ==> |r| == (if limit <= |history| then limit else |history|)
      ensures limit < 0 ==> |r| == (if -limit <= |history| then |history| + limit else 0)
    {
      if limit != 0 then SliceFrom(history, -limit) else history
    }

    /** `save_policy_violation`: stamp the current time, append, keep the
      last 500. */
    method SavePolicyViolation(v: PolicyViolation, now: Timestamp)
      requires Valid()
      modifies this
      ensures Valid()
      ensures violations == KeepLast(old(violations) + [v.(timestamp := now)], MaxViolations)
      ensures dailySpends == old(dailySpends) && history == old(history)
    {
      var vs := violations + [v.(timestamp := now)];
      if |vs| > MaxViolations {
        vs := vs[|vs| - MaxViolations..];
      }
      violations := vs;
    }

    /** `load_policy_violations(limit)`. */
    function LoadPolicyViolations(limit: int): (r: seq<PolicyViolation>)
      reads this
      ensures |r| <= |violations| && r == violations[|violations| - |r|..]
      ensures limit == 0 ==> r == violations
      ensures limit > 0 ==> |r| == (if limit <= |violations| then limit else |violations|)
      ensures limit < 0 ==> |r| == (if -limit <= |violations| then |violations| + limit else 0)
    {
      if limit != 0 then SliceFrom(violations, -limit) else violations
    }

    /** `cleanup_old_data(days)`: drop exactly the records dated before
      `today - days`; when that cutoff is outside the calendar the error is
      logged and nothing changes. */
    method CleanupOldData(days: int, today: Date)
      requires Valid()
      modifies this
      ensures Valid()
      ensures DaysAgo(today, days).None? ==> dailySpends == old(dailySpends)
      ensures DaysAgo(today, days).Some? ==> dailySpends == RetainFrom(old(dailySpends), DaysAgo(today, days).value)
      ensures history == old(history) && violations == old(violations)
    {
      var cutoff := DaysAgo(today, days);
      if cutoff.Some? {
        dailySpends := RetainFrom(dailySpends, cutoff.value);
      }
    }
  }

  /** One more day of the query appends that day's record, if any. */
  lemma TrailingStep(m: map<string, DailySpend>, today: Date, i: nat, prev: seq<DailySpend>)
    requires TrailingUpTo(m, today, i) == Some(prev)
    requires DaysAgo(today, i).Some?
    ensures var key := FormatDate(DaysAgo(today, i).value);
      TrailingUpTo(m, today, i + 1) == Some(if key in m then prev + [m[key]] else prev)
  {
    var here := DayRecord(m, today, i);
    assert TrailingUpTo(m, today, i + 1) == Some(prev + if here.Some? then [here.value] else []);
    if here.None? {
      assert prev + [] == prev;
    }
  }

  /** Once a queried day is outside the calendar, every longer query fails. */
  lemma {:induction false} TrailingStaysNone(m: map<string, DailySpend>, today: Date, a: nat, b: nat)
    requires a <= b && TrailingUpTo(m, today, a).None?
    ensures TrailingUpTo(m, today, b).None?
    decreases b - a
  {
    if a < b {
      TrailingStaysNone(m, today, a + 1, b);
    }
  }

  /** The trailing query returns exactly the stored records of the queried
      days: each day of the window that has a record contributes it, and
      nothing else is returned. */
  lemma TrailingContents(m: map<string, DailySpend>, today: Date, n: nat)
    requires TrailingUpTo(m, today, n).Some?
    ensures forall i :: 0 <= i < n ==> DaysAgo(today, i).Some?
    ensures forall i :: 0 <= i < n && DayRecord(m, today, i).Some? ==>
      DayRecord(m, today, i).value in TrailingUpTo(m, today, n).value
    ensures forall r :: r in TrailingUpTo(m, today, n).value ==>
      exists i :: 0 <= i < n && DayRecord(m, today, i) == Some(r)
  {
    TrailingDaysExist(m, today, n);
    TrailingHasRecords(m, today, n);
    TrailingOnlyRecords(m, today, n);
  }

  lemma {:induction false} TrailingDaysExist(m: map<string, DailySpend>, today: Date, n: nat)
    requires TrailingUpTo(m, today, n).Some?
    ensures forall i :: 0 <= i < n ==> DaysAgo(today, i).Some?
  {
    if n > 0 {
      TrailingDaysExist(m, today, n - 1);
    }
  }

  /** The last step of a successful query: the previous query succeeded and
      day `n - 1` is in the calendar. */
  lemma TrailingLast(m: map<string, DailySpend>, today: Date, n: nat)
    requires n > 0 && TrailingUpTo(m, today, n).Some?
    ensures TrailingUpTo(m, today, n - 1).Some? && DaysAgo(today, n - 1).Some?
    ensures var here := DayRecord(m, today, n - 1);
      TrailingUpTo(m, today, n).value
        == TrailingUpTo(m, today, n - 1).value + if here.Some? then [here.value] else []
  {
  }

  lemma {:induction false} TrailingHasRecords(m: map<string, DailySpend>, today: Date, n: nat)
    requires TrailingUpTo(m, today, n).Some?
    ensures forall i :: 0 <= i < n && DayRecord(m, today, i).Some? ==>
      DayRecord(m, today, i).value in TrailingUpTo(m, today, n).value
  {
    if n > 0 {
      TrailingLast(m, today, n);
      TrailingHasRecords(m, today, n - 1);
      var prev := TrailingUpTo(m, today, n - 1).value;
      var cur := TrailingUpTo(m, today, n).value;
      forall i | 0 <= i < n && DayRecord(m, today, i).Some?
        ensures DayRecord(m, today, i).value in cur
      {
        if i < n - 1 {
          assert DayRecord(m, today, i).value in prev;
        }
      }
    }
  }

  lemma {:induction false} TrailingOnlyRecords(m: map<string, DailySpend>, today: Date, n: nat)
    requires TrailingUpTo(m, today, n).Some?
    ensures forall r :: r in TrailingUpTo(m, today, n).value ==>
      exists i :: 0 <= i < n && DayRecord(m, today, i) == Some(r)
  {
    if n > 0 {
      TrailingLast(m, today, n);
      TrailingOnlyRecords(m, today, n - 1);
      var prev := TrailingUpTo(m, today, n - 1).value;
      forall r | r in TrailingUpTo(m, today, n).value
        ensures exists i :: 0 <= i < n && DayRecord(m, today, i) == Some(r)
      {
        if r in prev {
          var i :| 0 <= i < n - 1 && DayRecord(m, today, i) == Some(r);
          assert 0 <= i < n;
        } else {
          assert DayRecord(m, today, n - 1) == Some(r);
        }
      }
    }
  }

  /** Records whose dates strictly decrease along the sequence. */
  ghost predicate NewestFirst(s: seq<DailySpend>) {
    && (forall p :: 0 <= p < |s| ==> IsDateString(s[p].date))
    && (forall p, q :: 0 <= p < q < |s| ==> Before(DateOf(s[q].date), DateOf(s[p].date)))
  }

  lemma NewestFirstAppend(s: seq<DailySpend>, last: DailySpend)
    requires NewestFirst(s) && IsDateString(last.date)
    requires forall p :: 0 <= p < |s| ==> Before(DateOf(last.date), DateOf(s[p].date))
    ensures NewestFirst(s + [last])
  {
    var t := s + [last];
    forall p | 0 <= p < |t|
      ensures IsDateString(t[p].date)
    {
      if p < |s| {
        assert t[p] == s[p];
      }
    }
    forall p, q | 0 <= p < q < |t|
      ensures Before(DateOf(t[q].date), DateOf(t[p].date))
    {
      assert t[p] == s[p];
      if q < |s| {
        assert t[q] == s[q];
      }
    }
  }

  /** A stored record's date is the day it was looked up for. */
  lemma DayRecordDate(m: map<string, DailySpend>, today: Date, i: int)
    requires WellKeyed(m)
    requires DayRecord(m, today, i).Some?
    ensures IsDateString(DayRecord(m, today, i).value.date)
    ensures DateOf(DayRecord(m, today, i).value.date) == DaysAgo(today, i).value
  {
    ParseFormat(DaysAgo(today, i).value);
  }

  /** Newest first: along the trailing query's result the dates strictly
      decrease, so no day appears twice. */
  lemma {:induction false} TrailingNewestFirst(m: map<string, DailySpend>, today: Date, n: nat)
    requires WellKeyed(m)
    requires TrailingUpTo(m, today, n).Some?
    ensures NewestFirst(TrailingUpTo(m, today, n).value)
  {
    if n > 0 {
      TrailingNewestFirst(m, today, n - 1);
      var prev := TrailingUpTo(m, today, n - 1).value;
      var here := DayRecord(m, today, n - 1);
      if here.Some? {
        DayRecordDate(m, today, n - 1);
        TrailingContents(m, today, n - 1);
        forall p | 0 <= p < |prev|
          ensures Before(DateOf(here.value.date), DateOf(prev[p].date))
        {
          assert prev[p] in prev;
          var i :| 0 <= i < n - 1 && DayRecord(m, today, i) == Some(prev[p]);
          DaysAgoStrict(today, i, n - 1);
          DayRecordDate(m, today, i);
        }
        NewestFirstAppend(prev, here.value);
      }
    }
  }

  lemma RetainDayRecord(m: map<string, DailySpend>, cutoff: Date, today: Date, i: int)
    requires forall k :: k in m ==> IsDateString(k)
    requires DaysAgo(today, i).Some? && !Before(DaysAgo(today, i).value, cutoff)
    ensures DayRecord(RetainFrom(m, cutoff), today, i) == DayRecord(m, today, i)
  {
    ParseFormat(DaysAgo(today, i).value);
  }

  /** Retention does not disturb the recent window: after keeping the
      records dated on or after `today - days`, the trailing query over at
      most `days + 1` days returns the same records as before. */
  lemma RetainKeepsTrailing(m: map<string, DailySpend>, today: Date, days: int, n: nat)
    requires forall k :: k in m ==> IsDateString(k)
    requires DaysAgo(today, days).Some?
    requires n <= days + 1
    ensures TrailingUpTo(RetainFrom(m, DaysAgo(today, days).value), today, n) == TrailingUpTo(m, today, n)
  {
    var cutoff := DaysAgo(today, days).value;
    var kept := RetainFrom(m, cutoff);
    forall i | 0 <= i < n
      ensures DayRecord(kept, today, i) == DayRecord(m, today, i)
    {
      AddDaysBackMonotone(today, i, days);
      RetainDayRecord(m, cutoff, today, i);
    }
    TrailingAgree(kept, m, today, n);
  }

  /** Two stores with the same records on each queried day give the same
      trailing query. */
  lemma {:induction false} TrailingAgree(m1: map<string, DailySpend>, m2: map<string, DailySpend>, today: Date, n: nat)
    requires forall i :: 0 <= i < n ==> DayRecord(m1, today, i) == DayRecord(m2, today, i)
    ensures TrailingUpTo(m1, today, n) == TrailingUpTo(m2, today, n)
  {
    if n > 0 {
      TrailingAgree(m1, m2, today, n - 1);
    }
  }

  /** `cleanup_old_data(days)` never changes what `load_daily_spends(n)`
      returns for `n <= days + 1`. */
  lemma CleanupKeepsTrailing(m: map<string, DailySpend>, today: Date, days: int, n: int)
    requires forall k :: k in m ==> IsDateString(k)
    requires DaysAgo(today, days).Some?
    requires n <= days + 1
    ensures TrailingDailySpends(RetainFrom(m, DaysAgo(today, days).value), today, n) == TrailingDailySpends(m, today, n)
  {
    if n > 0 {
      RetainKeepsTrailing(m, today, days, n);
    }
  }
}

=== FILE: policy_engine.dfy ===
/** The policy engine (`PolicyEngine`): the four spending rules checked
    against every transaction request, the recording of completed
    transactions into the day's spending record, and the daily summary.
    With a ledger attached the day records live in the ledger; without one
    they live in the engine's own list. The current UTC date and instant
    are passed in where the source reads the clock. */
module PolicyEngine {
  import opened Prelude
  import opened Dates
  import opened PolicySchema
  import opened Persistence

  /** Why an operation raises instead of returning. */
  datatype EngineError =
    | NoLedgerForFeeWarning   // `None.save_policy_violation(...)`
    | DateOverflow            // `date - timedelta(days)` out of range

  // -----------------------------------------------------------------------
  // The rules

  /** `allowed_destinations and destination not in allowed_destinations`:
      an empty allow-list allows everything. */
  predicate DestinationRefused(policy: Policy, request: TransactionRequest) {
    |policy.allowedDestinations| > 0 && request.destination !in policy.allowedDestinations
  }

  /** The fee rule only applies when both the cap and the request's rate are
      present and non-zero (Python truthiness); then the rate must not
      exceed the cap. */
  predicate FeeRateOverCap(policy: Policy, request: TransactionRequest) {
    && policy.maxFeeRateSatsPerVbyte.Some? && policy.maxFeeRateSatsPerVbyte.value != 0
    && request.feeRateSatsPerVbyte.Some? && request.feeRateSatsPerVbyte.value != 0
    && request.feeRateSatsPerVbyte.value > policy.maxFeeRateSatsPerVbyte.value
  }

  /** The position of each rule in the order the engine checks them. */
  function Rank(t: ViolationType): nat {
    match t
    case AmountLimitExceeded => 0
    case DailyLimitExceeded => 1
    case DestinationNotAllowed => 2
    case FeeRateExceeded => 3
  }

  /** The rules a request breaks, given what was already spent today, in
      the order the engine checks them. */
  function Violations(policy: Policy, request: TransactionRequest, todaySpent: int): seq<ViolationType> {
    Flagged(request.amountSats > policy.maxSingleTxSats, AmountLimitExceeded)
    + Flagged(todaySpent + request.amountSats > policy.maxDailySpendSats, DailyLimitExceeded)
    + Flagged(DestinationRefused(policy, request), DestinationNotAllowed)
    + Flagged(FeeRateOverCap(policy, request), FeeRateExceeded)
  }

  /** Each rule is reported exactly when its condition holds, at most once,
      in the engine's order; no rule is skipped because an earlier one
      fired, and a request is clean exactly when it passes all four. */
  lemma ViolationsSpec(policy: Policy, request: TransactionRequest, todaySpent: int)
    ensures var vs := Violations(policy, request, todaySpent);
      && (AmountLimitExceeded in vs <==> request.amountSats > policy.maxSingleTxSats)
      && (DailyLimitExceeded in vs <==> todaySpent + request.amountSats > policy.maxDailySpendSats)
      && (DestinationNotAllowed in vs <==> DestinationRefused(policy, request))
      && (FeeRateExceeded in vs <==> FeeRateOverCap(policy, request))
      && (forall i, j :: 0 <= i < j < |vs| ==> Rank(vs[i]) < Rank(vs[j]))
    ensures Violations(policy, request, todaySpent) == [] <==>
      && request.amountSats <= policy.maxSingleTxSats
      && todaySpent + request.amountSats <= policy.maxDailySpendSats
      && !DestinationRefused(policy, request)
      && !FeeRateOverCap(policy, request)
  {
  }

  /** Fee-rate violations are warnings, the other three errors. */
  function SeverityOf(t: ViolationType): (s: Severity)
    ensures s == Warning <==> t == FeeRateExceeded
  {
    if t == FeeRateExceeded then Warning else Error
  }

  /** The rule `t` as a list of broken rules: itself when broken, else
      nothing. */
  function Flagged(broken: bool, t: ViolationType): (r: seq<ViolationType>)
    ensures broken <==> r == [t]
    ensures !broken <==> r == []
  {
    if broken then [t] else []
  }

  /** The violation record the engine builds for a broken rule: of that
      type, about the request, stamped now, a warning exactly when it is
      the fee-rate rule. */
  function RecordFor(t: ViolationType, request: TransactionRequest, now: Timestamp): (v: PolicyViolation)
    ensures v.violationType == t && v.transactionRequest == request && v.timestamp == now
    ensures v.severity == SeverityOf(t)
    ensures v.severity == Warning <==> t == FeeRateExceeded
  {
    NewViolation(t, request, now, SeverityOf(t))
  }

  /** The violation records for a list of broken rules, one per rule in
      the same order, each about the request and stamped now. */
  function Records(types: seq<ViolationType>, request: TransactionRequest, now: Timestamp): (vs: seq<PolicyViolation>)
    ensures |vs| == |types|
    ensures forall i :: 0 <= i < |vs| ==>
      && vs[i].violationType == types[i] && vs[i].severity == SeverityOf(types[i])
      && vs[i].transactionRequest == request && vs[i].timestamp == now
  {
    seq(|types|, i requires 0 <= i < |types| => RecordFor(types[i], request, now))
  }

  /** A request that passes all rules keeps the day within its limit: if
      today's total was within the daily limit, it still is after adding
      the request. */
  lemma AllowedStaysWithinDailyLimit(policy: Policy, request: TransactionRequest, todaySpent: int)
    requires Violations(policy, request, todaySpent) == []
    ensures todaySpent + request.amountSats <= policy.maxDailySpendSats
    ensures request.amountSats <= policy.maxSingleTxSats
  {
    ViolationsSpec(policy, request, todaySpent);
  }

  /** `validate_transaction` as written, reduced to its outcome: the
      fee-rate branch logs through the ledger without checking that one is
      attached, so without a ledger a fee-rate violation raises instead of
      being returned. */
  function ValidateAsWritten(policy: Policy, request: TransactionRequest, todaySpent: int, hasLedger: bool)
    : (r: Result<seq<ViolationType>, EngineError>)
    ensures r.Failure? <==> !hasLedger && FeeRateOverCap(policy, request)
    ensures r.Success? ==> r.value == Violations(policy, request, todaySpent)
  {
    if !hasLedger && FeeRateOverCap(policy, request) then Failure(NoLedgerForFeeWarning)
    else Success(Violations(policy, request, todaySpent))
  }

  /** The test suite's policy with a 50 sat/vbyte cap and a request at
      100 sat/vbyte: with no ledger attached, validation raises. */
  lemma FeeWarningWithoutLedgerRaises()
    ensures ValidateAsWritten(Policy(10000, 5000, [], Some(50), true),
      TransactionRequest("bc1qtest1", 1000, Some(100), None, 0), 0, false) == Failure(NoLedgerForFeeWarning)
  {
  }

  // -----------------------------------------------------------------------
  // The in-memory day records

  /** Every record is a valid `DailySpend`. */
  predicate AllValid(s: seq<DailySpend>) {
    forall i :: 0 <= i < |s| ==> ValidDailySpend(s[i])
  }

  /** No two records for the same day. */
  predicate DistinctDates(s: seq<DailySpend>) {
    forall i, j :: 0 <= i < j < |s| ==> s[i].date != s[j].date
  }

  /** The position of the first record for `key`. */
  function FindDate(s: seq<DailySpend>, key: string): (r: Option<nat>)
    ensures r.Some? ==> r.value < |s| && s[r.value].date == key
    ensures r.Some? ==> forall j :: 0 <= j < r.value ==> s[j].date != key
    ensures r.None? <==> forall j :: 0 <= j < |s| ==> s[j].date != key
  {
    if |s| == 0 then None
    else if s[0].date == key then Some(0)
    else match FindDate(s[1..], key)
      case None => None
      case Some(i) => Some(i + 1)
  }

  /** The first record for `key` is the one `FindDate` finds. */
  lemma FindDateAt(s: seq<DailySpend>, key: string, i: nat)
    requires i < |s| && s[i].date == key
    requires forall j :: 0 <= j < i ==> s[j].date != key
    ensures FindDate(s, key) == Some(i)
  {
  }

  /** What the in-memory records say was spent on the day `key`. */
  function SpentIn(s: seq<DailySpend>, key: string): int {
    match FindDate(s, key)
    case None => 0
    case Some(i) => s[i].totalSpentSats
  }

  /** Recording `amount` for the day `key`: the day's record, created at
      zero if missing and appended, gains the amount and one transaction. */
  function Bump(s: seq<DailySpend>, key: string, amount: int): seq<DailySpend> {
    match FindDate(s, key)
    case None => s + [DailySpend(key, amount, 1)]
    case Some(i) => s[i := DailySpend(key, s[i].totalSpentSats + amount, s[i].transactionCount + 1)]
  }

  /** Where a linear search for the day stops, recording either bumps the
      record found there, or appends a zero record there and bumps it. */
  lemma BumpAtSearchEnd(s: seq<DailySpend>, key: string, amount: int, i: nat, t: seq<DailySpend>)
    requires i <= |s| && (i < |s| ==> s[i].date == key)
    requires forall j :: 0 <= j < i ==> s[j].date != key
    requires t == if i == |s| then s + [DailySpend(key, 0, 0)] else s
    ensures i < |t|
    ensures t[i := DailySpend(key, t[i].totalSpentSats + amount, t[i].transactionCount + 1)] == Bump(s, key, amount)
  {
    if i < |s| {
      FindDateAt(s, key, i);
    }
  }

  /** Where the records differ after recording: only the recorded day's
      record changed or was appended. */
  lemma BumpShape(s: seq<DailySpend>, key: string, amount: int)
    ensures var b := Bump(s, key, amount);
      && FindDate(b, key).Some?
      && b[FindDate(b, key).value].totalSpentSats == SpentIn(s, key) + amount
      && b[FindDate(b, key).value].transactionCount
         == (if FindDate(s, key).Some? then s[FindDate(s, key).value].transactionCount else 0) + 1
      && b[FindDate(b, key).value].date == key
      && |b| == |s| + (if FindDate(s, key).None? then 1 else 0)
      && forall j :: 0 <= j < |b| && j != FindDate(b, key).value ==> b[j] == s[j]
  {
    var b := Bump(s, key, amount);
    match FindDate(s, key)
    case None =>
      FindDateAt(b, key, |s|);
    case Some(k) =>
      FindDateAt(b, key, k);
  }

  /** Recording adds the amount to exactly the recorded day. */
  lemma BumpSpent(s: seq<DailySpend>, key: string, amount: int, other: string)
    ensures SpentIn(Bump(s, key, amount), key) == SpentIn(s, key) + amount
    ensures other != key ==> SpentIn(Bump(s, key, amount), other) == SpentIn(s, other)
  {
    BumpShape(s, key, amount);
    var b := Bump(s, key, amount);
    if other != key {
      var k := FindDate(b, key).value;
      match FindDate(s, other)
      case None =>
        assert forall j :: 0 <= j < |b| ==> b[j].date != other by {
          forall j | 0 <= j < |b|
            ensures b[j].date != other
          {
            if j != k {
              assert b[j] == s[j];
            }
          }
        }
      case Some(i) =>
        assert i != k;
        FindDateAt(b, other, i);
    }
  }

  /** Recording keeps one record per day and keeps every record valid. */
  lemma BumpKeepsDistinct(s: seq<DailySpend>, key: string, amount: int)
    requires DistinctDates(s) && AllValid(s)
    requires IsDateString(key) && amount >= 0
    ensures DistinctDates(Bump(s, key, amount)) && AllValid(Bump(s, key, amount))
  {
    BumpShape(s, key, amount);
    var b := Bump(s, key, amount);
    var k := FindDate(b, key).value;
    forall i, j | 0 <= i < j < |b|
      ensures b[i].date != b[j].date
    {
      if i != k && j != k {
        assert b[i] == s[i] && b[j] == s[j];
      } else if i == k {
        assert b[j] == s[j];
        if FindDate(s, key).Some? {
          assert FindDate(s, key).value == k;
        }
      } else {
        assert b[i] == s[i];
      }
    }
  }

  /** The ledger's record for the day after recording `amount`: the loaded
      record (or a zero record) with the amount added and one more
      transaction. */
  function Bumped(found: Option<DailySpend>, key: string, amount: int): (d: DailySpend)
    ensures d.date == key
    ensures d.totalSpentSats == (if found.Some? then found.value.totalSpentSats else 0) + amount
    ensures d.transactionCount == (if found.Some? then found.value.transactionCount else 0) + 1
  {
    match found
    case None => DailySpend(key, amount, 1)
    case Some(f) => DailySpend(key, f.totalSpentSats + amount, f.transactionCount + 1)
  }

  /** The records dated on or after `cutoff`, in list order. */
  function OnOrAfter(s: seq<DailySpend>, cutoff: Date): (r: seq<DailySpend>)
    requires forall i :: 0 <= i < |s| ==> IsDateString(s[i].date)
    ensures |r| <= |s|
    ensures forall x :: x in r <==> x in s && !Before(DateOf(x.date), cutoff)
  {
    if s == [] then []
    else (if Before(DateOf(s[0].date), cutoff) then [] else [s[0]]) + OnOrAfter(s[1..], cutoff)
  }

  /** The in-memory summary covers days-plus-one days: the records of
      `today - days` through `today` are all kept. */
  lemma OnOrAfterKeepsWindow(s: seq<DailySpend>, today: Date, days: int, x: DailySpend)
    requires forall i :: 0 <= i < |s| ==> IsDateString(s[i].date)
    requires DaysAgo(today, days).Some? && days >= 0
    requires x in s && !Before(today, DateOf(x.date)) && !Before(DateOf(x.date), DaysAgo(today, days).value)
    ensures x in OnOrAfter(s, DaysAgo(today, days).value)
  {
  }

  // -----------------------------------------------------------------------
  // The engine

  class Engine {
    const policy: Policy
    const persistence: Ledger?
    var dailySpends: seq<DailySpend>

    ghost predicate Valid()
      reads this, persistence
    {
      && ValidPolicy(policy)
      && DistinctDates(dailySpends)
      && AllValid(dailySpends)
      && (persistence != null ==> persistence.Valid())
    }

    constructor (policy: Policy, persistence: Ledger?)
      requires ValidPolicy(policy)
      requires persistence != null ==> persistence.Valid()
      ensures Valid()
      ensures this.policy == policy && this.persistence == persistence && dailySpends == []
    {
      this.policy := policy;
      this.persistence := persistence;
      dailySpends := [];
    }

    /** What was spent on the day `key`, from the ledger if one is attached,
        else from the in-memory records. */
    function Spent(key: string): int
      reads this, persistence
    {
      if persistence != null then
        match persistence.LoadDailySpend(key)
        case None => 0
        case Some(d) => d.totalSpentSats
      else SpentIn(dailySpends, key)
    }

    /** `_get_daily_spend(date)`. */
    method GetDailySpend(date: Date) returns (total: int)
      requires Valid()
      ensures total == Spent(FormatDate(date))
      ensures total >= 0
    {
      var key := FormatDate(date);
      if persistence != null {
        var d := persistence.LoadDailySpend(key);
        total := if d.Some? then d.value.totalSpentSats else 0;
        return;
      }
      var i := 0;
      while i < |dailySpends|
        invariant 0 <= i <= |dailySpends|
        invariant forall j :: 0 <= j < i ==> dailySpends[j].date != key
      {
        if dailySpends[i].date == key {
          assert FindDate(dailySpends, key) == Some(i);
          return dailySpends[i].totalSpentSats;
        }
        i := i + 1;
      }
      total := 0;
    }

    /** Hand one violation to the ledger, when one is attached. */
    method LogViolation(v: PolicyViolation, now: Timestamp)
      requires Valid()
      modifies persistence
      ensures Valid()
      ensures persistence != null ==>
        && persistence.violations == KeepLast(old(persistence.violations) + [v.(timestamp := now)], MaxViolations)
        && persistence.dailySpends == old(persistence.dailySpends)
        && persistence.history == old(persistence.history)
    {
      if persistence != null {
        persistence.SavePolicyViolation(v, now);
      }
    }

    /** `validate_transaction`: the violations of the request against today's
        spending, each one logged to the ledger (if attached) as it is found.
        With or without a ledger the same violations are returned. */
    method ValidateTransaction(request: TransactionRequest, today: Date, now: Timestamp)
      returns (violations: seq<PolicyViolation>)
      requires Valid()
      modifies persistence
      ensures Valid()
      ensures violations == Records(Violations(policy, request, old(Spent(FormatDate(today)))), request, now)
      ensures persistence != null ==>
        && persistence.violations == KeepLast(old(persistence.violations) + violations, MaxViolations)
        && persistence.dailySpends == old(persistence.dailySpends)
        && persistence.history == old(persistence.history)
    {
      ghost var log0 := if persistence != null then persistence.violations else [];
      ghost var spent := Spent(FormatDate(today));
      violations := CheckLimits(request, today, now, log0);
      violations := CheckRequestRules(request, now, log0,
        Flagged(request.amountSats > policy.maxSingleTxSats, AmountLimitExceeded)
        + Flagged(spent + request.amountSats > policy.maxDailySpendSats, DailyLimitExceeded),
        violations);
    }

    /** The two spending rules of `validate_transaction`: the single
        transaction limit, then today's limit against the day's spending. */
    method CheckLimits(request: TransactionRequest, today: Date, now: Timestamp, ghost log0: seq<PolicyViolation>)
      returns (found: seq<PolicyViolation>)
      requires Valid()
      requires persistence != null ==> persistence.violations == KeepLast(log0, MaxViolations)
      modifies persistence
      ensures Valid()
      ensures found == Records(
        Flagged(request.amountSats > policy.maxSingleTxSats, AmountLimitExceeded)
        + Flagged(old(Spent(FormatDate(today))) + request.amountSats > policy.maxDailySpendSats, DailyLimitExceeded),
        request, now)
      ensures persistence != null ==>
        && persistence.violations == KeepLast(log0 + found, MaxViolations)
        && persistence.dailySpends == old(persistence.dailySpends)
        && persistence.history == old(persistence.history)
    {
      assert log0 + [] == log0;
      found := Check(request.amountSats > policy.maxSingleTxSats, AmountLimitExceeded,
        request, now, log0, [], []);
      var todaySpent := GetDailySpend(today);
      found := Check(todaySpent + request.amountSats > policy.maxDailySpendSats, DailyLimitExceeded,
        request, now, log0, Flagged(request.amountSats > policy.maxSingleTxSats, AmountLimitExceeded), found);
    }

    /** The two rules about the request alone: the destination allow-list,
        then the fee-rate cap. */
    method CheckRequestRules(request: TransactionRequest, now: Timestamp,
                             ghost log0: seq<PolicyViolation>, ghost types: seq<ViolationType>, found: seq<PolicyViolation>)
      returns (found': seq<PolicyViolation>)
      requires Valid() && found == Records(types, request, now)
      requires persistence != null ==> persistence.violations == KeepLast(log0 + found, MaxViolations)
      modifies persistence
      ensures Valid()
      ensures found' == Records(types
        + Flagged(DestinationRefused(policy, request), DestinationNotAllowed)
        + Flagged(FeeRateOverCap(policy, request), FeeRateExceeded), request, now)
      ensures persistence != null ==>
        && persistence.violations == KeepLast(log0 + found', MaxViolations)
        && persistence.dailySpends == old(persistence.dailySpends)
        && persistence.history == old(persistence.history)
    {
      found' := Check(DestinationRefused(policy, request), DestinationNotAllowed,
        request, now, log0, types, found);
      found' := Check(FeeRateOverCap(policy, request), FeeRateExceeded,
        request, now, log0, types + Flagged(DestinationRefused(policy, request), DestinationNotAllowed), found');
    }

    /** One rule of `validate_transaction`: when it is broken, build its
        record, append it to those found so far and log it. The log stays
        equal to the starting log plus everything found so far. */
    method Check(broken: bool, t: ViolationType, request: TransactionRequest, now: Timestamp,
                 ghost log0: seq<PolicyViolation>, ghost types: seq<ViolationType>, found: seq<PolicyViolation>)
      returns (found': seq<PolicyViolation>)
      requires Valid() && found == Records(types, request, now)
      requires persistence != null ==> persistence.violations == KeepLast(log0 + found, MaxViolations)
      modifies persistence
      ensures Valid()
      ensures found' == Records(types + Flagged(broken, t), request, now)
      ensures persistence != null ==>
        && persistence.violations == KeepLast(log0 + found', MaxViolations)
        && persistence.dailySpends == old(persistence.dailySpends)
        && persistence.history == old(persistence.history)
    {
      if !broken {
        assert types + Flagged(broken, t) == types;
        return found;
      }
      var v := RecordFor(t, request, now);
      found' := found + [v];
      LogViolation(v, now);
      if persistence != null {
        KeepLastAppendOneByOne(log0 + found, v, MaxViolations);
        assert log0 + found + [v] == log0 + found';
      }
    }

    /** `record_transaction`: add the amount and one transaction to today's
        record (created at zero if missing); with a ledger, also append the
        transaction to its history. Only today's spending changes, by
        exactly the amount. */
    method RecordTransaction(request: TransactionRequest, txid: Option<string>, today: Date)
      requires Valid() && ValidRequest(request)
      modifies this, persistence
      ensures Valid()
      ensures Spent(FormatDate(today)) == old(Spent(FormatDate(today))) + request.amountSats
      ensures forall k :: k != FormatDate(today) ==> Spent(k) == old(Spent(k))
      ensures persistence != null ==>
        && persistence.dailySpends == old(persistence.dailySpends)[FormatDate(today) :=
             Bumped(old(persistence.LoadDailySpend(FormatDate(today))), FormatDate(today), request.amountSats)]
        && persistence.history == KeepLast(old(persistence.history) + [HistoryEntry(request, txid)], MaxHistory)
        && persistence.violations == old(persistence.violations)
        && dailySpends == old(dailySpends)
      ensures persistence == null ==> dailySpends == Bump(old(dailySpends), FormatDate(today), request.amountSats)
    {
      var key := FormatDate(today);
      ParseFormat(today);
      if persistence != null {
        var found := persistence.LoadDailySpend(key);
        persistence.SaveDailySpend(Bumped(found, key, request.amountSats));
        persistence.SaveTransaction(request, txid);
      } else {
        ghost var s := dailySpends;
        RecordInMemory(key, request.amountSats);
        BumpSpent(s, key, request.amountSats, key);
        forall other | other != key
          ensures SpentIn(dailySpends, other) == SpentIn(s, other)
        {
          BumpSpent(s, key, request.amountSats, other);
        }
      }
    }

    /** The in-memory branch of `record_transaction`: find the day's record,
        append a zero record if there is none, then bump it. */
    method RecordInMemory(key: string, amount: int)
      requires Valid() && persistence == null && IsDateString(key) && amount > 0
      modifies this
      ensures Valid()
      ensures dailySpends == Bump(old(dailySpends), key, amount)
    {
      var spends := dailySpends;
      var i := SearchDay(spends, key);
      BumpKeepsDistinct(spends, key, amount);
      if i == |spends| {
        spends := spends + [DailySpend(key, 0, 0)];
      }
      BumpAtSearchEnd(dailySpends, key, amount, i, spends);
      spends := spends[i := DailySpend(key, spends[i].totalSpentSats + amount, spends[i].transactionCount + 1)];
      dailySpends := spends;
    }

    /** `get_daily_spend_summary(days)`: from the ledger, the records of the
        last `days` days (newest first); in memory, every record dated on or
        after `today - days` (list order), which raises when that date is
        outside the calendar. */
    method GetDailySpendSummary(days: int, today: Date) returns (r: Result<seq<DailySpend>, EngineError>)
      requires Valid()
      ensures persistence != null ==> r == Success(TrailingDailySpends(persistence.dailySpends, today, days))
      ensures persistence == null && DaysAgo(today, days).None? ==> r == Failure(DateOverflow)
      ensures persistence == null && DaysAgo(today, days).Some? ==>
        r == Success(OnOrAfter(dailySpends, DaysAgo(today, days).value))
    {
      if persistence != null {
        var s := persistence.LoadDailySpends(days, today);
        return Success(s);
      }
      var cutoff := DaysAgo(today, days);
      if cutoff.None? {
        return Failure(DateOverflow);
      }
      r := Success(OnOrAfter(dailySpends, cutoff.value));
    }

    /** `is_transaction_allowed`: no rule is broken. Validation logs as
        usual. */
    method IsTransactionAllowed(request: TransactionRequest, today: Date, now: Timestamp) returns (allowed: bool)
      requires Valid()
      modifies persistence
      ensures Valid()
      ensures allowed <==> Violations(policy, request, old(Spent(FormatDate(today)))) == []
      ensures allowed ==> old(Spent(FormatDate(today))) + request.amountSats <= policy.maxDailySpendSats
      ensures persistence != null ==>
        && persistence.violations == KeepLast(old(persistence.violations)
             + Records(Violations(policy, request, old(Spent(FormatDate(today)))), request, now), MaxViolations)
        && persistence.dailySpends == old(persistence.dailySpends)
        && persistence.history == old(persistence.history)
    {
      var violations := ValidateTransaction(request, today, now);
      allowed := |violations| == 0;
    }
  }


  /** The loop `for spend in daily_spends: if spend.date == key: ...
      break`: where it stops, the first record for the day or the end. */
  method SearchDay(spends: seq<DailySpend>, key: string) returns (i: nat)
    ensures i <= |spends| && (i < |spends| ==> spends[i].date == key)
    ensures forall j :: 0 <= j < i ==> spends[j].date != key
    ensures FindDate(spends, key) == if i < |spends| then Some(i) else None
  {
    i := 0;
    while i < |spends|
      invariant 0 <= i <= |spends|
      invariant forall j :: 0 <= j < i ==> spends[j].date != key
    {
      if spends[i].date == key {
        FindDateAt(spends, key, i);
        return;
      }
      i := i + 1;
    }
  }
}

=== FILE: policy_schema.dfy ===
/** The policy data model: `Policy`, `TransactionRequest`,
    `PolicyViolation` and `DailySpend`, with the field constraints and
    validators that pydantic applies when one is constructed. A constructor
    function returns the value, or the list of validation errors that
    pydantic would put in its `ValidationError`. */
module PolicySchema {
  import opened Prelude
  import opened Dates

  /** A field constraint that failed, named after the field. */
  datatype FieldError =
    | NotPositive(field: string)        // `gt=0`
    | Negative(field: string)           // `ge=0`
    | SingleExceedsDaily                // `single_tx_less_than_daily`
    | BadDateFormat                     // `validate_date_format`

  datatype Policy = Policy(
    maxDailySpendSats: int,
    maxSingleTxSats: int,
    allowedDestinations: seq<string>,
    maxFeeRateSatsPerVbyte: Option<int>,
    requireConfirmation: bool)

  /** What a constructed `Policy` satisfies. */
  predicate ValidPolicy(p: Policy) {
    0 < p.maxSingleTxSats <= p.maxDailySpendSats
  }

  /** The errors pydantic reports for a policy, in field order. The
      single-versus-daily validator only runs when both limits passed their
      own `gt=0` constraint (only then is `max_daily_spend_sats` in
      `values`). */
  function PolicyErrors(maxDaily: int, maxSingle: int): seq<FieldError> {
    (if maxDaily <= 0 then [NotPositive("max_daily_spend_sats")] else [])
    + (if maxSingle <= 0 then [NotPositive("max_single_tx_sats")]
       else if maxDaily > 0 && maxSingle > maxDaily then [SingleExceedsDaily]
       else [])
  }

  /** `Policy(...)`, with the defaults of the optional fields. */
  function NewPolicy(
    maxDaily: int,
    maxSingle: int,
    allowed: seq<string> := [],
    maxFeeRate: Option<int> := None,
    requireConfirmation: bool := true): (r: Result<Policy, seq<FieldError>>)
    ensures r.Success? <==> 0 < maxSingle <= maxDaily
    ensures r.Success? ==>
      ValidPolicy(r.value) && r.value == Policy(maxDaily, maxSingle, allowed, maxFeeRate, requireConfirmation)
    ensures r.Failure? ==> r.error != []
    ensures maxSingle > maxDaily > 0 ==> r == Failure([SingleExceedsDaily])
  {
    var errors := PolicyErrors(maxDaily, maxSingle);
    assert maxSingle > maxDaily > 0 ==> errors == [SingleExceedsDaily];
    if errors == [] then Success(Policy(maxDaily, maxSingle, allowed, maxFeeRate, requireConfirmation))
    else Failure(errors)
  }

  /** A policy built from the two limits alone has no allow-list, no fee
      cap and requires confirmation; equal limits are accepted. */
  lemma PolicyDefaults(maxDaily: int)
    requires maxDaily > 0
    ensures NewPolicy(maxDaily, maxDaily).Success?
    ensures var p := NewPolicy(maxDaily, maxDaily).value;
      p.allowedDestinations == [] && p.maxFeeRateSatsPerVbyte == None && p.requireConfirmation
  {
  }

  /** Instants (`datetime` values) as integer microseconds since
      0001-01-01 00:00:00, the earliest `datetime`. */
  type Timestamp = int

  /** The latest `datetime`, 9999-12-31 23:59:59.999999. */
  const MaxInstant: int := 315_537_897_599_999_999

  /** An instant `datetime` can represent. */
  predicate InstantInRange(t: Timestamp) {
    0 <= t <= MaxInstant
  }

  datatype TransactionRequest = TransactionRequest(
    destination: string,
    amountSats: int,
    feeRateSatsPerVbyte: Option<int>,
    description: Option<string>,
    createdAt: Timestamp)

  predicate ValidRequest(r: TransactionRequest) {
    r.amountSats > 0
  }

  /** `TransactionRequest(...)`; `created_at` defaults to the current time,
      passed in here. */
  function NewTransactionRequest(
    destination: string,
    amountSats: int,
    now: Timestamp,
    feeRate: Option<int> := None,
    description: Option<string> := None): (r: Result<TransactionRequest, seq<FieldError>>)
    ensures r.Success? <==> amountSats > 0
    ensures r.Success? ==>
      && ValidRequest(r.value) && r.value.amountSats == amountSats
      && r.value.destination == destination && r.value.feeRateSatsPerVbyte == feeRate
      && r.value.createdAt == now
  {
    if amountSats > 0 then Success(TransactionRequest(destination, amountSats, feeRate, description, now))
    else Failure([NotPositive("amount_sats")])
  }

  datatype ViolationType =
    | AmountLimitExceeded
    | DailyLimitExceeded
    | DestinationNotAllowed
    | FeeRateExceeded

  datatype Severity = Warning | Error | Critical

  datatype PolicyViolation = PolicyViolation(
    violationType: ViolationType,
    transactionRequest: TransactionRequest,
    severity: Severity,
    timestamp: Timestamp)

  /** `PolicyViolation(...)`: severity defaults to error. */
  function NewViolation(
    violationType: ViolationType,
    request: TransactionRequest,
    now: Timestamp,
    severity: Severity := Error): (v: PolicyViolation)
    ensures v.violationType == violationType && v.transactionRequest == request
    ensures v.severity == severity && v.timestamp == now
  {
    PolicyViolation(violationType, request, severity, now)
  }

  lemma ViolationSeverityDefault(t: ViolationType, request: TransactionRequest, now: Timestamp)
    ensures NewViolation(t, request, now).severity == Error
  {
  }

  datatype DailySpend = DailySpend(date: string, totalSpentSats: int, transactionCount: int)

  predicate ValidDailySpend(d: DailySpend) {
    IsDateString(d.date) && d.totalSpentSats >= 0 && d.transactionCount >= 0
  }

  /** `DailySpend(...)`: the date must parse as `%Y-%m-%d`, both counters
      must be non-negative. */
  function NewDailySpend(date: string, total: int, count: int): (r: Result<DailySpend, seq<FieldError>>)
    ensures r.Success? <==> IsDateString(date) && total >= 0 && count >= 0
    ensures r.Success? ==> r.value == DailySpend(date, total, count) && ValidDailySpend(r.value)
    ensures r.Failure? ==> r.error != []
  {
    var errors :=
      (if IsDateString(date) then [] else [BadDateFormat])
      + (if total >= 0 then [] else [Negative("total_spent_sats")])
      + (if count >= 0 then [] else [Negative("transaction_count")]);
    if errors == [] then Success(DailySpend(date, total, count)) else Failure(errors)
  }

  /** The test suite's two dates: the canonical form builds a record, the
      slash form does not. */
  lemma DailySpendDateExamples()
    ensures NewDailySpend("2024-01-01", 0, 0).Success?
    ensures NewDailySpend("01/01/2024", 0, 0).Failure?
  {
    CanonicalDateAccepted();
    SlashDateRefused();
  }
}

=== FILE: prelude.dfy ===
/** Small building blocks shared by the rest of the model: the Option and
    Result wrappers that stand for Python's `None` and raised exceptions,
    decimal digits, Python's notion of whitespace, `str.strip` and
    `str.split` on one separator character. */
module Prelude {

  datatype Option<+T> = None | Some(value: T)

  datatype Result<+T, +E> = Success(value: T) | Failure(error: E)

  /** Python's `x[-k:]` for k > 0 and `x[k':]` for k' >= 0, written out:
      the suffix of `s` obtained by slicing from `start`, where a negative
      `start` counts from the end and is clamped at 0. */
  function SliceFrom<T>(s: seq<T>, start: int): (r: seq<T>)
    ensures |r| == if start >= 0 then (if start <= |s| then |s| - start else 0)
                   else (if -start <= |s| then -start else |s|)
    ensures r == s[|s| - |r|..]
  {
    if start >= 0 then s[if start <= |s| then start else |s|..]
    else s[if -start <= |s| then |s| + start else 0..]
  }

  /** Keep only the last `n` entries of a log (FIFO eviction of the oldest),
      as `if len(x) > n: x = x[-n:]` does. */
  function KeepLast<T>(s: seq<T>, n: nat): (r: seq<T>)
    ensures |r| == if |s| <= n then |s| else n
    ensures r == s[|s| - |r|..]
  {
    if |s| > n then s[|s| - n..] else s
  }

  /** Appending entries one at a time and truncating after each append gives
      the same log as appending them all and truncating once. */
  lemma {:induction false} KeepLastAppendOneByOne<T>(s: seq<T>, a: T, n: nat)
    requires n > 0
    ensures KeepLast(KeepLast(s, n) + [a], n) == KeepLast(s + [a], n)
  {
    var t := KeepLast(s, n);
    assert t == s[|s| - |t|..];
    if |s| > n {
      assert |t| == n;
      assert t + [a] == (s + [a])[|s| - n..];
      assert KeepLast(t + [a], n) == (t + [a])[1..];
      assert (s + [a])[|s| + 1 - n..] == (t + [a])[1..];
    } else {
      assert t == s;
    }
  }

  predicate IsDigit(c: char) {
    '0' <= c <= '9'
  }

  predicate AllDigits(s: string) {
    forall i :: 0 <= i < |s| ==> IsDigit(s[i])
  }

  function DigitValue(c: char): (d: nat)
    requires IsDigit(c)
    ensures d < 10
  {
    (c as int - '0' as int) as nat
  }

  function DigitChar(d: nat): (c: char)
    requires d < 10
    ensures IsDigit(c) && DigitValue(c) == d
  {
    ('0' as int + d) as char
  }

  /** The value of a non-empty or empty string of decimal digits (leading
      zeros allowed, as Python's `int()` allows them). */
  function DecimalValue(s: string): nat
    requires AllDigits(s)
  {
    if s == [] then 0 else DecimalValue(s[..|s| - 1]) * 10 + DigitValue(s[|s| - 1])
  }

  /** `str(n)` for a natural number: shortest decimal form, no leading zero. */
  function NatToDecimal(n: nat): (s: string)
    ensures 1 <= |s| && AllDigits(s)
    ensures |s| > 1 ==> s[0] != '0'
  {
    if n < 10 then [DigitChar(n)] else NatToDecimal(n / 10) + [DigitChar(n % 10)]
  }

  /** `str(i)` for any Python int. */
  function IntToDecimal(i: int): (s: string)
    ensures 1 <= |s|
    ensures i >= 0 <==> s[0] != '-'
  {
    if i >= 0 then NatToDecimal(i) else "-" + NatToDecimal(-i)
  }

  lemma {:induction false} DecimalRoundTrip(n: nat)
    ensures DecimalValue(NatToDecimal(n)) == n
  {
    if n >= 10 {
      DecimalRoundTrip(n / 10);
      var s := NatToDecimal(n);
      assert s[..|s| - 1] == NatToDecimal(n / 10);
    }
  }

  /** Python's `int()` on a float: truncation toward zero. */
  function TruncToInt(x: real): (n: int)
    ensures x >= 0.0 ==> n as real <= x < n as real + 1.0
    ensures x < 0.0 ==> n as real - 1.0 < x <= n as real
  {
    if x >= 0.0 then x.Floor else -((-x).Floor)
  }

  /** `int(a * b)` on floats. */
  function TruncProduct(a: real, b: real): (n: int)
    ensures a * b >= 0.0 ==> 0 <= n && n as real <= a * b < n as real + 1.0
  {
    TruncToInt(a * b)
  }

  /** On non-negative factors, `int(a * b)` grows with both. */
  lemma TruncProductMonotone(a1: real, a2: real, b1: real, b2: real)
    requires 0.0 <= a1 <= a2 && 0.0 <= b1 <= b2
    ensures TruncProduct(a1, b1) <= TruncProduct(a2, b2)
  {
    MulMonotone(a1, b1, b2);
    MulMonotone(b2, a1, a2);
    MulNonNegative(a1, b1);
    assert b2 * a1 == a1 * b2 && b2 * a2 == a2 * b2;
    assert a1 * b1 <= a2 * b2;
    TruncMonotone(a1 * b1, a2 * b2);
  }

  lemma MulNonNegative(a: real, b: real)
    requires a >= 0.0 && b >= 0.0
    ensures a * b >= 0.0
  {
  }

  lemma MulMonotone(a: real, x: real, y: real)
    requires a >= 0.0 && x <= y
    ensures a * x <= a * y
  {
  }

  lemma TruncMonotone(x: real, y: real)
    requires 0.0 <= x <= y
    ensures TruncToInt(x) <= TruncToInt(y)
  {
  }

  /** Python's `str.isspace()` for one character: the characters of
      bidirectional class WS, B or S and of category Zs. */
  predicate IsSpace(c: char) {
    c == '\t' || c == '\n' || c == '\U{000B}' || c == '\U{000C}' || c == '\r'
    || ('\U{001C}' <= c <= '\U{001F}') || c == ' ' || c == '\U{0085}' || c == '\U{00A0}'
    || c == '\U{1680}' || ('\U{2000}' <= c <= '\U{200A}') || c == '\U{2028}' || c == '\U{2029}'
    || c == '\U{202F}' || c == '\U{205F}' || c == '\U{3000}'
  }

  /** The suffix left after dropping the leading characters in `sp`. */
  function TrimLeft(s: string, sp: char -> bool): (r: string)
    ensures |r| <= |s| && r == s[|s| - |r|..]
    ensures r == [] || !sp(r[0])
    ensures forall i :: 0 <= i < |s| - |r| ==> sp(s[i])
  {
    if s != [] && sp(s[0]) then TrimLeft(s[1..], sp) else s
  }

  /** The prefix left after dropping the trailing characters in `sp`. */
  function TrimRight(s: string, sp: char -> bool): (r: string)
    ensures |r| <= |s| && r == s[..|r|]
    ensures r == [] || !sp(r[|r| - 1])
    ensures forall i :: |r| <= i < |s| ==> sp(s[i])
  {
    if s != [] && sp(s[|s| - 1]) then TrimRight(s[..|s| - 1], sp) else s
  }

  /** The characters in `sp` dropped from both ends. */
  function StripBy(s: string, sp: char -> bool): (r: string)
    ensures r == [] || (!sp(r[0]) && !sp(r[|r| - 1]))
  {
    TrimRight(TrimLeft(s, sp), sp)
  }

  /** A string that `StripBy` leaves as it is. */
  predicate StrippedBy(s: string, sp: char -> bool) {
    s == [] || (!sp(s[0]) && !sp(s[|s| - 1]))
  }

  lemma StripByOfStripped(s: string, sp: char -> bool)
    requires StrippedBy(s, sp)
    ensures StripBy(s, sp) == s
  {
  }

  /** One stripped character in front of a stripped text is dropped. */
  lemma StripLeading(c: char, rest: string, sp: char -> bool)
    requires sp(c) && rest != [] && StrippedBy(rest, sp)
    ensures StripBy([c] + rest, sp) == rest
  {
    assert ([c] + rest)[1..] == rest;
    StripByOfStripped(rest, sp);
  }

  /** Python's `str.strip()` with no argument. */
  function Strip(s: string): (r: string)
    ensures r == [] || (!IsSpace(r[0]) && !IsSpace(r[|r| - 1]))
    ensures IsStripped(r)
  {
    StripBy(s, IsSpace)
  }

  /** A string that `Strip` leaves as it is. */
  predicate IsStripped(s: string) {
    StrippedBy(s, IsSpace)
  }

  lemma StripOfStripped(s: string)
    requires IsStripped(s)
    ensures Strip(s) == s
  {
    StripByOfStripped(s, IsSpace);
  }

  /** Python's `s.split(sep)` for a one-character separator: the pieces
      between separators, always at least one piece. */
  function Split(s: string, sep: char): (parts: seq<string>)
    ensures |parts| >= 1
    ensures forall i :: 0 <= i < |parts| ==> sep !in parts[i]
    decreases |s|
  {
    if sep !in s then [s]
    else
      var k := FirstIndex(s, sep);
      [s[..k]] + Split(s[k + 1..], sep)
  }

  function FirstIndex(s: string, c: char): (k: nat)
    requires c in s
    ensures k < |s| && s[k] == c && c !in s[..k]
  {
    if s[0] == c then 0 else 1 + FirstIndex(s[1..], c)
  }

  /** `sep.join(parts)`. */
  function Join(parts: seq<string>, sep: char): string {
    if |parts| == 0 then ""
    else if |parts| == 1 then parts[0]
    else parts[0] + [sep] + Join(parts[1..], sep)
  }

  /** Splitting a joined list gives the list back when no piece contains
      the separator. */
  lemma {:induction false} SplitJoin(parts: seq<string>, sep: char)
    requires |parts| >= 1
    requires forall i :: 0 <= i < |parts| ==> sep !in parts[i]
    ensures Split(Join(parts, sep), sep) == parts
  {
    if |parts| > 1 {
      var rest := Join(parts[1..], sep);
      var s := parts[0] + [sep] + rest;
      assert s[|parts[0]|] == sep;
      assert s[..|parts[0]|] == parts[0];
      assert FirstIndex(s, sep) == |parts[0]|;
      assert s[|parts[0]| + 1..] == rest;
      SplitJoin(parts[1..], sep);
    }
  }

  /** ASCII lower-casing, the part of `str.lower()` that the model needs. */
  function AsciiLower(s: string): (r: string)
    ensures |r| == |s|
    ensures forall i :: 0 <= i < |s| ==> r[i] == if 'A' <= s[i] <= 'Z' then (s[i] as int + 32) as char else s[i]
  {
    if s == [] then [] else [if 'A' <= s[0] <= 'Z' then (s[0] as int + 32) as char else s[0]] + AsciiLower(s[1..])
  }
}

=== FILE: psbt.dfy ===
/** The arithmetic of the PSBT builder: coin selection, the fee and size
    estimates and the change-output rule. Talking to the Bitcoin node,
    converting BTC amounts to satoshis and building the PSBT itself are
    not modelled; UTXO amounts arrive as whole satoshis. */
module Psbt {
  import opened Prelude

  const InputSizeBytes: int := 148
  const OutputSizeBytes: int := 34
  const TxOverheadBytes: int := 10
  const DustThresholdSats: int := 546
  /** The margin coin selection aims for above the target, for fees. */
  const FeeBufferSats: int := 10000

  /** One unspent output of the wallet. */
  datatype Utxo = Utxo(txid: string, vout: int, amountSats: nat, scriptPubKey: string)

  /** One output of the transaction being built. */
  datatype Output = Output(address: string, amountSats: int)

  datatype PsbtError = InsufficientFunds(need: int, have: int)

  /** The total amount of a list of UTXOs. */
  function Sum(s: seq<Utxo>): (total: nat)
    ensures s == [] ==> total == 0
  {
    if s == [] then 0 else s[0].amountSats + Sum(s[1..])
  }

  lemma {:induction false} SumAppend(a: seq<Utxo>, b: seq<Utxo>)
    ensures Sum(a + b) == Sum(a) + Sum(b)
  {
    if a == [] {
      assert a + b == b;
    } else {
      assert (a + b)[1..] == a[1..] + b;
      SumAppend(a[1..], b);
    }
  }

  /** A prefix never holds more than the whole list. */
  lemma SumPrefix(s: seq<Utxo>, k: nat)
    requires k <= |s|
    ensures Sum(s[..k]) <= Sum(s)
  {
    assert s == s[..k] + s[k..];
    SumAppend(s[..k], s[k..]);
  }

  // -----------------------------------------------------------------------
  // Sorting by amount, largest first, keeping equal amounts in order

  predicate SortedDesc(s: seq<Utxo>) {
    forall i, j :: 0 <= i < j < |s| ==> s[i].amountSats >= s[j].amountSats
  }

  /** Puts `x` after every element at least as large as it. */
  function Insert(x: Utxo, t: seq<Utxo>): (r: seq<Utxo>)
    ensures |r| == |t| + 1
  {
    if t == [] then [x]
    else if t[0].amountSats < x.amountSats then [x] + t
    else [t[0]] + Insert(x, t[1..])
  }

  /** `sorted(utxos, key=amount, reverse=True)`: Python's sort is stable,
      so UTXOs of equal amount keep their relative order. Each element
      in turn is inserted after the equal ones already placed. */
  function SortDesc(s: seq<Utxo>): (r: seq<Utxo>)
    ensures |r| == |s|
  {
    if s == [] then [] else Insert(s[|s| - 1], SortDesc(s[..|s| - 1]))
  }

  lemma {:induction false} InsertPermutes(x: Utxo, t: seq<Utxo>)
    ensures multiset(Insert(x, t)) == multiset(t) + multiset{x}
  {
    if t != [] && t[0].amountSats >= x.amountSats {
      InsertPermutes(x, t[1..]);
      assert t == [t[0]] + t[1..];
    }
  }

  lemma {:induction false} InsertSorted(x: Utxo, t: seq<Utxo>)
    requires SortedDesc(t)
    ensures SortedDesc(Insert(x, t))
  {
    if t != [] && t[0].amountSats >= x.amountSats {
      var rest := Insert(x, t[1..]);
      InsertSorted(x, t[1..]);
      assert rest[0] == x || rest[0] == t[1];
      var r := [t[0]] + rest;
      forall i, j | 0 <= i < j < |r|
        ensures r[i].amountSats >= r[j].amountSats
      {
        if i == 0 {
          assert r[j] == rest[j - 1];
          assert rest[0].amountSats >= rest[j - 1].amountSats;
        } else {
          assert r[i] == rest[i - 1] && r[j] == rest[j - 1];
        }
      }
    }
  }

  lemma PrefixSnoc(s: seq<Utxo>, i: nat)
    requires i < |s|
    ensures s[..i + 1] == s[..i] + [s[i]]
  {
  }

  lemma SplitLast(s: seq<Utxo>)
    requires s != []
    ensures s == s[..|s| - 1] + [s[|s| - 1]]
  {
  }

  /** The sort yields a descending permutation of its input. */
  lemma {:induction false} SortDescCorrect(s: seq<Utxo>)
    ensures SortedDesc(SortDesc(s))
    ensures multiset(SortDesc(s)) == multiset(s)
  {
    if s != [] {
      var init := s[..|s| - 1];
      SplitLast(s);
      SortDescCorrect(init);
      InsertSorted(s[|s| - 1], SortDesc(init));
      InsertPermutes(s[|s| - 1], SortDesc(init));
    }
  }

  lemma {:induction false} InsertSum(x: Utxo, t: seq<Utxo>)
    ensures Sum(Insert(x, t)) == Sum(t) + x.amountSats
  {
    if t != [] && t[0].amountSats >= x.amountSats {
      InsertSum(x, t[1..]);
    }
  }

  /** Sorting keeps the total. */
  lemma {:induction false} SortKeepsSum(s: seq<Utxo>)
    ensures Sum(SortDesc(s)) == Sum(s)
  {
    if s != [] {
      var init := s[..|s| - 1];
      SplitLast(s);
      SortKeepsSum(init);
      InsertSum(s[|s| - 1], SortDesc(init));
      SumAppend(init, [s[|s| - 1]]);
    }
  }

  /** The UTXOs of one given amount, in their order. */
  function OfAmount(s: seq<Utxo>, a: nat): (r: seq<Utxo>)
    ensures |r| <= |s|
    ensures forall i :: 0 <= i < |r| ==> r[i].amountSats == a
  {
    if s == [] then []
    else (if s[0].amountSats == a then [s[0]] else []) + OfAmount(s[1..], a)
  }

  lemma {:induction false} OfAmountAppend(s: seq<Utxo>, t: seq<Utxo>, a: nat)
    ensures OfAmount(s + t, a) == OfAmount(s, a) + OfAmount(t, a)
  {
    if s == [] {
      assert s + t == t;
    } else {
      assert (s + t)[1..] == s[1..] + t;
      OfAmountAppend(s[1..], t, a);
    }
  }

  lemma {:induction false} OfAmountNoneBelow(t: seq<Utxo>, a: nat)
    requires forall i :: 0 <= i < |t| ==> t[i].amountSats < a
    ensures OfAmount(t, a) == []
  {
    if t != [] {
      OfAmountNoneBelow(t[1..], a);
    }
  }

  lemma {:induction false} InsertStable(x: Utxo, t: seq<Utxo>, a: nat)
    requires SortedDesc(t)
    ensures OfAmount(Insert(x, t), a) == OfAmount(t, a) + (if x.amountSats == a then [x] else [])
  {
    if t == [] {
    } else if t[0].amountSats < x.amountSats {
      if x.amountSats == a {
        OfAmountNoneBelow(t, a);
      }
      assert ([x] + t)[1..] == t;
    } else {
      InsertStable(x, t[1..], a);
      assert ([t[0]] + Insert(x, t[1..]))[1..] == Insert(x, t[1..]);
    }
  }

  /** Stability: for every amount, the UTXOs carrying it appear in the
      sorted list in the order they had in the input. */
  lemma {:induction false} SortDescStable(s: seq<Utxo>, a: nat)
    ensures OfAmount(SortDesc(s), a) == OfAmount(s, a)
  {
    if s != [] {
      var init := s[..|s| - 1];
      var x := s[|s| - 1];
      SplitLast(s);
      SortDescStable(init, a);
      SortDescCorrect(init);
      InsertStable(x, SortDesc(init), a);
      OfAmountAppend(init, [x], a);
    }
  }

  // -----------------------------------------------------------------------
  // _select_utxos

  /** `k` is the length of the shortest non-empty prefix of `s` whose total
      reaches `goal`, or all of `s` when no prefix does. */
  predicate ShortestReaching(s: seq<Utxo>, goal: int, k: nat) {
    && k <= |s|
    && (s != [] ==> k >= 1)
    && (forall j :: 1 <= j < k ==> Sum(s[..j]) < goal)
    && (k < |s| ==> Sum(s[..k]) >= goal)
  }

  /** At most one length fits that description. */
  lemma ShortestReachingUnique(s: seq<Utxo>, goal: int, k1: nat, k2: nat)
    requires ShortestReaching(s, goal, k1) && ShortestReaching(s, goal, k2)
    ensures k1 == k2
  {
  }

  /** `_select_utxos(utxos, target)`: walks the UTXOs largest first,
      taking each one and stopping once the total reaches the target plus
      the fee buffer; fails when what it took falls short of the target.
      It fails exactly when the wallet as a whole holds less than the
      target. */
  method SelectUtxos(utxos: seq<Utxo>, target: int) returns (r: Result<seq<Utxo>, PsbtError>)
    ensures r.Failure? <==> Sum(utxos) < target
    ensures r.Failure? ==> r.error == InsufficientFunds(target, Sum(utxos))
    ensures r.Success? ==>
      && ShortestReaching(SortDesc(utxos), target + FeeBufferSats, |r.value|)
      && r.value == SortDesc(utxos)[..|r.value|]
      && target <= Sum(r.value) <= Sum(utxos)
  {
    var sorted := SortDesc(utxos);
    SortKeepsSum(utxos);
    var selected, total := TakeUntil(sorted, target + FeeBufferSats);
    SumPrefix(sorted, |selected|);
    if total < target {
      assert |selected| == |sorted|;
      assert sorted[..|selected|] == sorted;
      r := Failure(InsufficientFunds(target, total));
    } else {
      r := Success(selected);
    }
  }

  /** The loop of `_select_utxos`: take UTXOs from the front until their
      total reaches `goal` or none are left. */
  method TakeUntil(sorted: seq<Utxo>, goal: int) returns (selected: seq<Utxo>, total: int)
    ensures ShortestReaching(sorted, goal, |selected|)
    ensures selected == sorted[..|selected|]
    ensures total == Sum(selected)
  {
    selected := [];
    total := 0;
    var i := 0;
    while i < |sorted|
      invariant 0 <= i <= |sorted|
      invariant selected == sorted[..i]
      invariant total == Sum(selected)
      invariant forall j :: 1 <= j <= i ==> Sum(sorted[..j]) < goal
    {
      var x := sorted[i];
      PrefixSnoc(sorted, i);
      SumAppend(selected, [x]);
      selected := selected + [x];
      total := total + x.amountSats;
      i := i + 1;
      if total >= goal {
        break;
      }
    }
  }

  /** Thirty, twenty and ten thousand satoshis against a target of forty
      thousand: the two largest are taken, since their fifty thousand
      meets the target plus the buffer. */
  lemma SelectionExample()
    ensures ShortestReaching(
      [Utxo("tx1", 0, 30000, ""), Utxo("tx2", 1, 20000, ""), Utxo("tx3", 2, 10000, "")],
      40000 + FeeBufferSats, 2)
  {
    var s := [Utxo("tx1", 0, 30000, ""), Utxo("tx2", 1, 20000, ""), Utxo("tx3", 2, 10000, "")];
    assert s[..1] == [s[0]];
    assert s[..2] == [s[0], s[1]];
  }

  // -----------------------------------------------------------------------
  // _estimate_tx_size and _estimate_fee

  /** `_estimate_tx_size(input_count, output_count)` in bytes. */
  function EstimateTxSize(inputCount: int, outputCount: int): (size: int)
    ensures inputCount >= 0 && outputCount >= 0 ==> size >= TxOverheadBytes
  {
    inputCount * InputSizeBytes + outputCount * OutputSizeBytes + TxOverheadBytes
  }

  /** The estimate is the overhead alone for an empty transaction and
      grows by 148 bytes per input and 34 bytes per output. */
  lemma TxSizeSteps(i: int, o: int)
    ensures EstimateTxSize(0, 0) == 10
    ensures EstimateTxSize(i + 1, o) == EstimateTxSize(i, o) + 148
    ensures EstimateTxSize(i, o + 1) == EstimateTxSize(i, o) + 34
  {
  }

  /** `_estimate_fee(inputs, output_amount, fee_rate)`: the size of a
      transaction with these inputs and two outputs, times the rate,
      truncated toward zero. The output amount plays no part. */
  function EstimateFee(inputs: seq<Utxo>, outputAmount: int, feeRate: real): (fee: int)
    ensures feeRate >= 0.0 ==> 0 <= fee
    ensures feeRate >= 0.0 ==>
      fee as real <= EstimateTxSize(|inputs|, 2) as real * feeRate < fee as real + 1.0
  {
    TruncProduct(EstimateTxSize(|inputs|, 2) as real, feeRate)
  }

  /** The fee does not depend on the amount being sent. */
  lemma FeeIgnoresAmount(inputs: seq<Utxo>, a1: int, a2: int, feeRate: real)
    ensures EstimateFee(inputs, a1, feeRate) == EstimateFee(inputs, a2, feeRate)
  {
  }

  /** At a non-negative rate, more inputs never cost less. */
  lemma FeeMonotoneInInputs(fewer: seq<Utxo>, more: seq<Utxo>, amount: int, feeRate: real)
    requires |fewer| <= |more| && feeRate >= 0.0
    ensures EstimateFee(fewer, amount, feeRate) <= EstimateFee(more, amount, feeRate)
  {
    TruncProductMonotone(EstimateTxSize(|fewer|, 2) as real, EstimateTxSize(|more|, 2) as real, feeRate, feeRate);
  }

  /** Two inputs at ten satoshis per byte: 374 bytes, 3740 satoshis. */
  lemma FeeExample(a: Utxo, b: Utxo, amount: int)
    ensures EstimateTxSize(2, 2) == 374
    ensures EstimateFee([a, b], amount, 10.0) == 3740
  {
    assert EstimateTxSize(2, 2) as real * 10.0 == 3740.0;
  }

  // -----------------------------------------------------------------------
  // The change rule of create_psbt

  /** The outputs of the transaction: the payment, then a change output
      for what is left after the amount and the fee, only when that is
      above the dust threshold. */
  function PlanOutputs(destination: string, amount: int, changeAddress: string,
                       totalInput: int, fee: int): (outs: seq<Output>)
    ensures 1 <= |outs| <= 2 && outs[0] == Output(destination, amount)
    ensures |outs| == 2 <==> totalInput - amount - fee > DustThresholdSats
    ensures |outs| == 2 ==> outs[1] == Output(changeAddress, totalInput - amount - fee)
  {
    var change := totalInput - amount - fee;
    [Output(destination, amount)] + (if change > DustThresholdSats then [Output(changeAddress, change)] else [])
  }

  function OutputTotal(outs: seq<Output>): int {
    if outs == [] then 0 else outs[0].amountSats + OutputTotal(outs[1..])
  }

  /** Every input satoshi is accounted for: with a change output the
      outputs plus the fee use up the inputs exactly; without one, what
      the miners get beyond the fee is at most the dust threshold. */
  lemma OutputsBalance(destination: string, amount: int, changeAddress: string, totalInput: int, fee: int)
    ensures var outs := PlanOutputs(destination, amount, changeAddress, totalInput, fee);
      && (|outs| == 2 ==> OutputTotal(outs) + fee == totalInput)
      && (|outs| == 1 ==> totalInput - OutputTotal(outs) - fee <= DustThresholdSats)
  {
    var outs := PlanOutputs(destination, amount, changeAddress, totalInput, fee);
    assert OutputTotal(outs) == amount + OutputTotal(outs[1..]);
    if |outs| == 2 {
      assert outs[1..][1..] == [];
    }
  }

  /** The recorded size counts the outputs actually planned. */
  lemma PlannedSize(inputs: seq<Utxo>, destination: string, amount: int, changeAddress: string, totalInput: int, fee: int)
    ensures var outs := PlanOutputs(destination, amount, changeAddress, totalInput, fee);
      EstimateTxSize(|inputs|, |outs|)
        == |inputs| * 148 + 10 + (if totalInput - amount - fee > DustThresholdSats then 68 else 34)
  {
  }
}

=== FILE: validation.dfy ===
/** Input validators: Bitcoin address shape and network checks, amount and
    fee-rate ranges. Python values of mixed type are modelled by
    `PyValue`; floats are modelled as reals. */
module Validation {
  import opened Prelude

  // -----------------------------------------------------------------------
  // Addresses

  datatype AddressError =
    | EmptyAddress
    | BadLength
    | BadFormat
    | TestnetOnMainnet
    | MainnetOnTestnet

  /** The character class `[a-km-zA-HJ-NP-Z1-9]`: base58, which has no
      `0`, `O`, `I` or `l`. */
  predicate IsBase58(c: char) {
    || ('a' <= c <= 'k') || ('m' <= c <= 'z')
    || ('A' <= c <= 'H') || ('J' <= c <= 'N') || ('P' <= c <= 'Z')
    || ('1' <= c <= '9')
  }

  /** The character class `[a-z0-9]`. */
  predicate IsLowerAlnum(c: char) {
    ('a' <= c <= 'z') || ('0' <= c <= '9')
  }

  predicate StartsWith(s: string, prefix: string) {
    |prefix| <= |s| && s[..|prefix|] == prefix
  }

  /** `[13][base58]{25,34}` matching the whole string. */
  predicate LegacyShape(a: string) {
    && 26 <= |a| <= 35
    && (a[0] == '1' || a[0] == '3')
    && forall i :: 1 <= i < |a| ==> IsBase58(a[i])
  }

  /** `<hrp>1[a-z0-9]{39,59}` matching the whole string, for `bc` or `tb`. */
  predicate Bech32Shape(a: string, prefix: string) {
    && |prefix| == 3
    && 42 <= |a| <= 62
    && a[..3] == prefix
    && forall i :: 3 <= i < |a| ==> IsLowerAlnum(a[i])
  }

  /** One of the three address shapes, over the whole string. */
  predicate AddressShape(a: string) {
    LegacyShape(a) || Bech32Shape(a, "bc1") || Bech32Shape(a, "tb1")
  }

  /** What `re.match` with the pattern anchored by `^...$` accepts: Python's
      `$` also matches just before a final newline, so a shape followed by
      one `"\n"` passes as well. */
  predicate PatternMatchesAsWritten(a: string) {
    AddressShape(a) || (|a| >= 1 && a[|a| - 1] == '\n' && AddressShape(a[..|a| - 1]))
  }

  /** The length, shape and network checks of `validate_bitcoin_address`,
      given which pattern test is used. */
  function CheckAddress(a: string, network: string, matches: bool): (r: Result<bool, AddressError>)
    ensures r.Success? ==> r.value
  {
    if a == [] then Failure(EmptyAddress)
    else if |a| < 26 || |a| > 62 then Failure(BadLength)
    else if !matches then Failure(BadFormat)
    else if network == "mainnet"
      && (StartsWith(a, "tb1") || StartsWith(a, "2") || StartsWith(a, "m") || StartsWith(a, "n"))
    then Failure(TestnetOnMainnet)
    else if network == "testnet"
      && (StartsWith(a, "bc1") || StartsWith(a, "1") || StartsWith(a, "3"))
    then Failure(MainnetOnTestnet)
    else Success(true)
  }

  /** `validate_bitcoin_address` as written, with the `$` anchor. */
  function ValidateBitcoinAddressAsWritten(a: string, network: string): (r: Result<bool, AddressError>)
    ensures r.Success? ==> PatternMatchesAsWritten(a)
  {
    CheckAddress(a, network, PatternMatchesAsWritten(a))
  }

  /** `validate_bitcoin_address` with the pattern anchored at the very end
      of the string (`\Z`, or `re.fullmatch`). */
  function ValidateBitcoinAddress(a: string, network: string): (r: Result<bool, AddressError>)
    ensures r.Success? ==> AddressShape(a)
  {
    CheckAddress(a, network, AddressShape(a))
  }

  /** What the validator accepts: exactly the three shapes, less the
      other network's: on mainnet `1`, `3` and `bc1` addresses, on testnet
      only `tb1` addresses, on any other network all three shapes. */
  lemma AcceptedAddresses(a: string, network: string)
    ensures network == "mainnet" ==>
      (ValidateBitcoinAddress(a, network).Success? <==> LegacyShape(a) || Bech32Shape(a, "bc1"))
    ensures network == "testnet" ==>
      (ValidateBitcoinAddress(a, network).Success? <==> Bech32Shape(a, "tb1"))
    ensures network != "mainnet" && network != "testnet" ==>
      (ValidateBitcoinAddress(a, network).Success? <==> AddressShape(a))
  {
    if AddressShape(a) {
      assert a != [] && 26 <= |a| <= 62;
      if LegacyShape(a) {
        assert a[..1] == [a[0]];
        assert !StartsWith(a, "tb1") && !StartsWith(a, "bc1") by {
          assert a[..3][0] == a[0];
        }
      }
      if Bech32Shape(a, "bc1") || Bech32Shape(a, "tb1") {
        assert a[..1] == [a[..3][0]];
      }
    }
  }

  /** Every address the corrected validator accepts, the as-written one
      accepts too. */
  lemma CorrectedIsStricter(a: string, network: string)
    ensures ValidateBitcoinAddress(a, network).Success? ==> ValidateBitcoinAddressAsWritten(a, network).Success?
  {
  }

  const NewlineAddress: string := "11111111111111111111111111\n"

  /** The as-written validator accepts a legacy-shaped address followed by a
      newline, 27 characters long, on mainnet; the corrected one refuses it
      as badly formatted. */
  lemma TrailingNewlineAccepted()
    ensures ValidateBitcoinAddressAsWritten(NewlineAddress, "mainnet") == Success(true)
    ensures ValidateBitcoinAddress(NewlineAddress, "mainnet") == Failure(BadFormat)
  {
    var a := NewlineAddress;
    var core := a[..|a| - 1];
    assert |a| == 27 && a[26] == '\n';
    assert LegacyShape(core);
    assert !IsBase58(a[26]);
    assert !LegacyShape(a);
    assert a[..3] != "bc1" && a[..3] != "tb1" by {
      assert a[0] == '1';
    }
    assert !StartsWith(a, "tb1") && !StartsWith(a, "2") && !StartsWith(a, "m") && !StartsWith(a, "n") by {
      assert a[..1] == "1";
    }
  }

  /** `is_valid_bitcoin_address`: whether the validator accepts. */
  function IsValidBitcoinAddress(a: string, network: string): (ok: bool)
    ensures ok <==> ValidateBitcoinAddress(a, network) == Success(true)
    ensures ok ==> AddressShape(a)
  {
    ValidateBitcoinAddress(a, network).Success?
  }

  /** `is_valid_bitcoin_address` over the validator as written. */
  function IsValidBitcoinAddressAsWritten(a: string, network: string): (ok: bool)
    ensures ok <==> ValidateBitcoinAddressAsWritten(a, network) == Success(true)
    ensures ok ==> PatternMatchesAsWritten(a)
  {
    ValidateBitcoinAddressAsWritten(a, network).Success?
  }

  /** The boolean check as written calls the newline-terminated legacy
      address valid on mainnet; over the corrected validator it is not. */
  lemma NewlineAddressCalledValid()
    ensures IsValidBitcoinAddressAsWritten(NewlineAddress, "mainnet")
    ensures !IsValidBitcoinAddress(NewlineAddress, "mainnet")
  {
    TrailingNewlineAccepted();
  }

  /** The index of the first address the validator refuses. */
  function FirstInvalid(addresses: seq<string>, network: string): (k: Option<nat>)
    ensures k.None? <==> forall i :: 0 <= i < |addresses| ==> IsValidBitcoinAddress(addresses[i], network)
    ensures k.Some? ==>
      && k.value < |addresses| && !IsValidBitcoinAddress(addresses[k.value], network)
      && (forall i :: 0 <= i < k.value ==> IsValidBitcoinAddress(addresses[i], network))
  {
    if addresses == [] then None
    else if !IsValidBitcoinAddress(addresses[0], network) then Some(0)
    else
      match FirstInvalid(addresses[1..], network)
      case None => None
      case Some(j) => Some(j + 1)
  }

  /** `validate_bitcoin_addresses`: the list itself when every address is
      valid, otherwise the error of the first invalid one. */
  method ValidateBitcoinAddresses(addresses: seq<string>, network: string) returns (r: Result<seq<string>, AddressError>)
    ensures r.Success? <==> FirstInvalid(addresses, network).None?
    ensures r.Success? ==> r.value == addresses
    ensures r.Failure? ==>
      r == Failure(ValidateBitcoinAddress(addresses[FirstInvalid(addresses, network).value], network).error)
  {
    var valid: seq<string> := [];
    var i := 0;
    while i < |addresses|
      invariant 0 <= i <= |addresses|
      invariant valid == addresses[..i]
      invariant forall j :: 0 <= j < i ==> IsValidBitcoinAddress(addresses[j], network)
    {
      var checked := ValidateBitcoinAddress(addresses[i], network);
      if checked.Failure? {
        FirstInvalidAt(addresses, network, i);
        return Failure(checked.error);
      }
      valid := valid + [addresses[i]];
      i := i + 1;
    }
    assert addresses[..i] == addresses;
    r := Success(valid);
  }

  /** The first refused address is the first index the loop stops at. */
  lemma FirstInvalidAt(addresses: seq<string>, network: string, i: nat)
    requires i < |addresses| && !IsValidBitcoinAddress(addresses[i], network)
    requires forall j :: 0 <= j < i ==> IsValidBitcoinAddress(addresses[j], network)
    ensures FirstInvalid(addresses, network) == Some(i)
  {
  }

  // -----------------------------------------------------------------------
  // Amounts and fee rates

  /** A Python argument of one of the types the validators are called
      with; `bool` is a subclass of `int` in Python. */
  datatype PyValue =
    | PyInt(i: int)
    | PyBool(b: bool)
    | PyFloat(r: real)
    | PyStr(s: string)
    | PyNone
    | PyList
    | PyDict

  datatype ValueError = NotAnInteger | NotANumber | NotPositive | ExceedsSupply | TooHigh

  /** 21 million bitcoin, in satoshis. */
  const MaxSats: int := 21_000_000 * 100_000_000

  /** The integer value of an `int` or `bool` argument. */
  function AsInt(v: PyValue): Option<int> {
    match v
    case PyInt(i) => Some(i)
    case PyBool(b) => Some(if b then 1 else 0)
    case _ => None
  }

  /** `validate_amount_sats`. */
  function ValidateAmountSats(v: PyValue): (r: Result<bool, ValueError>)
    ensures r.Success? <==> AsInt(v).Some? && 1 <= AsInt(v).value <= MaxSats
    ensures AsInt(v).None? ==> r == Failure(NotAnInteger)
  {
    match AsInt(v)
    case None => Failure(NotAnInteger)
    case Some(amount) =>
      if amount <= 0 then Failure(NotPositive)
      else if amount > MaxSats then Failure(ExceedsSupply)
      else Success(true)
  }

  /** The boundary amounts: 1 and the whole supply pass, 0 and one more
      than the supply fail, and so do a string and a float. */
  lemma AmountBoundaries()
    ensures ValidateAmountSats(PyInt(1)).Success? && ValidateAmountSats(PyInt(2_100_000_000_000_000)).Success?
    ensures ValidateAmountSats(PyInt(0)) == Failure(NotPositive)
    ensures ValidateAmountSats(PyInt(2_100_000_000_000_001)) == Failure(ExceedsSupply)
    ensures ValidateAmountSats(PyStr("1000")) == Failure(NotAnInteger)
    ensures ValidateAmountSats(PyFloat(1.5)) == Failure(NotAnInteger)
  {
  }

  /** The numeric value of an `int`, `bool` or `float` argument. */
  function AsNumber(v: PyValue): Option<real> {
    match v
    case PyInt(i) => Some(i as real)
    case PyBool(b) => Some(if b then 1.0 else 0.0)
    case PyFloat(r) => Some(r)
    case _ => None
  }

  /** `validate_fee_rate`. */
  function ValidateFeeRate(v: PyValue): (r: Result<bool, ValueError>)
    ensures r.Success? <==> AsNumber(v).Some? && 0.0 < AsNumber(v).value <= 1000.0
    ensures AsNumber(v).None? ==> r == Failure(NotANumber)
  {
    match AsNumber(v)
    case None => Failure(NotANumber)
    case Some(rate) =>
      if rate <= 0.0 then Failure(NotPositive)
      else if rate > 1000.0 then Failure(TooHigh)
      else Success(true)
  }

  /** The boundary fee rates: 1000 and 100.99 pass, 0 and 1001 fail, and
      so does the string "10". */
  lemma FeeRateBoundaries()
    ensures ValidateFeeRate(PyInt(1000)).Success? && ValidateFeeRate(PyFloat(100.99)).Success?
    ensures ValidateFeeRate(PyInt(0)) == Failure(NotPositive)
    ensures ValidateFeeRate(PyInt(1001)) == Failure(TooHigh)
    ensures ValidateFeeRate(PyStr("10")) == Failure(NotANumber)
  {
  }
}
